=== FILE: README.md ===
# limex in Dafny

A model of limex, a small expression engine in one C++ header (`limex.h`).
An `Expression` is built from a string and a `Handle` of callables. It reads
the string in two passes:

1. `tokenize` turns the string into a tree of tokens.
2. `buildTree` turns the token tree into a tree of `Node`s. Along the way it
   collects the names of variables and collections into two tables.

`evaluate` then computes the value of the node tree for given variable and
collection values, and `stringify` prints it. The `Handle` holds the callables
by name: fourteen built-ins (`if_then_else`, `n_ary_if`, `abs`, `pow`, `sqrt`,
`cbrt`, `sum`, `avg`, `count`, `min`, `max`, `element_of`, `not_element_of`,
`at`) and any that `add` registers later.

The modules follow that structure:

- `Basics`: `Option`, `Result`, the error kinds, and a first-index search.
- `Syntax`: the node kinds, the operator spellings and their precedences.
- `Lexer`: `tokenize` and its helpers `skipWhitespaces`, `startsWith` and
  `fetch`.
  - The loop is specified as a state machine on a stack of open frames:
    `Step`, `LexFrom`, `Lex`.
  - It is also implemented as methods that are proved to compute it
    (`Tokenize` and the `Read…` stages).
- `LexErrors`: the errors `tokenize` raises.
- `LexedInputs`: the token trees `tokenize` produces for four expressions of
  the test list.
- `LexedShape`: a property of lexed token trees. No list begins with a
  `then` or `?` branch.
- `Builder`: `buildTree` specified as functions on the node and operator
  stacks (`Step`, `Run`, `Build`, `Parse`). It also holds number parsing and
  name interning.
- `Parsing`: the `Expression` class. Its methods (`Parse`, `BuildTree`,
  `Consume`, `CreateNode`, `GetIndex`) update its tables in place. Each method
  is proved to compute the `Builder` functions.
- `Reduction`: the operator-stack discipline and the operand count of a list.
- `Scoping`: every index a parsed tree holds lies within the final tables.
- `Evaluator`: `Node::evaluate` and `Node::stringify`.
- `Registry`: the built-ins (functions, plus the accumulator loops as methods
  proved equal to them) and the `Handle` class with `add` and `getIndex`.
- `Scenarios`: the trees and values of expressions from the library's test
  list (`test.h`).
- `RootCloser`, `NestedAssignment`, `CompoundDivision`: the three findings
  below.

Modelling choices:

- The value type is `real`. A boolean is 1.0 or 0.0, and any non-zero value is
  true.
- `std::pow`, `std::sqrt` and `std::cbrt` are fields of a `MathLibrary` value.
  The conversion of a number to text in `stringify` is a `render` parameter.
- Characters are Unicode scalar values, so `≤` or `∑` is one character.
- A callable is a function from the argument values to a `Result`. An error
  that the C++ code throws is an `Err` value.
- Reading `variableValues[i]` or `collectionValues[c]` past the end is
  undefined behaviour in C++. Here it gives the error `MissingBinding`.

## Model

| member | source | states |
|---|---|---|
| Syntax.InfixKindsHavePrecedence | limex.h:231-314 | every infix spelling maps to an operator kind that has a precedence, and none maps to `if_` or `if_then_else` |
| Lexer.SpanIsMaximalRun | limex.h:836-844 | the run of a character class starting at `pos` is maximal: all characters before its end belong to the class, and the one at its end (if any) does not |
| Lexer.SkipWhitespaces | limex.h:1007-1013 | the loop stops at the end of the maximal run of white space |
| Lexer.ConsumeRun | limex.h:836-850 | the loop returns the maximal run of a class and the position where it ends |
| Lexer.Fetch | limex.h:1034-1041 | a non-empty result is a candidate the input starts with at `start` |
| Lexer.FetchIsFirstMatch | limex.h:1016-1041 | `fetch` gives "" exactly when no candidate matches at `start`; otherwise it gives the first matching candidate in list order, where a match that ends in a word character must not be followed by one |
| Lexer.FetchFirst | limex.h:1034-1041 | the loop over the candidates computes `Fetch` |
| Lexer.FetchMissesFirstCharacter | limex.h:1034-1041 | no candidate is fetched when none starts with the character at `start` |
| Lexer.PrefixStage | limex.h:798-810 | the prefix stage never starts a new iteration, and its only error is a prefix operator that ends the input |
| Lexer.OperandStage | limex.h:811-925 | the operand stage either advances the position or falls through; its only errors are a symbolic name without arguments and an unexpected operand |
| Lexer.CloseOrInfix | limex.h:937-998 | the closing or infix stage always advances the position when it succeeds |
| Lexer.Step | limex.h:794-999 | every completed iteration of the loop advances the position, so `tokenize` terminates |
| Lexer.StepKeepsFrames | limex.h:940-967 | with the root frame's `#` closer removed (the correction of the first finding), an iteration keeps the frame invariant: only the root frame lacks a closer, and every closer is a non-empty spelling; so no iteration ever finds the group stack empty |
| Lexer.Lex | limex.h:787-1004 | `tokenize` as a state machine; its properties are stated by `Lexer.Step` (termination), `Lexer.StepKeepsFrames`, `RootCloser.LexNeverEmptiesTheStack`, `LexedShape.LexedRootLeads`, the `LexErrors` lemmas and the `LexedInputs` traces |
| Lexer.Tokenize | limex.h:787-1004 | the loop over the input computes `Lex` exactly: the token tree, or the first error |
| Lexer.ReadPrefix | limex.h:798-810 | the prefix step computes `PrefixStage` |
| Lexer.ReadOperand | limex.h:811-925 | the operand step (keywords, `if`, `then`/`else`, numbers, names, symbols, brackets) computes `OperandStage` |
| Lexer.ReadPostfix | limex.h:927-935 | the postfix step computes `PostfixStage` |
| Lexer.ReadCloserOrInfix | limex.h:937-998 | the closing and infix step computes `CloseOrInfix` |
| LexErrors.PrefixAloneRaises | limex.h:803-805 | a prefix operator that is the whole input raises the prefix-without-operand error |
| LexErrors.UnclosedParenthesisRaises | limex.h:1000-1002 | `(` leaves its group open at the end of the input, and `tokenize` raises the unbalanced-delimiters error |
| LexErrors.CloserWithoutOperandRaises | limex.h:921-923 | `)` where an operand is expected raises the unexpected-operand error |
| LexErrors.AdjacentOperandsRaise | limex.h:969-998 | in `1 2` the second number fits neither a closer nor an infix token and raises the unexpected-character error |
| LexedInputs.LexDifference | limex.h:787-1004 | `tokenize` turns `3 - 5 + 2` into the root list of the three numbers with `-` and `+` between them |
| LexedInputs.LexPowers | limex.h:787-1004 | `tokenize` turns `2^3^2` into the root list `2`, `^`, `3`, `^`, `2` |
| LexedInputs.LexCompared | limex.h:787-1004 | `tokenize` turns `1>0 ? 1 : 2` into the root list `1`, `>`, `0`, a `?` group holding `1`, `:`, `2` |
| LexedInputs.KeywordIteration | limex.h:811-822 | `true` or `false` where an operand is expected is emitted as the number 1 or 0, and an infix token is expected next |
| LexedInputs.QuestionAfterKeyword | limex.h:978-986 | a `?` where an infix token is expected opens a `?` group that `:` closes |
| LexedInputs.DigitBranch | limex.h:952-960 | `:` closes a `?` group holding one number, and is emitted as an infix operator of the list around it |
| LexedInputs.NegatedDigitEnds | limex.h:798-809 | a `-` where a prefix is expected is emitted as a prefix operator, and the number after it ends the input |
| LexedInputs.LexNestedChoice | limex.h:787-1004 | `tokenize` turns `true ? 1 : false ? 0 : -1` into the root list `1`, a `?` group holding `1`, `:`, `0`, a `?` group holding `0`, `:`, a prefix `-` and `1` |
| LexedInputs.LexAssignment | limex.h:787-1004 | `tokenize` turns `x := 3` into the root list of the variable `x`, `:=` and `3` |
| LexedShape.LexedRootLeads | limex.h:940-995 | the outermost token list of a lexed expression never begins with a `then` or `?` branch group |
| Builder.Step | limex.h:1165-1231 | one iteration of the token loop; its properties are stated by `Reduction.StepKeepsOrdered`, `Reduction.RunCountsOperands` and `Builder.CheckAssignment`, and `Parsing.Expression.Consume` computes it |
| Builder.CreateNode | limex.h:1064-1099 | one operand token as a node; `Parsing.Expression.CreateNode` computes it, and `Scoping.BuildScoped` shows every index it interns lies within the tables |
| Builder.Parse | limex.h:780-784 | tokenizing, then building the outermost group; `Scoping.ParsedTreeIsScoped` states its tables and indices, and the `Scenarios` lemmas its trees for texts of the test list |
| Builder.DigitsFromIsMaximalRun | limex.h:1066-1067 | the digit scan of a number literal ends at the first non-digit |
| Builder.ParseNumber | limex.h:1066-1067 | `std::stod` accepts a literal exactly when it starts with a digit, or with `.` followed by a digit; otherwise the result is the invalid-number error |
| Builder.ParsesInteger | limex.h:1066-1067 | digits followed by neither a digit nor `.` read as their decimal value |
| Builder.ParsesDecimal | limex.h:1066-1067 | digits, `.` and digits read as the integer part plus the fraction, and whatever follows is ignored |
| Builder.Intern | limex.h:1044-1052 | a known name keeps its position and leaves the table unchanged; a new name is appended at the old length; a duplicate-free table stays duplicate-free |
| Parsing.Expression.GetIndex | limex.h:1044-1052 | the search loop computes `Intern` |
| Builder.ApplyTop | limex.h:1101-1163 | applying the top operator pops it (an `_else` together with the `_then_` beneath it) and replaces the topmost two nodes (three for a ternary) by one, leaving the nodes beneath unchanged |
| Builder.ApplyTopCombines | limex.h:1101-1163 | applying the top operator succeeds exactly when an `_else` has its `_then_` right beneath it and three nodes, an assignment has a variable node under its value, and any other operator has two nodes; the node it leaves on top is `if_then_else(condition, then, else)` for `_else`, with an `if` condition and the `then` node retyped to groups; plain `:=` keeps only its right-hand side; every other operator takes the two topmost nodes in order |
| Builder.ReduceAll | limex.h:1235-1238 | the final flush empties the operator stack |
| Builder.CheckAssignment | limex.h:1207-1216 | an assignment is accepted exactly as the second token of a list the rule allows; it records the first token as the target, and plain `:=` clears the variable table; otherwise it raises the misplaced-assignment error |
| Builder.Complete | limex.h:1240-1245 | finishing a list succeeds exactly when the final flush succeeds and leaves one node; the list node then has the list's kind, the operands already closed, and that node as its last operand; a flush that leaves no node or several raises the unmatched-operators-or-operands error |
| Parsing.ApplyOperator | limex.h:1101-1163 | the method computes `ApplyTop` (ternary, assignment and binary cases) |
| Parsing.Flush | limex.h:1235-1238 | the loop computes `ReduceAll` |
| Parsing.ReduceFor | limex.h:1218-1228 | the loop computes `ReduceBefore` |
| Parsing.CompleteList | limex.h:1235-1245 | the method computes `Complete` |
| Parsing.Expression.constructor | limex.h:767-772 | a new expression holds its input and handle, with empty tables, before parsing |
| Parsing.Expression.Create | limex.h:767-784 | the constructor yields an expression whose root and tables are those of `Builder.Parse`, or the error that stops it |
| Parsing.Expression.Parse | limex.h:780-784 | tokenizing and building the outermost group computes `Builder.Parse` |
| Parsing.Expression.BuildTree | limex.h:1055-1246 | the loop over a list's tokens and the final flush compute `Build`, and leave the tables `Build` gives |
| Parsing.Expression.Consume | limex.h:1165-1231 | one iteration on token `i` computes `Step`: the new operands, stacks and tables |
| Parsing.Expression.CreateNode | limex.h:1064-1099 | turning one operand token into a node computes `Builder.CreateNode`, interning its names |
| Reduction.ReduceBeforeLeavesLooser | limex.h:1218-1228 | before an operator is pushed, only a prefix of the stack remains, and its top is a `_then_` or binds more loosely; so no operator of equal or tighter precedence stays beneath it |
| Reduction.ReduceBeforeInfixKnown | limex.h:1218-1228 | before an infix operator is pushed onto a stack whose operators all have a precedence, the reduction never raises the unknown-operator error |
| Reduction.ReduceBeforeApplies | limex.h:1218-1228 | a top operator of equal or tighter precedence that is not `_then_` is applied, and the reduction goes on |
| Reduction.PushAfterReduceOrdered | limex.h:1218-1229 | pushing after the reduction keeps the stack ordered by strictly decreasing precedence number, except next to a `_then_` |
| Reduction.StepKeepsOrdered | limex.h:1165-1231 | every iteration of the token loop keeps the operator stack ordered |
| Reduction.RunKeepsOrdered | limex.h:1165-1231 | the whole loop over a list keeps the operator stack ordered |
| Reduction.RunCountsOperands | limex.h:1191-1204 | every separator adds exactly one operand to the list node |
| Reduction.BuildCountsOperands | limex.h:1191-1245 | a built list node has its kind, an index operand first when it has one, and one operand per separator-delimited part |
| Scoping.BuildScoped | limex.h:1055-1246 | under the root-list-only assignment rule, the tables only grow (or are cleared by a root `:=`) and stay duplicate-free, and every index in the built node lies within the final tables |
| Scoping.ParsedTreeIsScoped | limex.h:780-784 | every successful parse has duplicate-free tables, and every variable, collection and callable index in its tree refers into them |
| Evaluator.Eval | limex.h:408-727 | `Node::evaluate`; its properties are stated by `Evaluator.GroupValue`, `Evaluator.DivisionNeedsNonZeroDivisor`, `Evaluator.IndexIsOneBased`, `Evaluator.MembershipTestsElements`, `Evaluator.IfThenElseSelectsBranch`, `Evaluator.CompoundAssignmentValue`, `Evaluator.AssignmentValue` and the `Scenarios` evaluation lemmas |
| Evaluator.EvalCall | limex.h:497-549 | `function_call` and `aggregation`; `Evaluator.EvalFrom`, `Evaluator.ValueOfOperand` and `Evaluator.SumOfCollection` state which arguments the callable receives |
| Evaluator.EvalIndex | limex.h:550-583 | `index`; `Evaluator.IndexIsOneBased` and `Evaluator.Select` state the 1-based reading and its error |
| Evaluator.GroupValue | limex.h:411-412 | a group evaluates to the value of the node in its first slot; without a node there it raises the operand-mismatch error |
| Evaluator.Select | limex.h:550-583 | an index value `v` selects element `floor(v)` counting from 1, and raises the illegal-index error unless `1 <= v < n + 1` |
| Evaluator.EvalFrom | limex.h:497-549 | the argument values of a call are one per operand |
| Evaluator.EvalFromFailsOnSomeOperand | limex.h:497-549 | argument collection fails exactly when some operand is no node or fails to evaluate (both directions) |
| Evaluator.ValueOfOperand | limex.h:497-549 | the `k`-th collected argument is the value of the `k`-th operand |
| Evaluator.IfThenElseSelectsBranch | limex.h:644-658 | with the built-ins registered, `if … then … else …` evaluates all three operands and yields the branch the condition selects |
| Evaluator.MembershipArguments | limex.h:612-627 | `x ∈ {…}` passes the value of `x` and then the values of the elements to `element_of` |
| Evaluator.MembershipTestsElements | limex.h:612-627 | `x ∈ {…}` is 1 exactly when some element's value equals the value of `x`, and 0 otherwise |
| Evaluator.SumOfCollection | limex.h:518-529 | `sum` of a collection adds up the values supplied for it |
| Evaluator.IndexIsOneBased | limex.h:550-583 | `x[v]` reads the element at 1-based position `v` and raises the illegal-index error outside `1 <= v < n + 1` |
| Evaluator.DivisionNeedsNonZeroDivisor | limex.h:462-473 | a division, plain or compound, succeeds exactly when the divisor is not zero; its result times the divisor is the dividend; otherwise it raises the division-by-zero error |
| Evaluator.CompoundAssignmentValue | limex.h:700-723 | `+=`, `-=`, `*=` and `/=` yield the value, or the error, of the plain operator on the same operands; for `/=` this includes the division-by-zero check, the correction of the third finding |
| Evaluator.AssignmentValue | limex.h:695-699 | `:=` yields the value of its right-hand side |
| Evaluator.PrintOperands | limex.h:730-760 | one printed form per operand |
| Evaluator.TerminatedIsJoinWithSeparator | limex.h:730-760 | printing each operand followed by `", "` is the comma-separated list plus one trailing separator |
| Evaluator.Stringify | limex.h:730-760 | `Node::stringify`; `Evaluator.PrintedForm`, `Evaluator.PrintOperands` and `Evaluator.TerminatedIsJoinWithSeparator` state the printed form |
| Evaluator.PrintedForm | limex.h:730-760 | a node prints as its kind's name, `"( "`, its operands separated by `", "`, and `" )"`; a node without operands prints as its name followed by `" )"` |
| Registry.IfThenElse | limex.h:1279-1286 | exactly three arguments are accepted; the result is the second when the first is true, else the third |
| Registry.NaryIf | limex.h:1288-1298 | the arguments are accepted exactly when there is an odd number of them |
| Registry.NaryIfPicksFirstTrue | limex.h:1288-1298 | the result is the value paired with the first true condition, or the last argument when no condition is true |
| Registry.ChooseBranch | limex.h:1288-1298 | the loop over the condition/value pairs computes `NaryIf` |
| Registry.Abs | limex.h:1300-1307 | exactly one argument is accepted; the result is non-negative and equals the argument or its negation |
| Registry.Pow | limex.h:1309-1316 | exactly two arguments are accepted, passed to the library `pow` |
| Registry.Sqrt | limex.h:1318-1325 | exactly one argument is accepted, passed to the library `sqrt` |
| Registry.Cbrt | limex.h:1327-1334 | exactly one argument is accepted, passed to the library `cbrt` |
| Registry.Accumulate | limex.h:1336-1346 | the accumulator loop of `sum` computes the total of the arguments |
| Registry.Sum | limex.h:1336-1346 | `sum` accepts any number of arguments and yields their total, accumulated from the left; `Registry.Accumulate` proves the loop computes it |
| Registry.Avg | limex.h:1348-1359 | at least one argument is required; the result times the number of arguments is their total |
| Registry.Average | limex.h:1348-1359 | the accumulator loop and division of `avg` compute `Avg` |
| Registry.Count | limex.h:1361-1367 | the result is the number of arguments |
| Registry.LeastIsMinimum | limex.h:1369-1382 | the least argument is one of the arguments and no argument is smaller |
| Registry.GreatestIsMaximum | limex.h:1384-1397 | the greatest argument is one of the arguments and no argument is larger |
| Registry.Min | limex.h:1369-1382 | `min` accepts exactly the non-empty argument lists |
| Registry.Max | limex.h:1384-1397 | `max` accepts exactly the non-empty argument lists |
| Registry.Minimum | limex.h:1369-1382 | the loop of `min` computes `Min` |
| Registry.Maximum | limex.h:1384-1397 | the loop of `max` computes `Max` |
| Registry.ElementOf | limex.h:1399-1411 | at least one argument is required; the result is 1 exactly when a later argument equals the first, and 0 exactly when none does |
| Registry.NotElementOf | limex.h:1413-1425 | `not_element_of` is the complement of `element_of`, with the same error |
| Registry.Member | limex.h:1399-1425 | the search loops compute `ElementOf` and `NotElementOf` |
| Registry.At | limex.h:1427-1433 | `at` always raises for a handle over plain numbers |
| Registry.Builtins | limex.h:1278-1434 | `initialize` registers one implementation per built-in name |
| Registry.CallableIndex | limex.h:1258-1265 | the index of a name is its first position; an unknown name raises |
| Registry.AppendKeepsIndices | limex.h:1268-1274 | appending a new name keeps the names distinct, every earlier name at its index, and the new name at the end |
| Registry.Handle.constructor | limex.h:1278-1434 | a new handle holds the fourteen built-ins at their fixed positions, with names and implementations in parallel |
| Registry.Handle.Add | limex.h:1268-1274 | a name already present raises and changes nothing; otherwise both lists grow by one, so they keep equal length and stay duplicate-free |
| Registry.Handle.GetIndex | limex.h:1258-1265 | the search loop computes `CallableIndex` |
| Scenarios.SingleOperatorList | limex.h:1152-1161 | a list `a o b` builds the binary node of `o` over the two numbers |
| Scenarios.FirstOperatorAppliesFirst | limex.h:1218-1228 | in `a o1 b o2 c`, when `o1` binds at least as tightly as `o2`, `o1` is applied first, so operators of equal precedence fold to the left |
| Scenarios.TighterOperatorAppliesFirst | limex.h:1218-1228 | in `a o1 b o2 c`, when `o2` binds more tightly, `o2` takes `b` and `c` and is applied first |
| Scenarios.TernaryUnderOperator | limex.h:1103-1127 | in `a o b ? c : d` with a plain operator `o`, the ternary takes `b` as its condition and is the right operand of `o` |
| Scenarios.ApplyElse | limex.h:1103-1127 | `_else` over a condition, a `_then_` group and an alternative replaces the three nodes with one `if_then_else` node whose branch is retyped as a group, and pops both markers |
| Scenarios.NestedBranchesRun | limex.h:1173-1228 | in `a ? b : c ? d :`, each `_then_` on the operator stack stops the reduction before `:`, so all four markers stay pending |
| Scenarios.ReduceNested | limex.h:1233-1238 | at the end of `a ? b : c ? d : f`, the inner choice is built first and becomes the alternative of the outer one, so `?`/`:` chains fold to the right |
| Scenarios.NestedTernary | limex.h:1103-1127 | a list `a ? b : c ? d : f` builds `a ? b : (c ? d : f)` |
| Scenarios.NegatedLastRun | limex.h:1180-1189 | a prefix `-` token pushes nothing, and the number after it is pushed as a negation node |
| Scenarios.NestedTernaryNegatedLast | limex.h:1103-1127 | a list `a ? b : c ? d : -f` builds `a ? b : (c ? d : -f)` |
| Scenarios.NestedTernaryValue | limex.h:644-658 | `a ? b : c ? d : e` yields `b` when `a` is true, otherwise `d` when `c` is true, otherwise the value of `e` |
| Scenarios.NestedChoiceSelectsFirst | test.h:132 | the text `true ? 1 : false ? 0 : -1` parses to the tree of `1 ? 1 : (0 ? 0 : -1)`, which evaluates to 1 |
| Scenarios.NestedChoiceBuilds | test.h:132 | the token list of that text builds that tree |
| Scenarios.NestedChoiceValue | test.h:132 | that tree evaluates to 1 |
| Scenarios.EvalArithmetic | limex.h:446-455 | an addition or subtraction node yields the sum or difference of its operands' values, left first |
| Scenarios.EvalPower | limex.h:482-496 | `^` yields the library `pow` of its operands' values |
| Scenarios.EvalGreater | limex.h:671-676 | `>` yields 1 when the left value exceeds the right one, and 0 otherwise |
| Scenarios.SubtractThenAdd | test.h:88 | the text `3 - 5 + 2` parses to the tree of `(3 - 5) + 2`, which evaluates to 0 |
| Scenarios.PowerFoldsLeft | test.h:89 | the text `2^3^2` parses to the tree of `(2^3)^2`, which evaluates to `pow(pow(2, 3), 2)` |
| Scenarios.TernaryBindsTighterThanComparison | test.h:160 | the text `1>0 ? 1 : 2` parses to the tree of `1 > (0 ? 1 : 2)` |
| Scenarios.ComparedTernaryValue | test.h:160 | that tree evaluates to 0 |
| NestedAssignment.AssignmentParses | test.h:184 | the text `x := 3` parses to a root group holding an assignment node with only 3 beneath it; the variable table comes back empty and `x` is the target |
| NestedAssignment.AssignmentList | limex.h:1207-1216 | a list `x := 3` builds an assignment node holding only 3, clears the variable table and records `x` as the target; where the rule forbids it, it raises the misplaced-assignment error |
| RootCloser.HashEmptiesTheStackAsWritten | limex.h:790 | with the root frame closed by `#`, the input `1#2` pops the root, and the next iteration finds the group stack empty |
| RootCloser.HashIsUnexpected | limex.h:969-998 | with a root frame that has no closer, `#` in `1#2` is an unexpected character |
| RootCloser.LexNeverEmptiesTheStack | limex.h:787-1004 | with a root frame that has no closer, no input makes `tokenize` pop the root |
| NestedAssignment.NestedAssignmentAsWritten | limex.h:1207-1216 | with the check made per list, `y + (x := 3)` builds, with an empty variable table at the end |
| NestedAssignment.TreeAsWrittenOutrunsItsTable | limex.h:419-421 | that tree refers to a variable the final table does not name, and evaluating it with one value per named variable reads past the values |
| NestedAssignment.NestedAssignmentRejected | limex.h:1207-1216 | under the root-list-only rule, `y + (x := 3)` raises the misplaced-assignment error |
| CompoundDivision.DivideAsWritten | limex.h:718-723 | the quotient without a check is non-finite exactly when the divisor is zero |
| CompoundDivision.CompoundDivisionByZeroUnchecked | limex.h:718-723 | as written, `x /= 0` raises nothing and yields a non-finite value, where `x / 0` raises the division-by-zero error |

## Left out

- Floating point. Values are exact reals, so there is no rounding, overflow, infinity or NaN, except for the non-finite quotient in the `CompoundDivision` finding. `std::pow`, `std::sqrt`, `std::cbrt` and the number-to-text conversion of `stringify` are parameters.
- `std::stod` is modelled only for the literals the lexer produces (digits and points). Exponent notation cannot reach it.
- The `DBL_MAX` and `-DBL_MAX` seeds of `min` and `max`. The model returns the least or greatest argument, which is what the seeds give for every finite input.
- The `(size_t)` truncation of an index value. A value `v` with `1 <= v < n + 1` selects element `floor(v)`. Any other value, including those the C++ code wraps around, raises the illegal-index error.
- The instantiation with a collection type other than a vector of values. That covers `at`, `indexedEvaluation`, `aggregateEvaluation` and the other branches of `createNode` and `evaluate`. The hooks are declared but not defined in limex.h.
- The branch of the `index` case for value types without arithmetic. It is selected at compile time.
- The templated deep-copy constructor of `Node`, `Token::stringify`, and the getters of `Expression` and `Handle`.
- UTF-8. Operator spellings such as `≤` are single characters here, where the C++ code matches their bytes.
- The position in error messages. An error is its kind only.
- `Parsing.Expression.Evaluate` and `Parsing.Expression.Stringify` only delegate to `Evaluator.Eval` and `Evaluator.Stringify`. Their properties are stated about those functions.
- Scoping.BuildScoped: for an arbitrary outermost token list, it assumes the list does not begin with a `then` or `?` branch. `LexedShape.LexedRootLeads` proves this for every list `tokenize` produces, which is how `Scoping.ParsedTreeIsScoped` uses it.
- Scenarios.EvalArithmetic covers addition and subtraction only. The other binary operators are covered by `Scenarios.EvalPower`, `Scenarios.EvalGreater` and the evaluator's own lemmas.
- Scenarios.NestedChoiceSelectsFirst: of the nested `?`/`:` chains of test.h:132-135, only the first is traced from its text, because each text needs its own character-by-character lexer trace. The other three differ only in which keyword stands where: `Scenarios.NestedTernary` gives their tree shape and `Scenarios.NestedTernaryValue` their values for every choice of conditions. The `if … then … else` chains of test.h:136-140 have no lemma of their own.
- `main.cpp` and the printing test driver in `test.h`. The expected results of `test.h` appear only as the `Scenarios` lemmas.
- Lexer.Lex, Lexer.Tokenize, Lexer.StepKeepsFrames: the root frame has no closer, the correction of the first finding. As written, limex.h:790 gives it the closer `#`, so `Lex("1#")` would pop the root and raise the unbalanced-delimiters error at limex.h:1000-1002, and `1#2` would read an empty stack; `RootCloser.HashEmptiesTheStackAsWritten` models that.
- Evaluator.Eval, Evaluator.CompoundAssignmentValue: `/=` raises the division-by-zero error for a zero divisor, the correction of the third finding. As written, limex.h:718-723 divides unchecked; `CompoundDivision.DivideAsWritten` and `CompoundDivision.CompoundDivisionByZeroUnchecked` model that.
- NestedAssignment.AssignmentParses: the value 3 of `x := 3` is stated by `Evaluator.AssignmentValue` for every assignment, not for this tree separately.
- Parsing.Expression.Create, Parsing.Expression.Parse, Parsing.Expression.BuildTree, Parsing.Expression.Consume: the `Expression` class parses under the root-list-only assignment rule, the correction of finding 2. The rule as written is `EveryList`, which the `Builder` functions take as a parameter.

## Findings

| source | as written | input that shows it | evidently intended | confidence | as-written member | corrected member |
|---|---|---|---|---|---|---|
| limex.h:790 | the root frame is pushed with `#` as its closing spelling, so a `#` in the input pops the root; the next iteration reads the top of an empty stack | `1#2` | the root frame cannot be closed, and `#` is an unexpected character | high, not executed | RootCloser.HashEmptiesTheStackAsWritten | RootCloser.LexNeverEmptiesTheStack |
| limex.h:1207-1215 | the assignment check (`i == 1`) is made per token list, so a nested list may assign; `:=` then clears the variable table that the enclosing list already used, and the tree refers to a variable the table no longer names | `y + (x := 3)` | assignments only in the outermost list, so every index in the tree refers into the final tables | medium, not executed | NestedAssignment.NestedAssignmentAsWritten | NestedAssignment.NestedAssignmentRejected |
| limex.h:718-723 | `divide_assign` divides without the zero check that `divide` makes at limex.h:466-470 | `x /= 0` | raise the division-by-zero error, as `x / 0` does | high, not executed | CompoundDivision.CompoundDivisionByZeroUnchecked | Evaluator.DivisionNeedsNonZeroDivisor |

=== FILE: basics.dfy ===
/**
  Failure-compatible result types and the error taxonomy of the expression
  engine. Every exception the C++ library throws becomes an `Err` carrying one
  of the `Error` values below; nothing is recovered internally.
 */
module Basics {

  datatype Option<+T> = None | Some(value: T)

  /** The reasons for which lexing, tree building, evaluation or registration fails. */
  datatype Error =
    // lexical errors (tokenize)
    | PrefixWithoutOperand          // a prefix operator ends the input
    | UnexpectedOperand             // nothing that can start an operand
    | SymbolicNameWithoutArguments  // `∑`, `√`, `∛` not followed by `(` or `{`
    | UnexpectedCharacter           // nothing fits the expected category
    | UnbalancedDelimiters          // the delimiter stack does not unwind
    | GroupStackEmpty               // undefined behaviour in the source: top() of an empty stack
    // syntax errors (buildTree)
    | InvalidNumber                 // std::stod rejects the literal
    | UnexpectedTokenType
    | UnknownOperator               // an operator spelling or kind missing from a lookup table
    | InsufficientTernaryOperators
    | WrongTernaryOperators
    | InsufficientTernaryOperands
    | InsufficientAssignmentOperands
    | IllegalAssignmentTarget
    | MisplacedAssignment
    | InsufficientInfixOperands
    | UnmatchedOperatorsOrOperands
    // semantic errors (registry and evaluate)
    | UnknownCallable
    | DuplicateCallable
    | CallableIndexOutOfRange
    | SetNotEvaluable
    | SequenceNotEvaluable
    | CollectionNotEvaluable
    | DivisionByZero
    | IllegalCollectionReference
    | InsufficientCollections
    | IllegalIndex
    | OperandMismatch               // an operand slot holds another alternative than expected
    | MissingBinding                // a table index beyond the supplied values
    | UnsupportedKind
    | AtNotSupported
    | WrongArgumentCount
    | NameOutOfRange                // std::vector::at in stringify

  datatype Result<+T> = Ok(value: T) | Err(error: Error) {
    predicate IsFailure() { Err? }

    function PropagateFailure<U>(): Result<U>
      requires Err?
    {
      Err(error)
    }

    function Extract(): T
      requires Ok?
    {
      value
    }
  }

  /** The outcome of an operation that returns nothing but may fail. */
  datatype Outcome = Pass | Fail(error: Error)

  /** No name occurs twice. */
  ghost predicate Distinct<T>(s: seq<T>) {
    forall i, j :: 0 <= i < j < |s| ==> s[i] != s[j]
  }

  /** The position of the first occurrence of `x` in `s`, if any. */
  function FirstIndexOf<T(==)>(s: seq<T>, x: T): (r: Option<nat>)
    ensures r.None? <==> x !in s
    ensures r.Some? ==> r.value < |s| && s[r.value] == x && forall j :: 0 <= j < r.value ==> s[j] != x
  {
    if s == [] then None
    else if s[0] == x then Some(0)
    else match FirstIndexOf(s[1..], x)
      case None => None
      case Some(k) => Some(k + 1)
  }
}

=== FILE: builder.dfy ===
/**
  `Expression::buildTree` of limex.h as a specification: the reduction of a
  token list into a node with a node stack and an operator stack, the operand
  factory `createNode`, the operator application `applyOperator`, the name
  interning `Expression::getIndex`, and `std::stod` on the digit strings the
  lexer produces.

  The imperative version in the `Parsing` module is proved to compute exactly
  what these functions compute. A stack is a sequence whose top is its last
  element.
 */
module Builder {
  import opened Basics
  import opened Syntax
  import Lexer
  import Registry

  // ----- std::stod on digit strings -----

  /** The value of a decimal digit (only ever applied to digits). */
  function DigitValue(c: char): nat {
    if Lexer.IsDigit(c) then (c - '0') as nat else 0
  }

  predicate AllDigits(s: string) {
    forall k :: 0 <= k < |s| ==> Lexer.IsDigit(s[k])
  }

  /** The end of the run of decimal digits starting at `from`. */
  function DigitsFrom(s: string, from: nat): (e: nat)
    requires from <= |s|
    ensures from <= e <= |s|
    decreases |s| - from
  {
    if from < |s| && Lexer.IsDigit(s[from]) then DigitsFrom(s, from + 1) else from
  }

  lemma {:induction false} DigitsFromIsMaximalRun(s: string, from: nat)
    requires from <= |s|
    ensures forall k :: from <= k < DigitsFrom(s, from) ==> Lexer.IsDigit(s[k])
    ensures DigitsFrom(s, from) < |s| ==> !Lexer.IsDigit(s[DigitsFrom(s, from)])
    decreases |s| - from
  {
    if from < |s| && Lexer.IsDigit(s[from]) {
      DigitsFromIsMaximalRun(s, from + 1);
    }
  }

  /** The value of a string of decimal digits. */
  function Whole(d: string): nat {
    if d == [] then 0 else Whole(d[..|d| - 1]) * 10 + DigitValue(d[|d| - 1])
  }

  /** The value of the digits after a decimal point. */
  function Fraction(d: string): real {
    if d == [] then 0.0 else (DigitValue(d[0]) as real + Fraction(d[1..])) / 10.0
  }

  /**
    `std::stod` on a string of digits and points: the longest prefix of the
    form `digits [. digits]` with at least one digit is converted, and the
    rest is ignored; without such a prefix the conversion fails.
   */
  function ParseNumber(s: string): (r: Result<real>)
    ensures r.Ok? <==> (|s| > 0 && Lexer.IsDigit(s[0])) || (|s| > 1 && s[0] == '.' && Lexer.IsDigit(s[1]))
    ensures r.Err? ==> r.error == InvalidNumber
  {
    var k := DigitsFrom(s, 0);
    var m := if k < |s| && s[k] == '.' then DigitsFrom(s, k + 1) else k;
    if k == 0 && m <= 1 then Err(InvalidNumber)
    else Ok(Whole(s[..k]) as real + if m > k then Fraction(s[k + 1..m]) else 0.0)
  }

  lemma {:induction false} DigitsFromSkipsDigits(d: string, rest: string, from: nat)
    requires AllDigits(d) && from <= |d|
    requires rest == [] || !Lexer.IsDigit(rest[0])
    ensures DigitsFrom(d + rest, from) == |d|
    decreases |d| - from
  {
    if from < |d| {
      DigitsFromSkipsDigits(d, rest, from + 1);
    } else if rest != [] {
      assert (d + rest)[from] == rest[0];
    }
  }

  /** A literal `i.f` followed by anything but a digit converts to the value of its digits. */
  lemma ParsesDecimal(i: string, f: string, rest: string)
    requires AllDigits(i) && AllDigits(f) && i + f != []
    requires rest == [] || !Lexer.IsDigit(rest[0])
    ensures ParseNumber(i + "." + f + rest) == Ok(Whole(i) as real + Fraction(f))
  {
    var s := i + "." + f + rest;
    var head := i + ".";
    assert s == i + ("." + f + rest) == head + (f + rest);
    DigitsFromSkipsDigits(i, "." + f + rest, 0);
    DigitsFromOfSuffix(head, f, rest, 0);
    var k, m := |i|, |i| + 1 + |f|;
    assert DigitsFrom(s, 0) == k && s[k] == '.' && DigitsFrom(s, k + 1) == m;
    assert s[..k] == i && s[k + 1..m] == f;
    ParseNumberWithPoint(s, k, m, i, f);
  }

  lemma ParseNumberWithPoint(s: string, k: nat, m: nat, i: string, f: string)
    requires k < |s| && DigitsFrom(s, 0) == k && s[k] == '.' && DigitsFrom(s, k + 1) == m && m > 1
    requires s[..k] == i && s[k + 1..m] == f
    ensures ParseNumber(s) == Ok(Whole(i) as real + Fraction(f))
  {
    assert m > k && !(k == 0 && m <= 1);
    assert ParseNumber(s) == Ok(Whole(s[..k]) as real + Fraction(s[k + 1..m]));
  }

  lemma {:induction false} DigitsFromOfSuffix(p: string, f: string, rest: string, k: nat)
    requires AllDigits(f) && k <= |f|
    requires rest == [] || !Lexer.IsDigit(rest[0])
    ensures DigitsFrom(p + (f + rest), |p| + k) == |p| + |f|
    decreases |f| - k
  {
    var s := p + (f + rest);
    if k < |f| {
      assert s[|p| + k] == f[k];
      DigitsFromOfSuffix(p, f, rest, k + 1);
    } else if rest != [] {
      assert s[|p| + k] == rest[0];
    }
  }

  /** A literal of digits only, followed by neither a digit nor a point, converts to its integer value. */
  lemma ParsesInteger(i: string, rest: string)
    requires AllDigits(i) && i != []
    requires rest == [] || (!Lexer.IsDigit(rest[0]) && rest[0] != '.')
    ensures ParseNumber(i + rest) == Ok(Whole(i) as real)
  {
    DigitsFromSkipsDigits(i, rest, 0);
    assert (i + rest)[..|i|] == i;
    if rest != [] {
      assert (i + rest)[|i|] == rest[0];
    }
  }

  // ----- name interning -----

  /**
    `Expression::getIndex`: the position of `name` in `table`, appending it
    first when it is missing; returns the position and the new table.
   */
  function Intern(table: seq<string>, name: string): (r: (nat, seq<string>))
    ensures name in table ==> r.1 == table && r.0 < |table| && table[r.0] == name
                              && forall j :: 0 <= j < r.0 ==> table[j] != name
    ensures name !in table ==> r == (|table|, table + [name])
    ensures Distinct(table) ==> Distinct(r.1)
  {
    match FirstIndexOf(table, name)
    case Some(i) => (i, table)
    case None => (|table|, table + [name])
  }

  /** The names the expression has collected, and the assignment target. */
  datatype Tables = Tables(variables: seq<string>, collections: seq<string>, target: Option<string>)

  const NO_TABLES := Tables([], [], None)

  // ----- the two stacks -----

  /** `nodeStack` and `operatorStack`. */
  datatype Pending = Pending(nodes: seq<Node>, ops: seq<Kind>)

  /** Pushes a node. */
  function PushNode(p: Pending, n: Node): Pending {
    p.(nodes := p.nodes + [n])
  }

  /** The number of operators `applyOperator` consumes for `op`: the `_else` and its `_then_`, or `op` alone. */
  function Arity(op: Kind): nat {
    if op == ElseMark then 2 else 1
  }

  /**
    Whether the top operator finds what it needs: an `_else` its `_then_` right
    beneath it and three nodes, an assignment a variable node under its value,
    any other operator two nodes.
   */
  predicate Applicable(p: Pending)
    requires p.ops != []
  {
    var op := p.ops[|p.ops| - 1];
    if op == ElseMark then |p.ops| >= 2 && p.ops[|p.ops| - 2] == ThenMark && |p.nodes| >= 3
    else |p.nodes| >= 2 && (IsAssignment(op) ==> p.nodes[|p.nodes| - 2].kind == Variable)
  }

  /**
    Whether `n` is what the top operator makes of the stacks. `_else` builds
    `if_then_else(condition, then, else)` from the three topmost nodes, with an
    `if` condition and the `then` node retyped to plain groups; plain `:=` keeps
    only its right-hand side; every other operator, compound assignments
    included, takes the two topmost nodes in order.
   */
  predicate Combines(p: Pending, n: Node)
    requires p.ops != [] && Applicable(p)
  {
    var op := p.ops[|p.ops| - 1];
    var k := |p.nodes|;
    if op == ElseMark then
      var condition := p.nodes[k - 3];
      n.kind == IfThenElse && |n.operands| == 3
      && n.operands[0] == Sub(if condition.kind == IfMark then condition.(kind := Group) else condition)
      && n.operands[1] == Sub(p.nodes[k - 2].(kind := Group))
      && n.operands[2] == Sub(p.nodes[k - 1])
    else if op == Assign then
      n == Node(Assign, [Sub(p.nodes[k - 1])])
    else
      n == Node(op, [Sub(p.nodes[k - 2]), Sub(p.nodes[k - 1])])
  }

  /**
    `applyOperator(operatorStack.top())` followed by the caller's pop: the top
    operator combines the topmost nodes into one.
   */
  function ApplyTop(p: Pending): (r: Result<Pending>)
    requires p.ops != []
    ensures r.Ok? ==> |p.ops| >= Arity(p.ops[|p.ops| - 1])
                      && r.value.ops == p.ops[..|p.ops| - Arity(p.ops[|p.ops| - 1])]
    ensures r.Ok? ==> |p.nodes| > Arity(p.ops[|p.ops| - 1]) && |r.value.nodes| == |p.nodes| - Arity(p.ops[|p.ops| - 1])
                      && r.value.nodes[..|r.value.nodes| - 1] == p.nodes[..|r.value.nodes| - 1]
  {
    var op := p.ops[|p.ops| - 1];
    var k := |p.nodes|;
    if op == ElseMark then
      if |p.ops| < 2 then Err(InsufficientTernaryOperators)
      else if p.ops[|p.ops| - 2] != ThenMark then Err(WrongTernaryOperators)
      else if k < 3 then Err(InsufficientTernaryOperands)
      else
        var condition := p.nodes[k - 3];
        var condition' := if condition.kind == IfMark then condition.(kind := Group) else condition;
        var choice := Node(IfThenElse, [Sub(condition'), Sub(p.nodes[k - 2].(kind := Group)), Sub(p.nodes[k - 1])]);
        Ok(Pending(p.nodes[..k - 3] + [choice], p.ops[..|p.ops| - 2]))
    else if IsAssignment(op) then
      if k < 2 then Err(InsufficientAssignmentOperands)
      else if p.nodes[k - 2].kind != Variable then Err(IllegalAssignmentTarget)
      else
        var assignment :=
          if op == Assign then Node(Assign, [Sub(p.nodes[k - 1])])
          else Node(op, [Sub(p.nodes[k - 2]), Sub(p.nodes[k - 1])]);
        Ok(Pending(p.nodes[..k - 2] + [assignment], p.ops[..|p.ops| - 1]))
    else if k < 2 then Err(InsufficientInfixOperands)
    else Ok(Pending(p.nodes[..k - 2] + [Node(op, [Sub(p.nodes[k - 2]), Sub(p.nodes[k - 1])])], p.ops[..|p.ops| - 1]))
  }

  /**
    `applyOperator` succeeds exactly when the top operator finds what it needs,
    and then the node it leaves on top is the one that operator builds.
   */
  lemma ApplyTopCombines(p: Pending)
    requires p.ops != []
    ensures ApplyTop(p).Ok? <==> Applicable(p)
    ensures ApplyTop(p).Ok? ==> Applicable(p) && Combines(p, ApplyTop(p).value.nodes[|ApplyTop(p).value.nodes| - 1])
  {
    var op := p.ops[|p.ops| - 1];
    if op == ElseMark {
      ElseCombines(p);
    } else if IsAssignment(op) {
      AssignmentCombines(p);
    } else {
      BinaryCombines(p);
    }
  }

  /** The `_else` case of `ApplyTopCombines`. */
  lemma ElseCombines(p: Pending)
    requires p.ops != [] && p.ops[|p.ops| - 1] == ElseMark
    ensures ApplyTop(p).Ok? <==> Applicable(p)
    ensures ApplyTop(p).Ok? ==> Applicable(p) && Combines(p, ApplyTop(p).value.nodes[|ApplyTop(p).value.nodes| - 1])
  {
    var k := |p.nodes|;
    if Applicable(p) {
      var condition := p.nodes[k - 3];
      var condition' := if condition.kind == IfMark then condition.(kind := Group) else condition;
      var choice := Node(IfThenElse, [Sub(condition'), Sub(p.nodes[k - 2].(kind := Group)), Sub(p.nodes[k - 1])]);
      assert ApplyTop(p) == Ok(Pending(p.nodes[..k - 3] + [choice], p.ops[..|p.ops| - 2]));
    }
  }

  /** The assignment case of `ApplyTopCombines`. */
  lemma AssignmentCombines(p: Pending)
    requires p.ops != [] && IsAssignment(p.ops[|p.ops| - 1])
    ensures ApplyTop(p).Ok? <==> Applicable(p)
    ensures ApplyTop(p).Ok? ==> Applicable(p) && Combines(p, ApplyTop(p).value.nodes[|ApplyTop(p).value.nodes| - 1])
  {
    var op := p.ops[|p.ops| - 1];
    var k := |p.nodes|;
    assert op != ElseMark;
    if Applicable(p) {
      var assignment :=
        if op == Assign then Node(Assign, [Sub(p.nodes[k - 1])])
        else Node(op, [Sub(p.nodes[k - 2]), Sub(p.nodes[k - 1])]);
      assert ApplyTop(p) == Ok(Pending(p.nodes[..k - 2] + [assignment], p.ops[..|p.ops| - 1]));
    }
  }

  /** The case of every other operator in `ApplyTopCombines`. */
  lemma BinaryCombines(p: Pending)
    requires p.ops != [] && p.ops[|p.ops| - 1] != ElseMark && !IsAssignment(p.ops[|p.ops| - 1])
    ensures ApplyTop(p).Ok? <==> Applicable(p)
    ensures ApplyTop(p).Ok? ==> Applicable(p) && Combines(p, ApplyTop(p).value.nodes[|ApplyTop(p).value.nodes| - 1])
  {
    var op := p.ops[|p.ops| - 1];
    var k := |p.nodes|;
    assert op != Assign;
    if Applicable(p) {
      assert ApplyTop(p) == Ok(Pending(p.nodes[..k - 2] + [Node(op, [Sub(p.nodes[k - 2]), Sub(p.nodes[k - 1])])], p.ops[..|p.ops| - 1]));
    }
  }

  /** Applies every pending operator, topmost first (at a separator and at the end of the list). */
  function ReduceAll(p: Pending): (r: Result<Pending>)
    ensures r.Ok? ==> r.value.ops == []
    decreases |p.ops|
  {
    if p.ops == [] then Ok(p)
    else
      var q :- ApplyTop(p);
      ReduceAll(q)
  }

  /**
    Before `op` is pushed: applies the pending operators whose precedence
    number is at most that of `op`, stopping at an `_then_`.
   */
  function ReduceBefore(p: Pending, op: Kind): Result<Pending>
    decreases |p.ops|
  {
    if p.ops == [] then Ok(p)
    else
      var top := p.ops[|p.ops| - 1];
      if Precedence(top).None? || Precedence(op).None? then Err(UnknownOperator)
      else if Precedence(top).value <= Precedence(op).value && top != ThenMark then
        var q :- ApplyTop(p);
        ReduceBefore(q, op)
      else Ok(p)
  }

  // ----- the token loop -----

  /**
    Where an assignment operator may stand: as the second token of every token
    list (as written in limex.h), or of the outermost list only.
   */
  datatype AssignmentRule = EveryList | RootListOnly

  /** The callable names of the handle, and the assignment rule. */
  datatype Config = Config(callables: seq<string>, rule: AssignmentRule)

  /** The operands collected so far (`operands`), the two stacks, and the tables. */
  datatype ListState = ListState(operands: seq<Operand>, pending: Pending, tables: Tables)

  /** The assignment check, and the effect of an assignment operator on the tables. */
  function CheckAssignment(cfg: Config, tokens: seq<Lexer.Token>, i: nat, op: Kind, tables: Tables, topLevel: bool): (r: Result<Tables>)
    requires i < |tokens| && IsAssignment(op)
    ensures r.Ok? <==> i == 1 && (cfg.rule.EveryList? || topLevel)
    ensures r.Ok? ==> r.value.target == Some(tokens[0].value)
    ensures r.Ok? ==> r.value.collections == tables.collections
    ensures r.Ok? ==> r.value.variables == if op == Assign then [] else tables.variables
    ensures r.Err? ==> r.error == MisplacedAssignment
  {
    if i != 1 || (cfg.rule.RootListOnly? && !topLevel) then Err(MisplacedAssignment)
    else
      var variables := if op == Assign then [] else tables.variables;
      Ok(Tables(variables, tables.collections, Some(tokens[0].value)))
  }

  /** The postfix operator after operand `i`, if any, applied to `n`. */
  function WrapPostfix(tokens: seq<Lexer.Token>, i: nat, n: Node): Result<Node> {
    if i + 1 < |tokens| && tokens[i + 1].category.Postfix? then
      match PostfixKind(tokens[i + 1].value)
      case None => Err(UnknownOperator)
      case Some(k) => Ok(Node(k, [Sub(n)]))
    else Ok(n)
  }

  /** The prefix operator before operand `i`, if any, applied to `n`. */
  function WrapPrefix(tokens: seq<Lexer.Token>, i: nat, n: Node): Result<Node>
    requires i <= |tokens|
  {
    if 0 < i && tokens[i - 1].category.Prefix? then
      match PrefixKind(tokens[i - 1].value)
      case None => Err(UnknownOperator)
      case Some(k) => Ok(Node(k, [Sub(n)]))
    else Ok(n)
  }

  /**
    `buildTree(kind, tokens, index)`: the optional index operand, then one
    operand per separator-delimited part of `tokens`.
   */
  function Build(cfg: Config, kind: Kind, tokens: seq<Lexer.Token>, index: Option<nat>, tables: Tables, topLevel: bool): Result<(Node, Tables)>
    decreases tokens, 2, 0
  {
    var start := ListState(if index.Some? then [Idx(index.value)] else [], Pending([], []), tables);
    var st :- Run(cfg, tokens, 0, start, topLevel);
    Finish(kind, st)
  }

  /** After the last token: apply the pending operators; exactly one node must remain. */
  function Finish(kind: Kind, st: ListState): Result<(Node, Tables)> {
    var n :- Complete(kind, st.operands, st.pending);
    Ok((n, st.tables))
  }

  /** The node of a list: its operands, then the one node left once every pending operator is applied. */
  function Complete(kind: Kind, operands: seq<Operand>, pending: Pending): (r: Result<Node>)
    ensures r.Ok? <==> ReduceAll(pending).Ok? && |ReduceAll(pending).value.nodes| == 1
    ensures r.Ok? ==> r.value.kind == kind && |r.value.operands| == |operands| + 1
                      && r.value.operands[..|operands|] == operands
                      && r.value.operands[|operands|] == Sub(ReduceAll(pending).value.nodes[0])
    ensures r.Err? && ReduceAll(pending).Ok? ==> r.error == UnmatchedOperatorsOrOperands
  {
    var p :- ReduceAll(pending);
    if |p.nodes| != 1 then Err(UnmatchedOperatorsOrOperands)
    else Ok(Node(kind, operands + [Sub(p.nodes[0])]))
  }

  /** The iterations of the token loop from token `i` on. */
  function Run(cfg: Config, tokens: seq<Lexer.Token>, i: nat, st: ListState, topLevel: bool): Result<ListState>
    decreases tokens, 1, |tokens| - i
  {
    if i >= |tokens| then Ok(st)
    else
      var next :- Step(cfg, tokens, i, st, topLevel);
      Run(cfg, tokens, i + 1, next, topLevel)
  }

  /** One iteration of the token loop, for token `i`. */
  function Step(cfg: Config, tokens: seq<Lexer.Token>, i: nat, st: ListState, topLevel: bool): Result<ListState>
    requires i < |tokens|
    decreases tokens, 0, 0
  {
    var t := tokens[i];
    if t.category.Prefix? && t.tokenType.Group? then
      var (n, tables) :- Build(cfg, IfMark, t.children, None, st.tables, false);
      Ok(ListState(st.operands, PushNode(st.pending, n), tables))
    else if t.category.Infix? && t.tokenType.Group? then
      var (n, tables) :- Build(cfg, ThenMark, t.children, None, st.tables, false);
      Ok(ListState(st.operands, Pending(st.pending.nodes + [n], st.pending.ops + [ThenMark]), tables))
    else if t.category.Operand? then
      var (n, tables) :- CreateNode(cfg, t, st.tables);
      var n' :- WrapPostfix(tokens, i, n);
      var n'' :- WrapPrefix(tokens, i, n');
      Ok(ListState(st.operands, PushNode(st.pending, n''), tables))
    else if t.tokenType.Separator? then
      var p :- ReduceAll(st.pending);
      if |p.nodes| != 1 then Err(UnmatchedOperatorsOrOperands)
      else Ok(ListState(st.operands + [Sub(p.nodes[0])], Pending([], []), st.tables))
    else if t.category.Infix? then
      match InfixKind(t.value)
      case None => Err(UnknownOperator)
      case Some(op) =>
        var tables :- if IsAssignment(op) then CheckAssignment(cfg, tokens, i, op, st.tables, topLevel) else Ok(st.tables);
        var p :- ReduceBefore(st.pending, op);
        Ok(ListState(st.operands, Pending(p.nodes, p.ops + [op]), tables))
    else Ok(st)
  }

  /** `createNode`: the node for an operand token. */
  function CreateNode(cfg: Config, t: Lexer.Token, tables: Tables): Result<(Node, Tables)>
    decreases t, 3, 0
  {
    match t.tokenType
    case Number =>
      var v :- ParseNumber(t.value);
      Ok((Node(Literal, [Lit(v)]), tables))
    case Variable =>
      var (k, variables) := Intern(tables.variables, t.value);
      Ok((Node(Variable, [Idx(k)]), tables.(variables := variables)))
    case Collection =>
      var (k, collections) := Intern(tables.collections, t.value);
      Ok((Node(Collection, [Idx(k)]), tables.(collections := collections)))
    case Group => Build(cfg, Group, t.children, None, tables, false)
    case Set => Build(cfg, Set, t.children, None, tables, false)
    case Sequence => Build(cfg, Sequence, t.children, None, tables, false)
    case FunctionCall =>
      var k :- Registry.CallableIndex(cfg.callables, t.value);
      Build(cfg, FunctionCall, t.children, Some(k), tables, false)
    case Aggregation =>
      var k :- Registry.CallableIndex(cfg.callables, t.value);
      Build(cfg, Aggregation, t.children, Some(k), tables, false)
    case IndexedVariable =>
      var (k, collections) := Intern(tables.collections, t.value);
      Build(cfg, Index, t.children, Some(k), tables.(collections := collections), false)
    case _ => Err(UnexpectedTokenType)
  }

  /** `Expression::parse`: the outermost token list becomes a group. */
  function Parse(cfg: Config, input: string): Result<(Node, Tables)> {
    var root :- Lexer.Lex(input);
    Build(cfg, Group, root.children, None, NO_TABLES, true)
  }
}

=== FILE: evaluator.dfy ===
/**
  `Node::evaluate` and `Node::stringify` of limex.h: recursive walks over a
  syntax tree.

  The C++ node reaches its expression through a back pointer; here the parts of
  the expression that evaluation reads are passed explicitly: the callable
  implementations of the handle and the number of collection names (`Scope`),
  and the caller-supplied values (`Bindings`). A value the C++ code reads out
  of range (`variableValues[i]`, `collectionValues[c]`, undefined behaviour
  there) yields `MissingBinding`; `std::get` of the wrong alternative, or of a
  missing operand, yields `OperandMismatch`.
 */
module Evaluator {
  import opened Basics
  import opened Syntax
  import opened Registry

  datatype Scope = Scope(callables: seq<Impl>, collectionCount: nat)

  /** The values supplied for the variables and the collections, by table index. */
  datatype Bindings = Bindings(variables: seq<real>, collections: seq<seq<real>>)

  /** The table index held by operand slot `i`. */
  function IndexAt(n: Node, i: nat): Result<nat> {
    if i < |n.operands| && n.operands[i].Idx? then Ok(n.operands[i].index) else Err(OperandMismatch)
  }

  /**
    The 1-based element `value` of `values`. The C++ code casts `value` to
    `size_t` and subtracts one, so a value below 1 wraps around and is
    rejected like any index past the end.
   */
  function Select(values: seq<real>, value: real): (r: Result<real>)
    ensures r.Ok? <==> 1.0 <= value < (|values| + 1) as real
    ensures r.Ok? ==> r.value == values[value.Floor - 1]
    ensures r.Err? ==> r.error == IllegalIndex
  {
    if value < 1.0 then Err(IllegalIndex)
    else
      var k := value.Floor;
      if k - 1 >= |values| then Err(IllegalIndex) else Ok(values[k - 1])
  }

  /** Evaluates the operand at slot `i`, which must hold a node. */
  function EvalChild(n: Node, i: nat, s: Scope, b: Bindings): Result<real>
    decreases n, 1, 0
  {
    if i < |n.operands| && n.operands[i].Sub? then Eval(n.operands[i].node, s, b)
    else Err(OperandMismatch)
  }

  /** Evaluates the operands from slot `from` on, left to right, stopping at the first error. */
  function EvalFrom(n: Node, from: nat, s: Scope, b: Bindings): (r: Result<seq<real>>)
    ensures r.Ok? ==> |r.value| == if from < |n.operands| then |n.operands| - from else 0
    decreases n, 1, |n.operands| - from
  {
    if from >= |n.operands| then Ok([])
    else
      var v :- EvalChild(n, from, s, b);
      var rest :- EvalFrom(n, from + 1, s, b);
      Ok([v] + rest)
  }

  /** Evaluates both operands of a binary node, left first. */
  function EvalPair(n: Node, s: Scope, b: Bindings): Result<(real, real)>
    decreases n, 2, 0
  {
    var left :- EvalChild(n, 0, s, b);
    var right :- EvalChild(n, 1, s, b);
    Ok((left, right))
  }

  /**
    `function_call` and `aggregation`: slot 0 holds the callable's position.
    A sole collection argument passes the collection's values; otherwise the
    remaining operands are evaluated and passed.
   */
  function EvalCall(n: Node, s: Scope, b: Bindings): Result<real>
    decreases n, 2, 0
  {
    var index :- IndexAt(n, 0);
    if index >= |s.callables| then Err(CallableIndexOutOfRange)
    else if index == AT then Err(AtNotSupported)
    else if |n.operands| == 2 && n.operands[1].Sub? && n.operands[1].node.kind == Collection then
      var c :- IndexAt(n.operands[1].node, 0);
      if c >= |b.collections| then Err(MissingBinding) else s.callables[index](b.collections[c])
    else
      var args :- EvalFrom(n, 1, s, b);
      s.callables[index](args)
  }

  /**
    `index`: slot 0 holds the collection's position, slot 1 the node giving the
    1-based position in it. (The shortcut for a literal position reads the
    literal's value, which is what evaluating the literal yields.)
   */
  function EvalIndex(n: Node, s: Scope, b: Bindings): Result<real>
    decreases n, 2, 0
  {
    var c :- IndexAt(n, 0);
    if c >= s.collectionCount then Err(IllegalCollectionReference)
    else if c >= |b.collections| then Err(InsufficientCollections)
    else if !(|n.operands| > 1 && n.operands[1].Sub?) then Err(OperandMismatch)
    else
      var value :- Eval(n.operands[1].node, s, b);
      Select(b.collections[c], value)
  }

  /**
    `element_of` and `not_element_of`: the left operand's value followed by the
    values of the operands of the right operand's node.
   */
  function EvalMembership(n: Node, builtin: nat, s: Scope, b: Bindings): Result<real>
    decreases n, 2, 0
  {
    if builtin >= |s.callables| then Err(CallableIndexOutOfRange)
    else
      var x :- EvalChild(n, 0, s, b);
      if !(|n.operands| > 1 && n.operands[1].Sub?) then Err(OperandMismatch)
      else
        var elements :- EvalFrom(n.operands[1].node, 0, s, b);
        s.callables[builtin]([x] + elements)
  }

  /** `Node::evaluate`. */
  function Eval(n: Node, s: Scope, b: Bindings): Result<real>
    decreases n, 3, 0
  {
    match n.kind
    case Group => EvalChild(n, 0, s, b)
    case Set => Err(SetNotEvaluable)
    case Sequence => Err(SequenceNotEvaluable)
    case Literal =>
      if |n.operands| > 0 && n.operands[0].Lit? then Ok(n.operands[0].value) else Err(OperandMismatch)
    case Variable =>
      var i :- IndexAt(n, 0);
      if i < |b.variables| then Ok(b.variables[i]) else Err(MissingBinding)
    case Collection => Err(CollectionNotEvaluable)
    case Negate =>
      var v :- EvalChild(n, 0, s, b);
      Ok(-v)
    case LogicalNot =>
      var v :- EvalChild(n, 0, s, b);
      Ok(Truth(!IsTrue(v)))
    case LogicalAnd =>
      var (l, r) :- EvalPair(n, s, b);
      Ok(Truth(IsTrue(l) && IsTrue(r)))
    case LogicalOr =>
      var (l, r) :- EvalPair(n, s, b);
      Ok(Truth(IsTrue(l) || IsTrue(r)))
    case Add =>
      var (l, r) :- EvalPair(n, s, b);
      Ok(l + r)
    case Subtract =>
      var (l, r) :- EvalPair(n, s, b);
      Ok(l - r)
    case Multiply =>
      var (l, r) :- EvalPair(n, s, b);
      Ok(l * r)
    case Divide =>
      var (l, r) :- EvalPair(n, s, b);
      if r == 0.0 then Err(DivisionByZero) else Ok(l / r)
    case Square =>
      var v :- EvalChild(n, 0, s, b);
      Ok(v * v)
    case Cube =>
      var v :- EvalChild(n, 0, s, b);
      Ok(v * v * v)
    case Exponentiate =>
      if POW >= |s.callables| then Err(CallableIndexOutOfRange)
      else
        var args :- EvalFrom(n, 0, s, b);
        s.callables[POW](args)
    case FunctionCall => EvalCall(n, s, b)
    case Aggregation => EvalCall(n, s, b)
    case Index => EvalIndex(n, s, b)
    case ElementOf => EvalMembership(n, ELEMENT_OF, s, b)
    case NotElementOf => EvalMembership(n, NOT_ELEMENT_OF, s, b)
    case IfThenElse =>
      if IF_THEN_ELSE >= |s.callables| then Err(CallableIndexOutOfRange)
      else
        var args :- EvalFrom(n, 0, s, b);
        s.callables[IF_THEN_ELSE](args)
    case LessThan =>
      var (l, r) :- EvalPair(n, s, b);
      Ok(Truth(l < r))
    case LessOrEqual =>
      var (l, r) :- EvalPair(n, s, b);
      Ok(Truth(l <= r))
    case GreaterThan =>
      var (l, r) :- EvalPair(n, s, b);
      Ok(Truth(l > r))
    case GreaterOrEqual =>
      var (l, r) :- EvalPair(n, s, b);
      Ok(Truth(l >= r))
    case EqualTo =>
      var (l, r) :- EvalPair(n, s, b);
      Ok(Truth(l == r))
    case NotEqualTo =>
      var (l, r) :- EvalPair(n, s, b);
      Ok(Truth(l != r))
    case Assign => EvalChild(n, 0, s, b)
    case AddAssign =>
      var (l, r) :- EvalPair(n, s, b);
      Ok(l + r)
    case SubtractAssign =>
      var (l, r) :- EvalPair(n, s, b);
      Ok(l - r)
    case MultiplyAssign =>
      var (l, r) :- EvalPair(n, s, b);
      Ok(l * r)
    case DivideAssign =>
      var (l, r) :- EvalPair(n, s, b);
      if r == 0.0 then Err(DivisionByZero) else Ok(l / r)
    case IfMark => Err(UnsupportedKind)
    case ThenMark => Err(UnsupportedKind)
    case ElseMark => Err(UnsupportedKind)
  }

  // ----- what evaluation means -----

  /** Argument collection fails exactly when some operand is no node or fails to evaluate. */
  lemma {:induction false} EvalFromFailsOnSomeOperand(n: Node, from: nat, s: Scope, b: Bindings)
    ensures EvalFrom(n, from, s, b).Err? <==> exists k :: from <= k < |n.operands| && EvalChild(n, k, s, b).Err?
    decreases |n.operands| - from
  {
    if from < |n.operands| {
      if EvalChild(n, from, s, b).Ok? {
        EvalFromFailsOnSomeOperand(n, from + 1, s, b);
        if exists k :: from <= k < |n.operands| && EvalChild(n, k, s, b).Err? {
          var k :| from <= k < |n.operands| && EvalChild(n, k, s, b).Err?;
          assert from + 1 <= k;
        }
      } else {
        assert from <= from < |n.operands| && EvalChild(n, from, s, b).Err?;
      }
    }
  }

  /** Argument collection over three node operands. */
  lemma EvalFromThree(k: Kind, c: Node, t: Node, e: Node, s: Scope, b: Bindings)
    ensures var n := Node(k, [Sub(c), Sub(t), Sub(e)]);
      (Eval(c, s, b).Ok? && Eval(t, s, b).Ok? && Eval(e, s, b).Ok? ==>
        EvalFrom(n, 0, s, b) == Ok([Eval(c, s, b).value, Eval(t, s, b).value, Eval(e, s, b).value]))
      && (Eval(e, s, b).Err? ==> EvalFrom(n, 0, s, b).Err?)
  {
    var n := Node(k, [Sub(c), Sub(t), Sub(e)]);
    assert EvalChild(n, 0, s, b) == Eval(c, s, b);
    assert EvalChild(n, 1, s, b) == Eval(t, s, b);
    assert EvalChild(n, 2, s, b) == Eval(e, s, b);
    assert EvalFrom(n, 3, s, b) == Ok([]);
    if Eval(c, s, b).Ok? && Eval(t, s, b).Ok? && Eval(e, s, b).Ok? {
      var ec, et, ev := Eval(c, s, b).value, Eval(t, s, b).value, Eval(e, s, b).value;
      assert [ev] + [] == [ev];
      assert EvalFrom(n, 2, s, b) == Ok([ev]);
      assert [et] + [ev] == [et, ev];
      assert EvalFrom(n, 1, s, b) == Ok([et, ev]);
      assert [ec] + [et, ev] == [ec, et, ev];
    }
    if Eval(e, s, b).Err? {
      assert EvalFrom(n, 2, s, b).Err?;
      assert EvalFrom(n, 1, s, b).Err?;
    }
  }

  /**
    With the built-in implementations registered, `if … then … else …` yields
    the branch its condition selects, and evaluates all three operands first.
   */
  lemma IfThenElseSelectsBranch(math: MathLibrary, c: Node, t: Node, e: Node, collectionCount: nat, b: Bindings)
    ensures var s := Scope(Builtins(math), collectionCount);
      var r := Eval(Node(IfThenElse, [Sub(c), Sub(t), Sub(e)]), s, b);
      (Eval(c, s, b).Ok? && Eval(t, s, b).Ok? && Eval(e, s, b).Ok? ==>
        r == Ok(if IsTrue(Eval(c, s, b).value) then Eval(t, s, b).value else Eval(e, s, b).value))
      && (Eval(e, s, b).Err? ==> r.Err?)
  {
    var s := Scope(Builtins(math), collectionCount);
    var n := Node(IfThenElse, [Sub(c), Sub(t), Sub(e)]);
    EvalFromThree(IfThenElse, c, t, e, s, b);
    assert s.callables[IF_THEN_ELSE] == Registry.IfThenElse;
    var args := EvalFrom(n, 0, s, b);
    if args.Ok? {
      assert Eval(n, s, b) == Registry.IfThenElse(args.value);
    } else {
      assert Eval(n, s, b) == Err(args.error);
    }
  }

  /** `x in {…}` passes the value of `x` and then the values of the elements to `element_of`. */
  lemma MembershipArguments(math: MathLibrary, x: Node, elements: seq<Operand>, collectionCount: nat, b: Bindings)
    requires var s := Scope(Builtins(math), collectionCount);
      Eval(Node(ElementOf, [Sub(x), Sub(Node(Set, elements))]), s, b).Ok?
    ensures var s := Scope(Builtins(math), collectionCount);
      Eval(x, s, b).Ok? && EvalFrom(Node(Set, elements), 0, s, b).Ok? &&
      Eval(Node(ElementOf, [Sub(x), Sub(Node(Set, elements))]), s, b)
        == Registry.ElementOf([Eval(x, s, b).value] + EvalFrom(Node(Set, elements), 0, s, b).value)
  {
    var s := Scope(Builtins(math), collectionCount);
    var n := Node(ElementOf, [Sub(x), Sub(Node(Set, elements))]);
    assert s.callables[ELEMENT_OF] == Registry.ElementOf;
    assert Eval(n, s, b) == EvalMembership(n, ELEMENT_OF, s, b);
    assert EvalChild(n, 0, s, b) == Eval(x, s, b);
  }

  /**
    With the built-in implementations registered, `x in {…}` is true exactly
    when the value of `x` equals the value of one of the elements.
   */
  lemma MembershipTestsElements(math: MathLibrary, x: Node, elements: seq<Operand>, collectionCount: nat, b: Bindings)
    requires var s := Scope(Builtins(math), collectionCount);
      Eval(Node(ElementOf, [Sub(x), Sub(Node(Set, elements))]), s, b).Ok?
    ensures var s := Scope(Builtins(math), collectionCount);
      var r := Eval(Node(ElementOf, [Sub(x), Sub(Node(Set, elements))]), s, b).value;
      (r == 1.0 <==> exists k :: 0 <= k < |elements| && elements[k].Sub?
                                 && Eval(elements[k].node, s, b) == Eval(x, s, b))
      && (r == 0.0 || r == 1.0)
  {
    var s := Scope(Builtins(math), collectionCount);
    var n := Node(ElementOf, [Sub(x), Sub(Node(Set, elements))]);
    MembershipArguments(math, x, elements, collectionCount, b);
    var v := Eval(x, s, b).value;
    var values := EvalFrom(Node(Set, elements), 0, s, b).value;
    var args := [v] + values;
    var r := Eval(n, s, b).value;
    if r == 1.0 {
      var k :| 1 <= k < |args| && args[k] == args[0];
      ValueOfOperand(Node(Set, elements), 0, k - 1, s, b);
    }
    if exists k :: 0 <= k < |elements| && elements[k].Sub? && Eval(elements[k].node, s, b) == Eval(x, s, b) {
      var k :| 0 <= k < |elements| && elements[k].Sub? && Eval(elements[k].node, s, b) == Eval(x, s, b);
      ValueOfOperand(Node(Set, elements), 0, k, s, b);
      assert args[k + 1] == args[0];
    }
  }

  /** The value argument collection from slot `from` yields for slot `k` is the value of that operand. */
  lemma {:induction false} ValueOfOperand(n: Node, from: nat, k: nat, s: Scope, b: Bindings)
    requires EvalFrom(n, from, s, b).Ok? && from <= k < |n.operands|
    ensures k - from < |EvalFrom(n, from, s, b).value| && n.operands[k].Sub?
    ensures Eval(n.operands[k].node, s, b) == Ok(EvalFrom(n, from, s, b).value[k - from])
    decreases k - from
  {
    if k > from {
      ValueOfOperand(n, from + 1, k, s, b);
    }
  }

  /**
    With the built-in implementations registered, `sum` applied to a
    collection adds up the values supplied for that collection.
   */
  lemma SumOfCollection(math: MathLibrary, c: nat, collectionCount: nat, b: Bindings)
    requires c < |b.collections|
    ensures Eval(Node(Aggregation, [Idx(SUM), Sub(Node(Collection, [Idx(c)]))]), Scope(Builtins(math), collectionCount), b)
            == Ok(Total(b.collections[c]))
  {
    assert Builtins(math)[SUM] == Registry.Sum;
  }

  /**
    An indexed collection with a literal position reads the 1-based element
    of the collection, and fails with `IllegalIndex` outside `1 ≤ v < n + 1`.
   */
  lemma IndexIsOneBased(c: nat, v: real, s: Scope, b: Bindings)
    requires c < s.collectionCount && c < |b.collections|
    ensures var r := Eval(Node(Index, [Idx(c), Sub(Node(Literal, [Lit(v)]))]), s, b);
      (r.Ok? <==> 1.0 <= v < (|b.collections[c]| + 1) as real)
      && (r.Ok? ==> r.value == b.collections[c][v.Floor - 1])
      && (r.Err? ==> r.error == IllegalIndex)
  {
    var n := Node(Index, [Idx(c), Sub(Node(Literal, [Lit(v)]))]);
    assert Eval(Node(Literal, [Lit(v)]), s, b) == Ok(v);
    assert Eval(n, s, b) == EvalIndex(n, s, b) == Select(b.collections[c], v);
  }

  /** A division, plain or compound, succeeds only when its divisor is not zero. */
  lemma DivisionNeedsNonZeroDivisor(k: Kind, left: Node, right: Node, s: Scope, b: Bindings)
    requires k == Divide || k == DivideAssign
    requires Eval(left, s, b).Ok? && Eval(right, s, b).Ok?
    ensures var r := Eval(Node(k, [Sub(left), Sub(right)]), s, b);
      (r.Ok? <==> Eval(right, s, b).value != 0.0)
      && (r.Ok? ==> r.value * Eval(right, s, b).value == Eval(left, s, b).value)
      && (r.Err? ==> r.error == DivisionByZero)
  {
    var n := Node(k, [Sub(left), Sub(right)]);
    assert EvalPair(n, s, b) == Ok((Eval(left, s, b).value, Eval(right, s, b).value));
  }

  /** The plain operator a compound assignment applies. */
  function OperatorOf(k: Kind): Kind {
    match k
    case AddAssign => Add
    case SubtractAssign => Subtract
    case MultiplyAssign => Multiply
    case _ => Divide
  }

  /**
    A compound assignment yields its left operand's value combined with its
    right operand's value by the plain operator, errors included.
   */
  lemma CompoundAssignmentValue(k: Kind, left: Node, right: Node, s: Scope, b: Bindings)
    requires k == AddAssign || k == SubtractAssign || k == MultiplyAssign || k == DivideAssign
    ensures Eval(Node(k, [Sub(left), Sub(right)]), s, b) == Eval(Node(OperatorOf(k), [Sub(left), Sub(right)]), s, b)
  {
    match k
    case AddAssign => AddAssignIsAdd(left, right, s, b);
    case SubtractAssign => SubtractAssignIsSubtract(left, right, s, b);
    case MultiplyAssign => MultiplyAssignIsMultiply(left, right, s, b);
    case DivideAssign => DivideAssignIsDivide(left, right, s, b);
  }

  /** Two nodes with the same two operands collect the same pair of values. */
  lemma SamePair(k: Kind, j: Kind, left: Node, right: Node, s: Scope, b: Bindings)
    ensures EvalPair(Node(k, [Sub(left), Sub(right)]), s, b) == EvalPair(Node(j, [Sub(left), Sub(right)]), s, b)
  {
    var n, m := Node(k, [Sub(left), Sub(right)]), Node(j, [Sub(left), Sub(right)]);
    assert EvalChild(n, 0, s, b) == EvalChild(m, 0, s, b) == Eval(left, s, b);
    assert EvalChild(n, 1, s, b) == EvalChild(m, 1, s, b) == Eval(right, s, b);
  }

  lemma AddAssignIsAdd(left: Node, right: Node, s: Scope, b: Bindings)
    ensures Eval(Node(AddAssign, [Sub(left), Sub(right)]), s, b) == Eval(Node(Add, [Sub(left), Sub(right)]), s, b)
  {
    SamePair(AddAssign, Add, left, right, s, b);
  }

  lemma SubtractAssignIsSubtract(left: Node, right: Node, s: Scope, b: Bindings)
    ensures Eval(Node(SubtractAssign, [Sub(left), Sub(right)]), s, b) == Eval(Node(Subtract, [Sub(left), Sub(right)]), s, b)
  {
    SamePair(SubtractAssign, Subtract, left, right, s, b);
  }

  lemma MultiplyAssignIsMultiply(left: Node, right: Node, s: Scope, b: Bindings)
    ensures Eval(Node(MultiplyAssign, [Sub(left), Sub(right)]), s, b) == Eval(Node(Multiply, [Sub(left), Sub(right)]), s, b)
  {
    var n, m := Node(MultiplyAssign, [Sub(left), Sub(right)]), Node(Multiply, [Sub(left), Sub(right)]);
    SamePair(MultiplyAssign, Multiply, left, right, s, b);
    var p := EvalPair(n, s, b);
    if p.Ok? {
      var (l, r) := p.value;
      assert Eval(n, s, b).Ok? && Eval(n, s, b).value == l * r;
      assert Eval(m, s, b).Ok? && Eval(m, s, b).value == l * r;
    } else {
      assert Eval(n, s, b) == Err(p.error) == Eval(m, s, b);
    }
  }

  lemma DivideAssignIsDivide(left: Node, right: Node, s: Scope, b: Bindings)
    ensures Eval(Node(DivideAssign, [Sub(left), Sub(right)]), s, b) == Eval(Node(Divide, [Sub(left), Sub(right)]), s, b)
  {
    SamePair(DivideAssign, Divide, left, right, s, b);
  }

  /** A plain assignment yields the value of its only operand, the right-hand side. */
  lemma AssignmentValue(right: Node, s: Scope, b: Bindings)
    ensures Eval(Node(Assign, [Sub(right)]), s, b) == Eval(right, s, b)
  {
    assert EvalChild(Node(Assign, [Sub(right)]), 0, s, b) == Eval(right, s, b);
  }

  /**
    A group yields the value of the node in its first slot, whatever follows
    it; a group without a node there is an operand mismatch.
   */
  lemma GroupValue(n: Node, s: Scope, b: Bindings)
    requires n.kind == Group
    ensures |n.operands| > 0 && n.operands[0].Sub? ==> Eval(n, s, b) == Eval(n.operands[0].node, s, b)
    ensures !(|n.operands| > 0 && n.operands[0].Sub?) ==> Eval(n, s, b) == Err(OperandMismatch)
  {
  }

  // ----- stringify -----

  /** The names a printed tree refers to: the expression's tables and the handle's callable names. */
  datatype Names = Names(variables: seq<string>, collections: seq<string>, callables: seq<string>)

  /** The name table an index operand of a node of kind `k` refers to. */
  function TableFor(k: Kind, names: Names): seq<string> {
    if k == Variable then names.variables
    else if k == Collection || k == Index then names.collections
    else names.callables
  }

  /**
    The printed form of each operand of `n` from slot `from` on. `render` is
    the conversion of a number to text (`std::to_string`).
   */
  function PrintOperands(n: Node, from: nat, names: Names, render: real -> string): (r: Result<seq<string>>)
    ensures r.Ok? ==> |r.value| == if from < |n.operands| then |n.operands| - from else 0
    decreases n, 0, |n.operands| - from
  {
    if from >= |n.operands| then Ok([])
    else
      var part :-
        match n.operands[from]
        case Lit(v) => Ok(render(v))
        case Idx(i) =>
          var table := TableFor(n.kind, names);
          if i < |table| then Ok(table[i]) else Err(NameOutOfRange)
        case Sub(child) => Stringify(child, names, render);
      var rest :- PrintOperands(n, from + 1, names, render);
      Ok([part] + rest)
  }

  /** Each part followed by `", "`, as the printing loop appends them. */
  function Terminated(parts: seq<string>): (r: string)
    ensures |r| >= 2 * |parts|
  {
    if parts == [] then [] else parts[0] + ", " + Terminated(parts[1..])
  }

  /** The parts separated by `", "`. */
  function Join(parts: seq<string>): string {
    if parts == [] then []
    else if |parts| == 1 then parts[0]
    else parts[0] + ", " + Join(parts[1..])
  }

  /**
    `Node::stringify`: the kind's name, `"( "`, every operand followed by
    `", "`; then the last character is dropped and the one before it becomes
    a blank, and `")"` closes.
   */
  function Stringify(n: Node, names: Names, render: real -> string): Result<string>
    decreases n, 1, 0
  {
    var parts :- PrintOperands(n, 0, names, render);
    var text := KindName(n.kind) + "( " + Terminated(parts);
    Ok(text[..|text| - 2] + " )")
  }

  lemma {:induction false} TerminatedIsJoinWithSeparator(parts: seq<string>)
    requires parts != []
    ensures Terminated(parts) == Join(parts) + ", "
  {
    if |parts| > 1 {
      TerminatedIsJoinWithSeparator(parts[1..]);
      assert Terminated(parts) == parts[0] + ", " + (Join(parts[1..]) + ", ");
    }
  }

  /**
    The printed form of a node with operands is its kind's name followed by
    the operands' printed forms, separated by commas, between `"( "` and
    `" )"`; a node without operands prints as its name followed by `" )"`.
   */
  lemma PrintedForm(n: Node, names: Names, render: real -> string)
    requires PrintOperands(n, 0, names, render).Ok?
    ensures var parts := PrintOperands(n, 0, names, render).value;
      Stringify(n, names, render)
        == Ok(if parts == [] then KindName(n.kind) + " )" else KindName(n.kind) + "( " + Join(parts) + " )")
  {
    var parts := PrintOperands(n, 0, names, render).value;
    var text := KindName(n.kind) + "( " + Terminated(parts);
    if parts == [] {
      assert text[..|text| - 2] == KindName(n.kind);
    } else {
      TerminatedIsJoinWithSeparator(parts);
      assert text == (KindName(n.kind) + "( " + Join(parts)) + ", ";
      assert text[..|text| - 2] == KindName(n.kind) + "( " + Join(parts);
    }
  }
}

=== FILE: expression.dfy ===
/**
  The `Expression` class of limex.h: its constructor parses the input with
  `tokenize` and `buildTree`, collecting the names of variables and
  collections into its tables as it goes; `evaluate` and `stringify` walk the
  resulting root.

  Every method here is proved to compute exactly what the functions of the
  `Builder` module compute; the properties of the parse are proved about those
  functions. The expression parses with the corrected assignment rule
  (assignments only in the outermost list).
 */
module Parsing {
  import opened Basics
  import opened Syntax
  import Lexer
  import opened Registry
  import opened Builder
  import Evaluator

  /** A method's result paired with the tables it leaves, in the shape of the specification functions. */
  function WithTables<T>(r: Result<T>, t: Tables): Result<(T, Tables)> {
    if r.Ok? then Ok((r.value, t)) else Err(r.error)
  }

  /** `applyOperator(operatorStack.top())` and the caller's `operatorStack.pop()`. */
  method ApplyOperator(p: Pending) returns (r: Result<Pending>)
    requires p.ops != []
    ensures r == ApplyTop(p)
  {
    var nodes, ops := p.nodes, p.ops;
    var k := |nodes|;
    var op := ops[|ops| - 1];
    if op == ElseMark {
      if |ops| < 2 {
        return Err(InsufficientTernaryOperators);
      }
      ops := ops[..|ops| - 1];
      if ops[|ops| - 1] != ThenMark {
        return Err(WrongTernaryOperators);
      }
      if k < 3 {
        return Err(InsufficientTernaryOperands);
      }
      var elseResult := nodes[k - 1];
      var thenResult := nodes[k - 2].(kind := Group);
      var condition := nodes[k - 3];
      if condition.kind == IfMark {
        condition := condition.(kind := Group);
      }
      nodes := nodes[..k - 3] + [Node(IfThenElse, [Sub(condition), Sub(thenResult), Sub(elseResult)])];
    } else if IsAssignment(op) {
      if k < 2 {
        return Err(InsufficientAssignmentOperands);
      }
      var right, left := nodes[k - 1], nodes[k - 2];
      if left.kind != Variable {
        return Err(IllegalAssignmentTarget);
      }
      if op == Assign {
        nodes := nodes[..k - 2] + [Node(Assign, [Sub(right)])];
      } else {
        nodes := nodes[..k - 2] + [Node(op, [Sub(left), Sub(right)])];
      }
    } else {
      if k < 2 {
        return Err(InsufficientInfixOperands);
      }
      var right, left := nodes[k - 1], nodes[k - 2];
      nodes := nodes[..k - 2] + [Node(op, [Sub(left), Sub(right)])];
    }
    ops := ops[..|ops| - 1];
    assert op == ElseMark ==> ops == p.ops[..|p.ops| - 2];
    return Ok(Pending(nodes, ops));
  }

  /** The loop that empties the operator stack (at a separator and at the end of a list). */
  method Flush(p: Pending) returns (r: Result<Pending>)
    ensures r == ReduceAll(p)
  {
    var q := p;
    while q.ops != []
      invariant ReduceAll(q) == ReduceAll(p)
      decreases |q.ops|
    {
      var applied := ApplyOperator(q);
      if applied.Err? {
        return Err(applied.error);
      }
      q := applied.value;
    }
    return Ok(q);
  }

  /** The loop that applies the pending operators binding at least as tightly as `op`. */
  method ReduceFor(p: Pending, op: Kind) returns (r: Result<Pending>)
    ensures r == ReduceBefore(p, op)
  {
    var q := p;
    while q.ops != []
      invariant ReduceBefore(q, op) == ReduceBefore(p, op)
      decreases |q.ops|
    {
      var top := q.ops[|q.ops| - 1];
      var a, b := Precedence(top), Precedence(op);
      if a.None? || b.None? {
        return Err(UnknownOperator);
      }
      if !(a.value <= b.value && top != ThenMark) {
        break;
      }
      var applied := ApplyOperator(q);
      if applied.Err? {
        return Err(applied.error);
      }
      q := applied.value;
    }
    return Ok(q);
  }

  /** The end of `buildTree`: the final flush, after which exactly one node must remain. */
  method CompleteList(kind: Kind, operands: seq<Operand>, pending: Pending) returns (r: Result<Node>)
    ensures r == Complete(kind, operands, pending)
  {
    var flushed := Flush(pending);
    if flushed.Err? {
      return Err(flushed.error);
    }
    if |flushed.value.nodes| != 1 {
      return Err(UnmatchedOperatorsOrOperands);
    }
    return Ok(Node(kind, operands + [Sub(flushed.value.nodes[0])]));
  }

  class Expression {
    const input: string
    const handle: Handle
    var variables: seq<string>
    var collections: seq<string>
    var target: Option<string>
    var root: Node

    /** The tables as one value. */
    function State(): Tables
      reads this
    {
      Tables(variables, collections, target)
    }

    /** What the parse needs to know of the handle. */
    function Cfg(): Config
      reads this, handle
    {
      Config(handle.names, RootListOnly)
    }

    /** An expression over `input` with empty tables, before parsing. */
    constructor (input: string, handle: Handle)
      ensures this.input == input && this.handle == handle
      ensures State() == NO_TABLES && root == Node(Group, [])
    {
      this.input := input;
      this.handle := handle;
      variables := [];
      collections := [];
      target := None;
      root := Node(Group, []);
    }

    /** The constructor of limex.h: an expression whose root is the parse of `input`, or the error that stops it. */
    static method Create(input: string, handle: Handle) returns (r: Result<Expression>)
      ensures r.Ok? ==> fresh(r.value) && r.value.input == input && r.value.handle == handle
      ensures Builder.Parse(Config(handle.names, RootListOnly), input)
              == if r.Ok? then Ok((r.value.root, r.value.State())) else Err(r.error)
    {
      var e := new Expression(input, handle);
      var o := e.Parse();
      if o.Fail? {
        return Err(o.error);
      }
      return Ok(e);
    }

    /** `parse`: tokenizes the input and builds the tree of the outermost group. */
    method Parse() returns (o: Outcome)
      requires State() == NO_TABLES
      modifies this
      ensures Builder.Parse(Cfg(), input) == if o.Pass? then Ok((root, State())) else Err(o.error)
    {
      var token := Lexer.Tokenize(input);
      if token.Err? {
        return Fail(token.error);
      }
      var r := BuildTree(Group, token.value.children, None, true);
      if r.Err? {
        return Fail(r.error);
      }
      root := r.value;
      return Pass;
    }

    /** `getIndex`: the position of `name` in `container`, appended when missing. */
    static method GetIndex(container: seq<string>, name: string) returns (index: nat, updated: seq<string>)
      ensures (index, updated) == Intern(container, name)
    {
      for i := 0 to |container|
        invariant name !in container[..i]
      {
        if container[i] == name {
          return i, container;
        }
      }
      assert container[..|container|] == container;
      return |container|, container + [name];
    }

    /** `buildTree`: the loop over the tokens of one list, then the final flush. */
    method BuildTree(kind: Kind, tokens: seq<Lexer.Token>, index: Option<nat>, topLevel: bool) returns (r: Result<Node>)
      modifies this
      ensures Build(Cfg(), kind, tokens, index, old(State()), topLevel) == WithTables(r, State())
      decreases tokens, 2
    {
      var operands: seq<Operand> := if index.Some? then [Idx(index.value)] else [];
      var pending := Pending([], []);
      ghost var start := ListState(operands, pending, State());
      var i := 0;
      while i < |tokens|
        invariant 0 <= i <= |tokens|
        invariant Run(Cfg(), tokens, 0, start, topLevel) == Run(Cfg(), tokens, i, ListState(operands, pending, State()), topLevel)
      {
        ghost var before := ListState(operands, pending, State());
        var next := Consume(tokens, i, operands, pending, topLevel);
        if next.Err? {
          assert Run(Cfg(), tokens, i, before, topLevel) == Err(next.error);
          assert Build(Cfg(), kind, tokens, index, old(State()), topLevel) == Err(next.error);
          return Err(next.error);
        }
        operands, pending := next.value.0, next.value.1;
        assert Run(Cfg(), tokens, i, before, topLevel) == Run(Cfg(), tokens, i + 1, ListState(operands, pending, State()), topLevel);
        i := i + 1;
      }
      assert Run(Cfg(), tokens, i, ListState(operands, pending, State()), topLevel) == Ok(ListState(operands, pending, State()));
      assert Build(Cfg(), kind, tokens, index, old(State()), topLevel) == Finish(kind, ListState(operands, pending, State()));
      r := CompleteList(kind, operands, pending);
    }

    /** One iteration of the loop of `buildTree`, for token `i`. */
    method Consume(tokens: seq<Lexer.Token>, i: nat, operands: seq<Operand>, pending: Pending, topLevel: bool)
      returns (r: Result<(seq<Operand>, Pending)>)
      requires i < |tokens|
      modifies this
      ensures Step(Cfg(), tokens, i, ListState(operands, pending, old(State())), topLevel)
              == if r.Ok? then Ok(ListState(r.value.0, r.value.1, State())) else Err(r.error)
      decreases tokens, 1
    {
      var t := tokens[i];
      if t.category.Prefix? && t.tokenType.Group? {
        var n := BuildTree(IfMark, t.children, None, false);
        if n.Err? {
          return Err(n.error);
        }
        return Ok((operands, PushNode(pending, n.value)));
      } else if t.category.Infix? && t.tokenType.Group? {
        var n := BuildTree(ThenMark, t.children, None, false);
        if n.Err? {
          return Err(n.error);
        }
        return Ok((operands, Pending(pending.nodes + [n.value], pending.ops + [ThenMark])));
      } else if t.category.Operand? {
        var n := CreateNode(t);
        if n.Err? {
          return Err(n.error);
        }
        var node := n.value;
        if i + 1 < |tokens| && tokens[i + 1].category.Postfix? {
          var k := PostfixKind(tokens[i + 1].value);
          if k.None? {
            return Err(UnknownOperator);
          }
          node := Node(k.value, [Sub(node)]);
        }
        if 0 < i && tokens[i - 1].category.Prefix? {
          var k := PrefixKind(tokens[i - 1].value);
          if k.None? {
            return Err(UnknownOperator);
          }
          node := Node(k.value, [Sub(node)]);
        }
        return Ok((operands, PushNode(pending, node)));
      } else if t.tokenType.Separator? {
        var flushed := Flush(pending);
        if flushed.Err? {
          return Err(flushed.error);
        }
        if |flushed.value.nodes| != 1 {
          return Err(UnmatchedOperatorsOrOperands);
        }
        return Ok((operands + [Sub(flushed.value.nodes[0])], Pending([], [])));
      } else if t.category.Infix? {
        var op := InfixKind(t.value);
        if op.None? {
          return Err(UnknownOperator);
        }
        if IsAssignment(op.value) {
          if i != 1 || !topLevel {
            return Err(MisplacedAssignment);
          }
          if op.value == Assign {
            variables := [];
          }
          target := Some(tokens[0].value);
        }
        var reduced := ReduceFor(pending, op.value);
        if reduced.Err? {
          return Err(reduced.error);
        }
        return Ok((operands, Pending(reduced.value.nodes, reduced.value.ops + [op.value])));
      }
      return Ok((operands, pending));
    }

    /** `createNode`: the node for an operand token, interning the names it introduces. */
    method CreateNode(t: Lexer.Token) returns (r: Result<Node>)
      modifies this
      ensures Builder.CreateNode(Cfg(), t, old(State())) == WithTables(r, State())
      decreases t, 3
    {
      match t.tokenType
      case Number =>
        var v := ParseNumber(t.value);
        if v.Err? {
          return Err(v.error);
        }
        return Ok(Node(Literal, [Lit(v.value)]));
      case Variable =>
        var k, updated := GetIndex(variables, t.value);
        variables := updated;
        return Ok(Node(Variable, [Idx(k)]));
      case Collection =>
        var k, updated := GetIndex(collections, t.value);
        collections := updated;
        return Ok(Node(Collection, [Idx(k)]));
      case Group =>
        r := BuildTree(Group, t.children, None, false);
      case Set =>
        r := BuildTree(Set, t.children, None, false);
      case Sequence =>
        r := BuildTree(Sequence, t.children, None, false);
      case FunctionCall =>
        var k := handle.GetIndex(t.value);
        if k.Err? {
          return Err(k.error);
        }
        r := BuildTree(FunctionCall, t.children, Some(k.value), false);
      case Aggregation =>
        var k := handle.GetIndex(t.value);
        if k.Err? {
          return Err(k.error);
        }
        r := BuildTree(Aggregation, t.children, Some(k.value), false);
      case IndexedVariable =>
        var k, updated := GetIndex(collections, t.value);
        collections := updated;
        r := BuildTree(Index, t.children, Some(k), false);
      case _ =>
        return Err(UnexpectedTokenType);
    }

    /** `evaluate`: the value of the root for the given variable and collection values. */
    function Evaluate(b: Evaluator.Bindings): Result<real>
      reads this, handle
      requires handle.Valid()
    {
      Evaluator.Eval(root, Evaluator.Scope(handle.implementations, |collections|), b)
    }

    /** `stringify`: the printed form of the root. */
    function Stringify(render: real -> string): Result<string>
      reads this, handle
    {
      Evaluator.Stringify(root, Evaluator.Names(variables, collections, handle.names), render)
    }
  }
}

=== FILE: findings.dfy ===
/**
  Three places where limex.h, read closely, does something other than what its
  design evidently intends. For each one the code as written is modelled next
  to the corrected behaviour the rest of the model uses, with the input that
  tells them apart.

  1. `tokenize` pushes the root frame with the closing spelling `#`, so a `#`
     in the input pops the root and the next iteration finds the group stack
     empty. The corrected root frame has no closer, and lexing never empties
     the stack.
  2. A nested list may contain an assignment under the rule "every list", and
     `:=` then clears the variable table that the enclosing list has already
     used; the finished tree refers to a variable the table no longer names.
     The rule "root list only" rejects the nested assignment.
  3. `divide_assign` divides without the zero check that `divide` makes, so
     `x /= 0` yields a non-finite value instead of the division-by-zero error.
 */
/** Finding 1: the root frame of `tokenize` has a closing spelling. */
module RootCloser {
  import opened Basics
  import opened Lexer

  /** The root frame as `tokenize` pushes it: closed by `#`. */
  const SENTINEL_ROOT: Frame := Frame(ROOT.token, Some("#"))

  /** `tokenize` as written: the loop started on a root frame closed by `#`. */
  function LexAsWritten(input: string): Result<Token> {
    LexFrom(input, LexState(0, Prefix, [SENTINEL_ROOT]))
  }

  /** The input that shows the difference. */
  const HASH_INPUT: string := "1#2"

  /** The first iteration on `1#2` reads the number and then closes the frame `#` closes. */
  lemma FirstIterationOnHash(stack: seq<Frame>)
    requires stack == [SENTINEL_ROOT] || stack == [ROOT]
    ensures var s1 := LexState(1, Infix, Emit(stack, Token(Operand, Number, "1", [])));
      Lexer.Step(HASH_INPUT, LexState(0, Prefix, stack)) == CloseOrInfix(HASH_INPUT, s1)
  {
    var input := HASH_INPUT;
    assert Span(input, 0, Space) == 0;
    assert Fetch(input, 0, PREFIXES) == [];
    var s0 := LexState(0, Operand, stack);
    assert PrefixStage(input, LexState(0, Prefix, stack)) == Proceed(s0);
    assert Fetch(input, 0, KEYWORDS) == [];
    assert !StartsWith(input, 0, IF) && !StartsWith(input, 0, THEN) && !StartsWith(input, 0, ELSE);
    assert Span(input, 1, Numeric) == 1;
    assert Span(input, 0, Numeric) == 1;
    assert input[0..1] == "1";
    var one := Token(Operand, Number, "1", []);
    assert OperandStage(input, s0) == Proceed(LexState(1, Postfix, Emit(stack, one)));
    assert Fetch(input, 1, POSTFIXES) == [];
    assert Span(input, 1, Space) == 1;
  }

  /**
    As written, `#` pops the root frame, and the iteration that follows finds
    the group stack empty.
   */
  lemma HashEmptiesTheStackAsWritten()
    ensures LexAsWritten(HASH_INPUT) == Err(GroupStackEmpty)
  {
    var stack := Emit([SENTINEL_ROOT], Token(Operand, Number, "1", []));
    FirstIterationOnHash([SENTINEL_ROOT]);
    HashClosesTheRoot();
    EmptyStackHalts();
    assert Lexer.Step(HASH_INPUT, LexState(0, Prefix, [SENTINEL_ROOT])) == Next(LexState(2, Postfix, []));
  }

  /** After `1`, the `#` closes the frame it was pushed with: the root. */
  lemma HashClosesTheRoot()
    ensures var stack := Emit([SENTINEL_ROOT], Token(Operand, Number, "1", []));
      CloseOrInfix(HASH_INPUT, LexState(1, Infix, stack)) == Next(LexState(2, Postfix, []))
  {
    var stack := Emit([SENTINEL_ROOT], Token(Operand, Number, "1", []));
    assert Closes(HASH_INPUT, 1, stack[0]);
  }

  /** The iteration after that finds no frame. */
  lemma EmptyStackHalts()
    ensures LexFrom(HASH_INPUT, LexState(2, Postfix, [])) == Err(GroupStackEmpty)
  {
    assert Span(HASH_INPUT, 2, Space) == 2;
    assert Lexer.Step(HASH_INPUT, LexState(2, Postfix, [])) == Halt(GroupStackEmpty);
  }

  /** Corrected, `#` is just a character no token starts with. */
  lemma HashIsUnexpected()
    ensures Lex(HASH_INPUT) == Err(UnexpectedCharacter)
  {
    var input := HASH_INPUT;
    var stack := Emit([ROOT], Token(Operand, Number, "1", []));
    FirstIterationOnHash([ROOT]);
    assert !Closes(input, 1, stack[0]);
    NoInfixStartsWithHash();
    FetchMissesFirstCharacter(input, 1, INFIXES);
    assert Lexer.Step(input, LexState(0, Prefix, [ROOT])) == Halt(UnexpectedCharacter);
  }

  lemma NoInfixStartsWithHash()
    ensures forall k :: 0 <= k < |INFIXES| ==> INFIXES[k][0] != '#'
  {
  }

  lemma {:induction false} LexFromKeepsStack(input: string, st: LexState)
    requires st.pos <= |input| && WellFramed(st.stack)
    ensures LexFrom(input, st) != Err(GroupStackEmpty)
    decreases |input| - st.pos
  {
    if st.pos < |input| {
      StepKeepsFrames(input, st);
      match Lexer.Step(input, st)
      case Next(s) => LexFromKeepsStack(input, s);
      case Stop(_) =>
      case Halt(_) =>
    }
  }

  /** Corrected, no input makes the lexer pop its root frame. */
  lemma LexNeverEmptiesTheStack(input: string)
    ensures Lex(input) != Err(GroupStackEmpty)
  {
    LexFromKeepsStack(input, LexState(0, Prefix, [ROOT]));
  }
}

/** Finding 2: an assignment in a nested list clears the table the enclosing list uses. */
module NestedAssignment {
  import opened Basics
  import opened Syntax
  import Lexer
  import Registry
  import opened Builder
  import opened Evaluator
  import Scoping
  import opened Scenarios

  function Name(s: string): Lexer.Token { Lexer.Token(Lexer.Operand, Lexer.Variable, s, []) }

  /** The tokens of `x := 3`, the list inside the parentheses of `y + (x := 3)`. */
  const NESTED: seq<Lexer.Token> := [Name("x"), Op(":="), Num("3")]

  /** The outermost tokens of `y + (x := 3)`. */
  const OUTER: seq<Lexer.Token> := [Name("y"), Op("+"), Lexer.Token(Lexer.Operand, Lexer.Group, "", NESTED)]

  /** The node that refers to variable `j` of the table. */
  function VariableNode(j: nat): Node { Node(Variable, [Idx(j)]) }

  /** The group `(x := 3)` as built. */
  function AssignedGroup(): Node { Node(Group, [Sub(Node(Assign, [Sub(Value(3.0))]))]) }

  /** The tree of `y + (x := 3)` as built under the rule of every list. */
  function TreeAsWritten(): Node { Node(Group, [Sub(Binary(Add, VariableNode(0), AssignedGroup()))]) }

  /** A variable token that is new to the table interns it at the end of the table. */
  lemma NameRun(cfg: Config, tokens: seq<Lexer.Token>, i: nat, st: ListState, topLevel: bool, name: string)
    requires i < |tokens| && tokens[i] == Name(name) && name !in st.tables.variables
    requires i + 1 < |tokens| ==> !tokens[i + 1].category.Postfix?
    requires i > 0 ==> !tokens[i - 1].category.Prefix?
    ensures Run(cfg, tokens, i, st, topLevel)
            == Run(cfg, tokens, i + 1,
                   ListState(st.operands, PushNode(st.pending, VariableNode(|st.tables.variables|)),
                             st.tables.(variables := st.tables.variables + [name])), topLevel)
  {
    var tables := st.tables.(variables := st.tables.variables + [name]);
    var n := VariableNode(|st.tables.variables|);
    assert CreateNode(cfg, tokens[i], st.tables) == Ok((n, tables));
    assert Step(cfg, tokens, i, st, topLevel) == Ok(ListState(st.operands, PushNode(st.pending, n), tables));
  }

  /** `:=` as the second token, where the rule allows it: the variable table is cleared. */
  lemma AssignRun(cfg: Config, tokens: seq<Lexer.Token>, st: ListState, topLevel: bool)
    requires 1 < |tokens| && tokens[1] == Op(":=") && st.pending.ops == []
    requires cfg.rule.EveryList? || topLevel
    ensures Run(cfg, tokens, 1, st, topLevel)
            == Run(cfg, tokens, 2,
                   ListState(st.operands, Pending(st.pending.nodes, [Assign]),
                             Tables([], st.tables.collections, Some(tokens[0].value))), topLevel)
  {
    var tables := Tables([], st.tables.collections, Some(tokens[0].value));
    assert InfixKind(":=") == Some(Assign);
    assert CheckAssignment(cfg, tokens, 1, Assign, st.tables, topLevel) == Ok(tables);
    ReduceBeforeEmpty(st.pending, Assign);
    assert st.pending.ops + [Assign] == [Assign];
    assert Step(cfg, tokens, 1, st, topLevel) == Ok(ListState(st.operands, Pending(st.pending.nodes, [Assign]), tables));
  }

  /** An assignment reduces to its value alone; the target is the list's `target`. */
  lemma AssignmentReduces(x: Node, v: real)
    requires x.kind == Variable
    ensures ReduceAll(Pending([x, Value(v)], [Assign])) == Ok(Pending([Node(Assign, [Sub(Value(v))])], []))
  {
    var assignment := Node(Assign, [Sub(Value(v))]);
    var p := Pending([x, Value(v)], [Assign]);
    assert p.ops[|p.ops| - 1] == Assign && p.nodes[|p.nodes| - 2].kind == Variable;
    assert p.nodes[..0] + [assignment] == [assignment];
    assert ApplyTop(p) == Ok(Pending([assignment], []));
    assert ReduceAll(Pending([assignment], [])) == Ok(Pending([assignment], []));
  }

  /** The loop over `name := v` where the rule allows the assignment. */
  lemma AllowedAssignmentRun(cfg: Config, tokens: seq<Lexer.Token>, tables: Tables, topLevel: bool, name: string, v: real)
    requires |tokens| == 3 && tokens[0] == Name(name) && tokens[1] == Op(":=") && NumberAt(tokens, 2, v)
    requires name !in tables.variables && (cfg.rule.EveryList? || topLevel)
    ensures Run(cfg, tokens, 0, ListState([], Pending([], []), tables), topLevel)
            == Ok(ListState([], Pending([VariableNode(|tables.variables|), Value(v)], [Assign]), Tables([], tables.collections, Some(name))))
  {
    var x := VariableNode(|tables.variables|);
    var t1 := tables.(variables := tables.variables + [name]);
    var t2 := Tables([], tables.collections, Some(name));
    NameRun(cfg, tokens, 0, ListState([], Pending([], []), tables), topLevel, name);
    assert PushNode(Pending([], []), x) == Pending([x], []);
    AssignRun(cfg, tokens, ListState([], Pending([x], []), t1), topLevel);
    LastNumberRun(cfg, tokens, 2, [x], [Assign], t2, topLevel, v);
    assert [x] + [Value(v)] == [x, Value(v)];
  }

  /** The loop over `name := v` stops at `:=` where the rule forbids the assignment. */
  lemma ForbiddenAssignmentRun(cfg: Config, tokens: seq<Lexer.Token>, tables: Tables, topLevel: bool, name: string)
    requires |tokens| == 3 && tokens[0] == Name(name) && tokens[1] == Op(":=")
    requires name !in tables.variables && cfg.rule.RootListOnly? && !topLevel
    ensures Run(cfg, tokens, 0, ListState([], Pending([], []), tables), topLevel) == Err(MisplacedAssignment)
  {
    var x := VariableNode(|tables.variables|);
    var t1 := tables.(variables := tables.variables + [name]);
    NameRun(cfg, tokens, 0, ListState([], Pending([], []), tables), topLevel, name);
    assert PushNode(Pending([], []), x) == Pending([x], []);
    ForbiddenAssignmentStep(cfg, tokens, ListState([], Pending([x], []), t1), topLevel);
  }

  lemma ForbiddenAssignmentStep(cfg: Config, tokens: seq<Lexer.Token>, st: ListState, topLevel: bool)
    requires 1 < |tokens| && tokens[1] == Op(":=") && cfg.rule.RootListOnly? && !topLevel
    ensures Run(cfg, tokens, 1, st, topLevel) == Err(MisplacedAssignment)
  {
    assert InfixKind(":=") == Some(Assign);
    assert CheckAssignment(cfg, tokens, 1, Assign, st.tables, topLevel) == Err(MisplacedAssignment);
  }

  /**
    A list `name := v`: where the rule allows the assignment, an assignment
    node, with the variable table cleared and `name` as the target; elsewhere
    the misplaced-assignment error.
   */
  lemma AssignmentList(cfg: Config, tokens: seq<Lexer.Token>, tables: Tables, topLevel: bool, name: string, v: real)
    requires |tokens| == 3 && tokens[0] == Name(name) && tokens[1] == Op(":=") && NumberAt(tokens, 2, v)
    requires name !in tables.variables
    ensures Build(cfg, Group, tokens, None, tables, topLevel)
            == if cfg.rule.EveryList? || topLevel
               then Ok((Node(Group, [Sub(Node(Assign, [Sub(Value(v))]))]), Tables([], tables.collections, Some(name))))
               else Err(MisplacedAssignment)
  {
    if cfg.rule.EveryList? || topLevel {
      var x := VariableNode(|tables.variables|);
      var t2 := Tables([], tables.collections, Some(name));
      AllowedAssignmentRun(cfg, tokens, tables, topLevel, name, v);
      AssignmentReduces(x, v);
      BuildFromRun(cfg, Group, tokens, tables, topLevel, ListState([], Pending([x, Value(v)], [Assign]), t2), Node(Assign, [Sub(Value(v))]));
    } else {
      ForbiddenAssignmentRun(cfg, tokens, tables, topLevel, name);
    }
  }

  /**
    The whole text `x := 3` parses to a root group holding one assignment
    node with only 3 beneath it, and the tables come back with an empty
    variable list and `x` as the assignment target, whatever the rule.
   */
  lemma AssignmentParses(cfg: Config, input: string)
    requires input == "x := 3"
    ensures Parse(cfg, input) == Ok((Node(Group, [Sub(Node(Assign, [Sub(Value(3.0))]))]), Tables([], [], Some("x"))))
  {
    var tokens := [Name("x"), Op(":="), Num("3")];
    assert Parse(cfg, input) == Build(cfg, Group, tokens, None, NO_TABLES, true) by {
      LexedInputs.LexAssignment();
      ParsedAs(cfg, input, tokens);
    }
    ParsesDigit('3');
    AssignmentList(cfg, tokens, NO_TABLES, true, "x", 3.0);
  }

  /** The loop over `name + …` up to the last token. */
  lemma VariablePlusRun(cfg: Config, tokens: seq<Lexer.Token>, tables: Tables, name: string)
    requires |tokens| == 3 && tokens[0] == Name(name) && name !in tables.variables
    requires OperatorAt(tokens, 1, Add) && !tokens[2].category.Postfix?
    ensures Run(cfg, tokens, 0, ListState([], Pending([], []), tables), true)
            == Run(cfg, tokens, 2, ListState([], Pending([VariableNode(|tables.variables|)], [Add]),
                                             tables.(variables := tables.variables + [name])), true)
  {
    var y := VariableNode(|tables.variables|);
    var t1 := tables.(variables := tables.variables + [name]);
    NameRun(cfg, tokens, 0, ListState([], Pending([], []), tables), true, name);
    assert PushNode(Pending([], []), y) == Pending([y], []);
    ReduceBeforeEmpty(Pending([y], []), Add);
    OperatorRun(cfg, tokens, 1, ListState([], Pending([y], []), t1), true, Add, Pending([y], []));
    assert [] + [Add] == [Add];
  }

  /** A parenthesised list as the last token, after an infix operator: its node is pushed, or its error stops the loop. */
  lemma LastGroupRun(cfg: Config, tokens: seq<Lexer.Token>, st: ListState, children: seq<Lexer.Token>)
    requires |tokens| == 3 && tokens[1].category.Infix? && tokens[2] == Lexer.Token(Lexer.Operand, Lexer.Group, "", children)
    ensures var inner := Build(cfg, Group, children, None, st.tables, false);
      Run(cfg, tokens, 2, st, true)
        == if inner.Err? then Err(inner.error)
           else Ok(ListState(st.operands, PushNode(st.pending, inner.value.0), inner.value.1))
  {
    var inner := Build(cfg, Group, children, None, st.tables, false);
    if inner.Ok? {
      var next := ListState(st.operands, PushNode(st.pending, inner.value.0), inner.value.1);
      assert Step(cfg, tokens, 2, st, true) == Ok(next);
      RunEnds(cfg, tokens, next, true);
    } else {
      assert Step(cfg, tokens, 2, st, true) == Err(inner.error);
    }
  }

  /**
    An outermost list `name + (…)`: the variable is interned first, then the
    parenthesised list is built on the tables that follow; its error, if any,
    is the list's error.
   */
  lemma VariablePlusGroup(cfg: Config, tokens: seq<Lexer.Token>, tables: Tables, name: string, children: seq<Lexer.Token>)
    requires |tokens| == 3 && tokens[0] == Name(name) && name !in tables.variables
    requires OperatorAt(tokens, 1, Add) && tokens[2] == Lexer.Token(Lexer.Operand, Lexer.Group, "", children)
    ensures var inner := Build(cfg, Group, children, None, tables.(variables := tables.variables + [name]), false);
      Build(cfg, Group, tokens, None, tables, true)
        == if inner.Err? then Err(inner.error)
           else Ok((Node(Group, [Sub(Binary(Add, VariableNode(|tables.variables|), inner.value.0))]), inner.value.1))
  {
    var y := VariableNode(|tables.variables|);
    var t1 := tables.(variables := tables.variables + [name]);
    VariablePlusRun(cfg, tokens, tables, name);
    LastGroupRun(cfg, tokens, ListState([], Pending([y], [Add]), t1), children);
    var inner := Build(cfg, Group, children, None, t1, false);
    if inner.Ok? {
      VariablePlusBuiltGroup(cfg, tokens, tables, y, inner.value.0, inner.value.1);
    }
  }

  /** The loop left `y` and the group under `+`; the list is their sum. */
  lemma VariablePlusBuiltGroup(cfg: Config, tokens: seq<Lexer.Token>, tables: Tables, y: Node, g: Node, t2: Tables)
    requires Run(cfg, tokens, 0, ListState([], Pending([], []), tables), true) == Ok(ListState([], PushNode(Pending([y], [Add]), g), t2))
    ensures Build(cfg, Group, tokens, None, tables, true) == Ok((Node(Group, [Sub(Binary(Add, y, g))]), t2))
  {
    assert PushNode(Pending([y], [Add]), g) == Pending([y, g], [Add]);
    ReduceAllOne(y, g, Add);
    BuildFromRun(cfg, Group, tokens, tables, true, ListState([], Pending([y, g], [Add]), t2), Binary(Add, y, g));
  }

  /** The tokens of `y + (x := 3)` are a variable plus a group holding an assignment list. */
  lemma OuterShape()
    ensures |NESTED| == 3 && NESTED[0] == Name("x") && NESTED[1] == Op(":=") && NumberAt(NESTED, 2, 3.0)
    ensures |OUTER| == 3 && OUTER[0] == Name("y") && OperatorAt(OUTER, 1, Add)
    ensures OUTER[2] == Lexer.Token(Lexer.Operand, Lexer.Group, "", NESTED)
  {
    ParsesDigit('3');
  }

  /**
    As written: `y + (x := 3)` builds, and its tree refers to variable 0 (`y`)
    while the finished variable table is empty.
   */
  lemma NestedAssignmentAsWritten(cfg: Config)
    requires cfg.rule == EveryList
    ensures Build(cfg, Group, OUTER, None, NO_TABLES, true) == Ok((TreeAsWritten(), Tables([], [], Some("x"))))
  {
    OuterShape();
    var t1 := Tables(["y"], [], None);
    assert NO_TABLES.(variables := NO_TABLES.variables + ["y"]) == t1;
    AssignmentList(cfg, NESTED, t1, false, "x", 3.0);
    VariablePlusGroup(cfg, OUTER, NO_TABLES, "y", NESTED);
  }

  /**
    The tree built as written is not scoped by its own tables, and evaluating
    it with one value per variable of the table reads a value that is not there.
   */
  lemma TreeAsWrittenOutrunsItsTable(s: Scope)
    ensures !Scoping.Scoped(TreeAsWritten(), Scoping.BoundsOf(Tables([], [], Some("x")), Registry.BUILTIN_NAMES))
    ensures Eval(TreeAsWritten(), s, Bindings([], [])) == Err(MissingBinding)
  {
    var b := Scoping.BoundsOf(Tables([], [], Some("x")), Registry.BUILTIN_NAMES);
    var sum := Binary(Add, VariableNode(0), AssignedGroup());
    assert !Scoping.OperandScoped(Variable, VariableNode(0).operands[0], b);
    assert !Scoping.OperandScoped(Add, sum.operands[0], b);
    assert !Scoping.OperandScoped(Group, TreeAsWritten().operands[0], b);
    assert Eval(VariableNode(0), s, Bindings([], [])) == Err(MissingBinding);
    assert EvalPair(sum, s, Bindings([], [])) == Err(MissingBinding);
  }

  /** Corrected: under the rule of the outermost list only, the nested assignment is rejected. */
  lemma NestedAssignmentRejected(cfg: Config)
    requires cfg.rule == RootListOnly
    ensures Build(cfg, Group, OUTER, None, NO_TABLES, true) == Err(MisplacedAssignment)
  {
    OuterShape();
    var t1 := Tables(["y"], [], None);
    assert NO_TABLES.(variables := NO_TABLES.variables + ["y"]) == t1;
    AssignmentList(cfg, NESTED, t1, false, "x", 3.0);
    VariablePlusGroup(cfg, OUTER, NO_TABLES, "y", NESTED);
  }
}

/** Finding 3: `divide_assign` lacks the zero check of `divide`. */
module CompoundDivision {
  import opened Basics
  import opened Syntax
  import opened Evaluator


  /** The C++ quotient: a number, or the infinity or NaN a division by zero gives. */
  datatype Quotient = Finite(value: real) | NonFinite

  /** `divide_assign` as written: the quotient, with no check of the divisor. */
  function DivideAsWritten(left: real, right: real): (q: Quotient)
    ensures q.NonFinite? <==> right == 0.0
    ensures q.Finite? ==> q.value * right == left
  {
    if right == 0.0 then NonFinite else Finite(left / right)
  }

  /** The `divide_assign` case of `Node::evaluate` as written. */
  function EvalDivideAssignAsWritten(n: Node, s: Scope, b: Bindings): Result<Quotient> {
    var (l, r) :- EvalPair(n, s, b);
    Ok(DivideAsWritten(l, r))
  }

  /**
    As written, `x /= 0` raises nothing and yields a non-finite value, where
    `x / 0` raises the division-by-zero error.
   */
  lemma CompoundDivisionByZeroUnchecked(left: Node, right: Node, s: Scope, b: Bindings)
    requires Eval(left, s, b).Ok? && Eval(right, s, b) == Ok(0.0)
    ensures EvalDivideAssignAsWritten(Node(DivideAssign, [Sub(left), Sub(right)]), s, b) == Ok(NonFinite)
    ensures Eval(Node(Divide, [Sub(left), Sub(right)]), s, b) == Err(DivisionByZero)
  {
    DivisionNeedsNonZeroDivisor(Divide, left, right, s, b);
    assert EvalPair(Node(DivideAssign, [Sub(left), Sub(right)]), s, b) == Ok((Eval(left, s, b).value, 0.0));
  }
}

=== FILE: lex_errors.dfy ===
/**
  The errors `tokenize` raises: a prefix operator that ends the input, input
  that fits no expected category, and a delimiter left open at the end.
 */
module LexErrors {
  import opened Basics
  import opened Lexer

  /** A prefix operator that is the whole input has no operand to apply to. */
  lemma PrefixAloneRaises(k: nat)
    requires k < |PREFIXES|
    ensures Lex(PREFIXES[k]) == Err(PrefixWithoutOperand)
  {
    var input := PREFIXES[k];
    assert |input| == 1;
    assert Span(input, 0, Space) == 0;
    FetchIsFirstMatch(input, 0, PREFIXES);
    assert StartsWith(input, 0, PREFIXES[k]);
    var m := Fetch(input, 0, PREFIXES);
    assert |m| == 1;
    assert PrefixStage(input, LexState(0, Prefix, [ROOT])) == Raise(PrefixWithoutOperand);
    assert Lexer.Step(input, LexState(0, Prefix, [ROOT])) == Halt(PrefixWithoutOperand);
  }

  /** `(`: the group it opens is still open when the input ends. */
  lemma UnclosedParenthesisRaises()
    ensures Lex("(") == Err(UnbalancedDelimiters)
  {
    var input := "(";
    BracketIsAnOperand(input);
    var open := Open([ROOT], Token(Operand, Group, "", []), ")");
    assert SymbolicOperand(input, LexState(0, Operand, [ROOT])) == Jump(LexState(1, Prefix, open));
    assert Lexer.Step(input, LexState(0, Prefix, [ROOT])) == Next(LexState(1, Prefix, open));
    assert |open| == 2 && |input| == 1;
    assert LexFrom(input, LexState(1, Prefix, open)) == Finish(open) == Err(UnbalancedDelimiters);
    assert Lex(input) == LexFrom(input, LexState(1, Prefix, open));
  }

  /** `)` where an operand is expected fits no operand form. */
  lemma CloserWithoutOperandRaises()
    ensures Lex(")") == Err(UnexpectedOperand)
  {
    var input := ")";
    BracketIsAnOperand(input);
    assert SymbolicOperand(input, LexState(0, Operand, [ROOT])) == Raise(UnexpectedOperand);
    assert Lexer.Step(input, LexState(0, Prefix, [ROOT])) == Halt(UnexpectedOperand);
  }

  /** A lone parenthesis is read by the operand stage as a symbol or bracket. */
  lemma BracketIsAnOperand(input: string)
    requires input == "(" || input == ")"
    ensures Span(input, 0, Space) == 0
    ensures PrefixStage(input, LexState(0, Prefix, [ROOT])) == Proceed(LexState(0, Operand, [ROOT]))
    ensures OperandStage(input, LexState(0, Operand, [ROOT])) == SymbolicOperand(input, LexState(0, Operand, [ROOT]))
    ensures Fetch(input, 0, SYMBOLIC_NAMES) == []
  {
    assert |input| == 1 && !IsAlphanumeric(input[0]) && !IsNumeric(input[0]);
    FetchMissesFirstCharacter(input, 0, PREFIXES);
    FetchMissesFirstCharacter(input, 0, KEYWORDS);
    FetchMissesFirstCharacter(input, 0, SYMBOLIC_NAMES);
  }

  /** No infix spelling starts with a digit. */
  lemma NoInfixStartsWithDigit(d: char)
    requires IsDigit(d)
    ensures forall k :: 0 <= k < |INFIXES| ==> INFIXES[k][0] != d
  {
  }

  /** `1 2`: after an operand an infix token is expected, and a digit starts none. */
  lemma AdjacentOperandsRaise()
    ensures Lex("1 2") == Err(UnexpectedCharacter)
  {
    FirstIterationOnOne();
    DigitIsNoInfix();
  }

  /** The first iteration on `1 2` reads the number and skips the blank. */
  lemma FirstIterationOnOne()
    ensures var one := Emit([ROOT], Token(Operand, Number, "1", []));
      Lexer.Step("1 2", LexState(0, Prefix, [ROOT])) == CloseOrInfix("1 2", LexState(2, Infix, one))
  {
    var input := "1 2";
    assert Span(input, 0, Space) == 0;
    FetchMissesFirstCharacter(input, 0, PREFIXES);
    var s0 := LexState(0, Operand, [ROOT]);
    assert PrefixStage(input, LexState(0, Prefix, [ROOT])) == Proceed(s0);
    FetchMissesFirstCharacter(input, 0, KEYWORDS);
    assert !StartsWith(input, 0, IF) && !StartsWith(input, 0, THEN) && !StartsWith(input, 0, ELSE);
    assert Span(input, 1, Numeric) == 1;
    assert Span(input, 0, Numeric) == 1;
    assert input[0..1] == "1";
    var one := Emit([ROOT], Token(Operand, Number, "1", []));
    assert OperandStage(input, s0) == Proceed(LexState(1, Postfix, one));
    assert Fetch(input, 1, POSTFIXES) == [];
    assert Span(input, 2, Space) == 2;
    assert Span(input, 1, Space) == 2;
  }

  /** The `2` that follows is no infix token and closes nothing. */
  lemma DigitIsNoInfix()
    ensures var one := Emit([ROOT], Token(Operand, Number, "1", []));
      CloseOrInfix("1 2", LexState(2, Infix, one)) == Halt(UnexpectedCharacter)
  {
    var input := "1 2";
    var one := Emit([ROOT], Token(Operand, Number, "1", []));
    assert !Closes(input, 2, one[0]);
    NoInfixStartsWithDigit('2');
    FetchMissesFirstCharacter(input, 2, INFIXES);
  }
}

=== FILE: lexed_inputs.dfy ===
/**
  The token lists `tokenize` produces for inputs of limex.h's test list,
  traced one loop iteration at a time.
 */
module LexedInputs {
  import opened Basics
  import opened Lexer

  function NumberToken(v: string): Token { Token(Operand, Number, v, []) }
  function OperatorToken(s: string): Token { Token(Infix, Operator, s, []) }
  function VariableToken(s: string): Token { Token(Operand, Variable, s, []) }

  /** The root grouping token holding `children`. */
  function RootToken(children: seq<Token>): Token { Token(Operand, Group, "", children) }

  /** The characters a postfix operator starts with. */
  predicate StartsPostfix(c: char) { c == '\U{00B2}' || c == '\U{00B3}' }

  // ----- single iterations -----

  /** The candidate `fetch` returns is the first one that matches. */
  lemma FetchFindsFirstMatch(input: string, start: nat, candidates: Spellings, k: nat)
    requires start <= |input| && FirstMatch(input, start, candidates, k)
    ensures Fetch(input, start, candidates) == candidates[k]
  {
    FetchIsFirstMatch(input, start, candidates);
    var r := Fetch(input, start, candidates);
    assert r != [];
    var j :| FirstMatch(input, start, candidates, j) && candidates[j] == r;
    assert j == k;
  }

  /** A spelling matches only where its first character stands. */
  lemma MatchStartsWithFirstCharacter(input: string, start: nat, candidate: string)
    requires start <= |input| && candidate != []
    ensures StartsWith(input, start, candidate) ==> start < |input| && input[start] == candidate[0]
  {
    if StartsWith(input, start, candidate) {
      assert input[start..start + |candidate|][0] == input[start];
    }
  }

  /** No keyword operand starts at `start` when its character starts none of them. */
  lemma NoKeywordOperand(input: string, start: nat)
    requires start < |input| && input[start] !in "ftie"
    ensures Fetch(input, start, KEYWORDS) == []
    ensures !StartsWith(input, start, IF) && !StartsWith(input, start, THEN) && !StartsWith(input, start, ELSE)
  {
    FetchMissesFirstCharacter(input, start, KEYWORDS);
    MatchStartsWithFirstCharacter(input, start, IF);
    MatchStartsWithFirstCharacter(input, start, THEN);
    MatchStartsWithFirstCharacter(input, start, ELSE);
  }

  /** A digit where a prefix operator is expected: no prefix operator is read, and an operand is expected. */
  lemma DigitIsNoPrefix(input: string, start: nat, stack: seq<Frame>)
    requires start < |input| && stack != [] && IsDigit(input[start])
    ensures PrefixStage(input, LexState(start, Prefix, stack)) == Proceed(LexState(start, Operand, stack))
  {
    FetchMissesFirstCharacter(input, start, PREFIXES);
  }

  /** A digit where an operand is expected: the run of numeric characters is emitted as a number. */
  lemma DigitStartsNumber(input: string, start: nat, stack: seq<Frame>, end: nat)
    requires start < |input| && stack != [] && IsDigit(input[start]) && end == Span(input, start, Numeric)
    ensures OperandStage(input, LexState(start, Operand, stack))
            == Proceed(LexState(end, Postfix, Emit(stack, NumberToken(input[start..end]))))
  {
    NoKeywordOperand(input, start);
    assert IsNumeric(input[start]);
  }

  /** No postfix operator follows when the next character starts none. */
  lemma NoPostfixFollows(input: string, end: nat, stack: seq<Frame>)
    requires end <= |input| && stack != [] && (end < |input| ==> !StartsPostfix(input[end]))
    ensures PostfixStage(input, LexState(end, Postfix, stack)) == LexState(end, Infix, stack)
  {
    if end < |input| {
      FetchMissesFirstCharacter(input, end, POSTFIXES);
    } else {
      assert !StartsWith(input, end, POSTFIXES[0]) && !StartsWith(input, end, POSTFIXES[1]);
    }
  }

  /**
    An iteration that expects a prefix operator and finds a number (after
    white space): the number is emitted, and the iteration either stops at the
    end of the input or goes on to close a delimiter or read an infix token.
   */
  lemma NumberIteration(input: string, pos: nat, stack: seq<Frame>, start: nat, end: nat, next: nat)
    requires pos < |input| && stack != []
    requires start == Span(input, pos, Space) && start < |input| && IsDigit(input[start])
    requires end == Span(input, start, Numeric) && (end < |input| ==> !StartsPostfix(input[end]))
    requires next == Span(input, end, Space)
    ensures var s := Emit(stack, NumberToken(input[start..end]));
      Step(input, LexState(pos, Prefix, stack))
        == if next == |input| then Stop(s) else CloseOrInfix(input, LexState(next, Infix, s))
  {
    DigitIsNoPrefix(input, start, stack);
    DigitStartsNumber(input, start, stack, end);
    var s := Emit(stack, NumberToken(input[start..end]));
    assert start < end by {
      assert IsNumeric(input[start]);
    }
    NoPostfixFollows(input, end, s);
  }

  /**
    `NumberIteration` for a one-digit number with at most one blank before and
    after it, stated over the characters alone.
   */
  lemma DigitIteration(input: string, pos: nat, stack: seq<Frame>, start: nat, next: nat)
    requires stack != [] && start < |input|
    requires start == pos || (start == pos + 1 && input[pos] == ' ')
    requires IsDigit(input[start])
    requires next == start + 1 || (next == start + 2 && start + 1 < |input| && input[start + 1] == ' ')
    requires next <= |input| && (next < |input| ==> !IsSpace(input[next]) && !IsNumeric(input[next]) && !StartsPostfix(input[next]))
    ensures var s := Emit(stack, NumberToken([input[start]]));
      Step(input, LexState(pos, Prefix, stack))
        == if next == |input| then Stop(s) else CloseOrInfix(input, LexState(next, Infix, s))
  {
    assert Span(input, start, Space) == start;
    assert Span(input, pos, Space) == start;
    assert Span(input, start + 1, Numeric) == start + 1;
    assert Span(input, start, Numeric) == start + 1;
    assert Span(input, next, Space) == next;
    assert Span(input, start + 1, Space) == next;
    assert input[start..start + 1] == [input[start]];
    NumberIteration(input, pos, stack, start, start + 1, next);
  }

  /** An infix operator, when no delimiter closes at `pos`, is emitted and a prefix operator is expected next. */
  lemma InfixIteration(input: string, pos: nat, stack: seq<Frame>, k: nat)
    requires pos < |input| && stack != [] && !Closes(input, pos, stack[|stack| - 1])
    requires input[pos] != ',' && input[pos] != '?' && FirstMatch(input, pos, INFIXES, k)
    ensures CloseOrInfix(input, LexState(pos, Infix, stack))
            == Next(LexState(pos + |INFIXES[k]|, Prefix, Emit(stack, OperatorToken(INFIXES[k]))))
  {
    FetchFindsFirstMatch(input, pos, INFIXES, k);
  }

  /**
    A letter that starts no keyword, where an operand is expected and followed
    by a blank: the run of word characters is a variable.
   */
  lemma LetterStartsVariable(input: string, start: nat, stack: seq<Frame>, end: nat)
    requires start < |input| && stack != [] && 'u' <= input[start] <= 'z' && end == Span(input, start, Word)
    requires end < |input| && input[end] == ' '
    ensures OperandStage(input, LexState(start, Operand, stack))
            == Proceed(LexState(end, Postfix, Emit(stack, VariableToken(input[start..end]))))
  {
    NoKeywordOperand(input, start);
    MatchStartsWithFirstCharacter(input, end, "[]");
    assert !IsNumeric(input[start]) && IsAlphanumeric(input[start]);
    assert !StartsWith(input, end, "[]");
    assert NamedOperand(input, LexState(start, Operand, stack))
           == Proceed(LexState(end, Postfix, Emit(stack, VariableToken(input[start..end]))));
  }

  /**
    An iteration that expects a prefix operator and finds a variable name
    followed by a blank: the variable is emitted, and the infix stage follows.
   */
  lemma VariableIteration(input: string, pos: nat, stack: seq<Frame>, start: nat, end: nat, next: nat)
    requires pos < |input| && stack != []
    requires start == Span(input, pos, Space) && start < |input| && 'u' <= input[start] <= 'z'
    requires end == Span(input, start, Word) && end < |input| && input[end] == ' '
    requires next == Span(input, end, Space) && next < |input|
    ensures Step(input, LexState(pos, Prefix, stack))
            == CloseOrInfix(input, LexState(next, Infix, Emit(stack, VariableToken(input[start..end]))))
  {
    FetchMissesFirstCharacter(input, start, PREFIXES);
    assert PrefixStage(input, LexState(start, Prefix, stack)) == Proceed(LexState(start, Operand, stack));
    LetterStartsVariable(input, start, stack, end);
    var s := Emit(stack, VariableToken(input[start..end]));
    NoPostfixFollows(input, end, s);
  }

  // ----- the infix spellings of the test inputs -----

  /** `-` followed by a blank is the infix minus. */
  lemma MinusBeforeSpace(input: string, pos: nat)
    requires pos + 1 < |input| && input[pos] == '-' && input[pos + 1] == ' '
    ensures FirstMatch(input, pos, INFIXES, 14) && INFIXES[14] == "-"
  {
  }

  /** `+` followed by a blank is the infix plus. */
  lemma PlusBeforeSpace(input: string, pos: nat)
    requires pos + 1 < |input| && input[pos] == '+' && input[pos + 1] == ' '
    ensures FirstMatch(input, pos, INFIXES, 13) && INFIXES[13] == "+"
  {
  }

  /** `^` is the power operator, whatever follows. */
  lemma CaretIsPower(input: string, pos: nat)
    requires pos < |input| && input[pos] == '^'
    ensures FirstMatch(input, pos, INFIXES, 17) && INFIXES[17] == "^"
  {
    assert input[pos..pos + 1] == "^";
    forall j | 0 <= j < 17
      ensures !StartsWith(input, pos, INFIXES[j])
    {
      MatchStartsWithFirstCharacter(input, pos, INFIXES[j]);
    }
  }

  /** `>` not followed by `=` is the infix greater-than. */
  lemma GreaterWithoutEquals(input: string, pos: nat)
    requires pos + 1 < |input| && input[pos] == '>' && input[pos + 1] != '='
    ensures FirstMatch(input, pos, INFIXES, 6) && INFIXES[6] == ">"
  {
  }

  /** `:=` is the assignment. */
  lemma ColonEqualsIsAssignment(input: string, pos: nat)
    requires pos + 1 < |input| && input[pos] == ':' && input[pos + 1] == '='
    ensures FirstMatch(input, pos, INFIXES, 7) && INFIXES[7] == ":="
  {
    assert input[pos..pos + 2] == ":=";
  }

  // ----- the stacks of the test inputs -----

  /** The stack holding only the root frame, with `children` read so far. */
  function RootWith(children: seq<Token>): seq<Frame> { [Frame(RootToken(children), None)] }

  /** The stack inside the `?` branch of a ternary, read at the outermost level. */
  function ChoiceOpen(children: seq<Token>, inner: seq<Token>): seq<Frame> {
    RootWith(children) + [Frame(Token(Infix, Group, "?", inner), Some(":"))]
  }

  lemma EmitOnRoot(children: seq<Token>, t: Token)
    ensures Emit(RootWith(children), t) == RootWith(children + [t])
  {
  }

  lemma EmitInChoice(children: seq<Token>, inner: seq<Token>, t: Token)
    ensures Emit(ChoiceOpen(children, inner), t) == ChoiceOpen(children, inner + [t])
  {
    assert ChoiceOpen(children, inner)[..1] == RootWith(children);
  }

  /** `DigitIteration` on the root stack, whose children go from `before` to `after`. */
  lemma DigitOnRoot(input: string, pos: nat, before: seq<Token>, start: nat, next: nat, after: seq<Token>)
    requires start < |input| && after == before + [NumberToken([input[start]])]
    requires start == pos || (start == pos + 1 && input[pos] == ' ')
    requires IsDigit(input[start])
    requires next == start + 1 || (next == start + 2 && start + 1 < |input| && input[start + 1] == ' ')
    requires next <= |input| && (next < |input| ==> !IsSpace(input[next]) && !IsNumeric(input[next]) && !StartsPostfix(input[next]))
    ensures Step(input, LexState(pos, Prefix, RootWith(before)))
            == if next == |input| then Stop(RootWith(after)) else CloseOrInfix(input, LexState(next, Infix, RootWith(after)))
  {
    DigitIteration(input, pos, RootWith(before), start, next);
    EmitOnRoot(before, NumberToken([input[start]]));
  }

  /** `InfixIteration` on the root stack, which no spelling closes. */
  lemma InfixOnRoot(input: string, pos: nat, before: seq<Token>, k: nat)
    requires pos < |input| && input[pos] != ',' && input[pos] != '?' && FirstMatch(input, pos, INFIXES, k)
    ensures CloseOrInfix(input, LexState(pos, Infix, RootWith(before)))
            == Next(LexState(pos + |INFIXES[k]|, Prefix, RootWith(before + [OperatorToken(INFIXES[k])])))
  {
    InfixIteration(input, pos, RootWith(before), k);
    EmitOnRoot(before, OperatorToken(INFIXES[k]));
  }

  // ----- `3 - 5 + 2` (test.h:88) -----

  const DIFFERENCE: string := "3 - 5 + 2"

  const DIFFERENCE_TOKENS: seq<Token> :=
    [NumberToken("3"), OperatorToken("-"), NumberToken("5"), OperatorToken("+"), NumberToken("2")]

  lemma DifferenceFirstOperand(input: string)
    requires input == DIFFERENCE
    ensures Step(input, LexState(0, Prefix, RootWith([])))
            == CloseOrInfix(input, LexState(2, Infix, RootWith(DIFFERENCE_TOKENS[..1])))
  {
    assert input[0] == '3' && input[1] == ' ' && input[2] == '-';
    assert [] + [NumberToken("3")] == DIFFERENCE_TOKENS[..1];
    DigitOnRoot(input, 0, [], 0, 2, DIFFERENCE_TOKENS[..1]);
  }

  lemma DifferenceFirstOperator(input: string)
    requires input == DIFFERENCE
    ensures CloseOrInfix(input, LexState(2, Infix, RootWith(DIFFERENCE_TOKENS[..1])))
            == Next(LexState(3, Prefix, RootWith(DIFFERENCE_TOKENS[..2])))
  {
    assert input[2] == '-' && input[3] == ' ';
    MinusBeforeSpace(input, 2);
    InfixOnRoot(input, 2, DIFFERENCE_TOKENS[..1], 14);
    assert DIFFERENCE_TOKENS[..1] + [OperatorToken("-")] == DIFFERENCE_TOKENS[..2];
  }

  lemma DifferenceSecondOperand(input: string)
    requires input == DIFFERENCE
    ensures Step(input, LexState(3, Prefix, RootWith(DIFFERENCE_TOKENS[..2])))
            == CloseOrInfix(input, LexState(6, Infix, RootWith(DIFFERENCE_TOKENS[..3])))
  {
    assert input[3] == ' ' && input[4] == '5' && input[5] == ' ' && input[6] == '+';
    assert DIFFERENCE_TOKENS[..2] + [NumberToken("5")] == DIFFERENCE_TOKENS[..3];
    DigitOnRoot(input, 3, DIFFERENCE_TOKENS[..2], 4, 6, DIFFERENCE_TOKENS[..3]);
  }

  lemma DifferenceSecondOperator(input: string)
    requires input == DIFFERENCE
    ensures CloseOrInfix(input, LexState(6, Infix, RootWith(DIFFERENCE_TOKENS[..3])))
            == Next(LexState(7, Prefix, RootWith(DIFFERENCE_TOKENS[..4])))
  {
    assert input[6] == '+' && input[7] == ' ';
    PlusBeforeSpace(input, 6);
    InfixOnRoot(input, 6, DIFFERENCE_TOKENS[..3], 13);
    assert DIFFERENCE_TOKENS[..3] + [OperatorToken("+")] == DIFFERENCE_TOKENS[..4];
  }

  lemma DifferenceLastOperand(input: string)
    requires input == DIFFERENCE
    ensures Step(input, LexState(7, Prefix, RootWith(DIFFERENCE_TOKENS[..4]))) == Stop(RootWith(DIFFERENCE_TOKENS))
  {
    assert input[7] == ' ' && input[8] == '2' && |input| == 9;
    assert DIFFERENCE_TOKENS[..4] + [NumberToken("2")] == DIFFERENCE_TOKENS;
    DigitOnRoot(input, 7, DIFFERENCE_TOKENS[..4], 8, 9, DIFFERENCE_TOKENS);
  }

  /** `3 - 5 + 2` reads as the number 3, `-`, the number 5, `+` and the number 2. */
  lemma LexDifference()
    ensures Lex(DIFFERENCE) == Ok(RootToken(DIFFERENCE_TOKENS))
  {
    var input := DIFFERENCE;
    DifferenceFirstOperand(input);
    DifferenceFirstOperator(input);
    DifferenceSecondOperand(input);
    DifferenceSecondOperator(input);
    DifferenceLastOperand(input);
    assert LexFrom(input, LexState(7, Prefix, RootWith(DIFFERENCE_TOKENS[..4]))) == Ok(RootToken(DIFFERENCE_TOKENS));
    assert LexFrom(input, LexState(3, Prefix, RootWith(DIFFERENCE_TOKENS[..2]))) == Ok(RootToken(DIFFERENCE_TOKENS));
    assert ROOT == RootWith([])[0];
  }

  // ----- `2^3^2` (test.h:89) -----

  const POWERS: string := "2^3^2"

  const POWERS_TOKENS: seq<Token> :=
    [NumberToken("2"), OperatorToken("^"), NumberToken("3"), OperatorToken("^"), NumberToken("2")]

  lemma PowersFirstOperand(input: string)
    requires input == POWERS
    ensures Step(input, LexState(0, Prefix, RootWith([])))
            == CloseOrInfix(input, LexState(1, Infix, RootWith(POWERS_TOKENS[..1])))
  {
    assert input[0] == '2' && input[1] == '^';
    assert [] + [NumberToken("2")] == POWERS_TOKENS[..1];
    DigitOnRoot(input, 0, [], 0, 1, POWERS_TOKENS[..1]);
  }

  lemma PowersFirstOperator(input: string)
    requires input == POWERS
    ensures CloseOrInfix(input, LexState(1, Infix, RootWith(POWERS_TOKENS[..1])))
            == Next(LexState(2, Prefix, RootWith(POWERS_TOKENS[..2])))
  {
    assert input[1] == '^';
    CaretIsPower(input, 1);
    InfixOnRoot(input, 1, POWERS_TOKENS[..1], 17);
    assert POWERS_TOKENS[..1] + [OperatorToken("^")] == POWERS_TOKENS[..2];
  }

  lemma PowersSecondOperand(input: string)
    requires input == POWERS
    ensures Step(input, LexState(2, Prefix, RootWith(POWERS_TOKENS[..2])))
            == CloseOrInfix(input, LexState(3, Infix, RootWith(POWERS_TOKENS[..3])))
  {
    assert input[2] == '3' && input[3] == '^';
    assert POWERS_TOKENS[..2] + [NumberToken("3")] == POWERS_TOKENS[..3];
    DigitOnRoot(input, 2, POWERS_TOKENS[..2], 2, 3, POWERS_TOKENS[..3]);
  }

  lemma PowersSecondOperator(input: string)
    requires input == POWERS
    ensures CloseOrInfix(input, LexState(3, Infix, RootWith(POWERS_TOKENS[..3])))
            == Next(LexState(4, Prefix, RootWith(POWERS_TOKENS[..4])))
  {
    assert input[3] == '^';
    CaretIsPower(input, 3);
    InfixOnRoot(input, 3, POWERS_TOKENS[..3], 17);
    assert POWERS_TOKENS[..3] + [OperatorToken("^")] == POWERS_TOKENS[..4];
  }

  lemma PowersLastOperand(input: string)
    requires input == POWERS
    ensures Step(input, LexState(4, Prefix, RootWith(POWERS_TOKENS[..4]))) == Stop(RootWith(POWERS_TOKENS))
  {
    assert input[4] == '2' && |input| == 5;
    assert POWERS_TOKENS[..4] + [NumberToken("2")] == POWERS_TOKENS;
    DigitOnRoot(input, 4, POWERS_TOKENS[..4], 4, 5, POWERS_TOKENS);
  }

  /** `2^3^2` reads as the number 2, `^`, the number 3, `^` and the number 2. */
  lemma LexPowers()
    ensures Lex(POWERS) == Ok(RootToken(POWERS_TOKENS))
  {
    var input := POWERS;
    PowersFirstOperand(input);
    PowersFirstOperator(input);
    PowersSecondOperand(input);
    PowersSecondOperator(input);
    PowersLastOperand(input);
    assert LexFrom(input, LexState(4, Prefix, RootWith(POWERS_TOKENS[..4]))) == Ok(RootToken(POWERS_TOKENS));
    assert LexFrom(input, LexState(2, Prefix, RootWith(POWERS_TOKENS[..2]))) == Ok(RootToken(POWERS_TOKENS));
    assert ROOT == RootWith([])[0];
  }

  // ----- `1>0 ? 1 : 2` (test.h:160) -----

  const COMPARED: string := "1>0 ? 1 : 2"

  /** The tokens before the `?` branch. */
  const COMPARISON: seq<Token> := [NumberToken("1"), OperatorToken(">"), NumberToken("0")]

  /** The `?` branch as the lexer closes it. */
  const CHOICE_BRANCH: Token := Token(Infix, Group, "?", [NumberToken("1")])

  const COMPARED_TOKENS: seq<Token> :=
    [NumberToken("1"), OperatorToken(">"), NumberToken("0"), CHOICE_BRANCH, OperatorToken(":"), NumberToken("2")]

  lemma ComparedFirstOperand(input: string)
    requires input == COMPARED
    ensures Step(input, LexState(0, Prefix, RootWith([])))
            == CloseOrInfix(input, LexState(1, Infix, RootWith(COMPARISON[..1])))
  {
    assert input[0] == '1' && input[1] == '>';
    assert [] + [NumberToken("1")] == COMPARISON[..1];
    DigitOnRoot(input, 0, [], 0, 1, COMPARISON[..1]);
  }

  lemma ComparedOperator(input: string)
    requires input == COMPARED
    ensures CloseOrInfix(input, LexState(1, Infix, RootWith(COMPARISON[..1])))
            == Next(LexState(2, Prefix, RootWith(COMPARISON[..2])))
  {
    assert input[1] == '>' && input[2] == '0';
    GreaterWithoutEquals(input, 1);
    InfixOnRoot(input, 1, COMPARISON[..1], 6);
    assert COMPARISON[..1] + [OperatorToken(">")] == COMPARISON[..2];
  }

  lemma ComparedSecondOperand(input: string)
    requires input == COMPARED
    ensures Step(input, LexState(2, Prefix, RootWith(COMPARISON[..2])))
            == CloseOrInfix(input, LexState(4, Infix, RootWith(COMPARISON)))
  {
    assert input[2] == '0' && input[3] == ' ' && input[4] == '?';
    assert COMPARISON[..2] + [NumberToken("0")] == COMPARISON;
    DigitOnRoot(input, 2, COMPARISON[..2], 2, 4, COMPARISON);
  }

  /** `?` after an operand opens the branch that `:` closes. */
  lemma ComparedQuestionMark(input: string)
    requires input == COMPARED
    ensures CloseOrInfix(input, LexState(4, Infix, RootWith(COMPARISON)))
            == Next(LexState(5, Prefix, ChoiceOpen(COMPARISON, [])))
  {
    var s := RootWith(COMPARISON);
    assert !Closes(input, 4, s[|s| - 1]);
    assert input[4] == '?';
  }

  lemma ComparedBranchOperand(input: string)
    requires input == COMPARED
    ensures Step(input, LexState(5, Prefix, ChoiceOpen(COMPARISON, [])))
            == CloseOrInfix(input, LexState(8, Infix, ChoiceOpen(COMPARISON, [NumberToken("1")])))
  {
    assert input[5] == ' ' && input[6] == '1' && input[7] == ' ' && input[8] == ':';
    DigitIteration(input, 5, ChoiceOpen(COMPARISON, []), 6, 8);
    EmitInChoice(COMPARISON, [], NumberToken("1"));
    assert [] + [NumberToken("1")] == [NumberToken("1")];
  }

  /** `:` closes the innermost `?` branch and is emitted as an infix operator of the list around it. */
  lemma ColonClosesChoice(input: string, pos: nat, children: seq<Token>, inner: seq<Token>)
    requires pos < |input| && input[pos] == ':'
    ensures CloseOrInfix(input, LexState(pos, Infix, ChoiceOpen(children, inner)))
            == Next(LexState(pos + 1, Prefix, RootWith(children + [Token(Infix, Group, "?", inner), OperatorToken(":")])))
  {
    var s := ChoiceOpen(children, inner);
    var branch := Token(Infix, Group, "?", inner);
    assert s[|s| - 1] == Frame(branch, Some(":"));
    assert input[pos..pos + 1] == ":";
    assert Closes(input, pos, s[|s| - 1]);
    assert ":" != THEN;
    assert |s| == 2;
    ChoiceCloses(children, inner);
    assert CloseOrInfix(input, LexState(pos, Infix, s))
           == Next(LexState(pos + 1, Prefix, Emit(Pop(s), OperatorToken(":"))));
    EmitOnRoot(children + [branch], OperatorToken(":"));
    assert children + [branch] + [OperatorToken(":")] == children + [branch, OperatorToken(":")];
  }

  /** Closing the `?` branch makes it the last child of the root. */
  lemma ChoiceCloses(children: seq<Token>, inner: seq<Token>)
    ensures Pop(ChoiceOpen(children, inner)) == RootWith(children + [Token(Infix, Group, "?", inner)])
  {
    var s := ChoiceOpen(children, inner);
    assert s[..1] == RootWith(children);
    EmitOnRoot(children, Token(Infix, Group, "?", inner));
  }

  lemma ComparedColon(input: string)
    requires input == COMPARED
    ensures CloseOrInfix(input, LexState(8, Infix, ChoiceOpen(COMPARISON, [NumberToken("1")])))
            == Next(LexState(9, Prefix, RootWith(COMPARED_TOKENS[..5])))
  {
    assert input[8] == ':';
    ColonClosesChoice(input, 8, COMPARISON, [NumberToken("1")]);
    assert COMPARISON + [CHOICE_BRANCH, OperatorToken(":")] == COMPARED_TOKENS[..5];
  }

  lemma ComparedLastOperand(input: string)
    requires input == COMPARED
    ensures Step(input, LexState(9, Prefix, RootWith(COMPARED_TOKENS[..5]))) == Stop(RootWith(COMPARED_TOKENS))
  {
    assert input[9] == ' ' && input[10] == '2' && |input| == 11;
    assert COMPARED_TOKENS[..5] + [NumberToken("2")] == COMPARED_TOKENS;
    DigitOnRoot(input, 9, COMPARED_TOKENS[..5], 10, 11, COMPARED_TOKENS);
  }

  /**
    `1>0 ? 1 : 2` reads as the number 1, `>`, the number 0, the `?` branch
    holding the number 1, `:` and the number 2.
   */
  lemma LexCompared()
    ensures Lex(COMPARED) == Ok(RootToken(COMPARED_TOKENS))
  {
    var input := COMPARED;
    ComparedFirstOperand(input);
    ComparedOperator(input);
    ComparedSecondOperand(input);
    ComparedQuestionMark(input);
    ComparedBranchOperand(input);
    ComparedColon(input);
    ComparedLastOperand(input);
    assert LexFrom(input, LexState(9, Prefix, RootWith(COMPARED_TOKENS[..5]))) == Ok(RootToken(COMPARED_TOKENS));
    assert LexFrom(input, LexState(5, Prefix, ChoiceOpen(COMPARISON, []))) == Ok(RootToken(COMPARED_TOKENS));
    assert LexFrom(input, LexState(2, Prefix, RootWith(COMPARISON[..2]))) == Ok(RootToken(COMPARED_TOKENS));
    assert ROOT == RootWith([])[0];
  }

  // ----- `true ? 1 : false ? 0 : -1` (test.h:132) -----

  /**
    `true` or `false` where a prefix operator is expected (after at most one
    blank): it is emitted as the number 1 or 0, and the next iteration expects
    an infix token.
   */
  lemma KeywordIteration(input: string, pos: nat, stack: seq<Frame>, start: nat, k: nat)
    requires stack != [] && start < |input|
    requires start == pos || (start == pos + 1 && input[pos] == ' ')
    requires (input[start] == 't' || input[start] == 'f') && FirstMatch(input, start, KEYWORDS, k)
    ensures Step(input, LexState(pos, Prefix, stack))
            == Next(LexState(start + |KEYWORDS[k]|, Infix, Emit(stack, NumberToken(if k == 1 then "1" else "0"))))
  {
    assert Span(input, start, Space) == start;
    assert Span(input, pos, Space) == start;
    assert PrefixStage(input, LexState(start, Prefix, stack)) == Proceed(LexState(start, Operand, stack)) by {
      FetchMissesFirstCharacter(input, start, PREFIXES);
    }
    var keyword := KEYWORDS[k];
    var next := LexState(start + |keyword|, Infix, Emit(stack, NumberToken(if k == 1 then "1" else "0")));
    assert OperandStage(input, LexState(start, Operand, stack)) == Jump(next) by {
      FetchFindsFirstMatch(input, start, KEYWORDS, k);
      assert (keyword == "true") == (k == 1);
    }
  }

  /**
    A blank and a `?` after an operand read without the postfix stage: the
    `?` branch opens.
   */
  lemma QuestionAfterKeyword(input: string, pos: nat, children: seq<Token>)
    requires pos + 1 < |input| && input[pos] == ' ' && input[pos + 1] == '?'
    ensures Step(input, LexState(pos, Infix, RootWith(children))) == Next(LexState(pos + 2, Prefix, ChoiceOpen(children, [])))
  {
    var s := RootWith(children);
    assert Span(input, pos + 1, Space) == pos + 1;
    assert Span(input, pos, Space) == pos + 1;
    assert !Closes(input, pos + 1, s[|s| - 1]);
  }

  /** ` d :` inside a `?` branch: the one-digit number `d` is the whole branch, and `:` closes it. */
  lemma DigitBranch(input: string, pos: nat, children: seq<Token>)
    requires pos + 3 < |input| && input[pos] == ' ' && IsDigit(input[pos + 1]) && input[pos + 2] == ' ' && input[pos + 3] == ':'
    ensures var branch := Token(Infix, Group, "?", [NumberToken([input[pos + 1]])]);
      Step(input, LexState(pos, Prefix, ChoiceOpen(children, [])))
        == Next(LexState(pos + 4, Prefix, RootWith(children + [branch, OperatorToken(":")])))
  {
    var d := NumberToken([input[pos + 1]]);
    DigitIteration(input, pos, ChoiceOpen(children, []), pos + 1, pos + 3);
    EmitInChoice(children, [], d);
    assert [] + [d] == [d];
    ColonClosesChoice(input, pos + 3, children, [d]);
  }

  /** `-` is the third prefix spelling, and the first that matches. */
  lemma MinusIsPrefix(input: string, start: nat)
    requires start < |input| && input[start] == '-'
    ensures FirstMatch(input, start, PREFIXES, 2) && PREFIXES[2] == "-"
  {
    MatchStartsWithFirstCharacter(input, start, PREFIXES[0]);
    MatchStartsWithFirstCharacter(input, start, PREFIXES[1]);
    assert input[start..start + 1] == PREFIXES[2];
  }

  /** ` -d` at the end of the input: a prefix `-` and the one-digit number `d`, and the loop stops. */
  lemma NegatedDigitEnds(input: string, pos: nat, stack: seq<Frame>)
    requires stack != [] && pos + 3 == |input| && input[pos] == ' ' && input[pos + 1] == '-' && IsDigit(input[pos + 2])
    ensures Step(input, LexState(pos, Prefix, stack))
            == Stop(Emit(Emit(stack, Token(Prefix, Operator, "-", [])), NumberToken([input[pos + 2]])))
  {
    var start := pos + 1;
    assert Span(input, start, Space) == start;
    assert Span(input, pos, Space) == start;
    var signed := Emit(stack, Token(Prefix, Operator, "-", []));
    assert PrefixStage(input, LexState(start, Prefix, stack)) == Proceed(LexState(pos + 2, Operand, signed)) by {
      MinusIsPrefix(input, start);
      FetchFindsFirstMatch(input, start, PREFIXES, 2);
    }
    var s := Emit(signed, NumberToken([input[pos + 2]]));
    assert OperandStage(input, LexState(pos + 2, Operand, signed)) == Proceed(LexState(pos + 3, Postfix, s)) by {
      assert Span(input, pos + 3, Numeric) == pos + 3;
      assert Span(input, pos + 2, Numeric) == pos + 3;
      DigitStartsNumber(input, pos + 2, signed, pos + 3);
      assert input[pos + 2..pos + 3] == [input[pos + 2]];
    }
    NoPostfixFollows(input, pos + 3, s);
  }

  const NESTED_CHOICE: string := "true ? 1 : false ? 0 : -1"

  const NESTED_CHOICE_TOKENS: seq<Token> :=
    [NumberToken("1"), Token(Infix, Group, "?", [NumberToken("1")]), OperatorToken(":"),
     NumberToken("0"), Token(Infix, Group, "?", [NumberToken("0")]), OperatorToken(":"),
     Token(Prefix, Operator, "-", []), NumberToken("1")]

  /** `true` followed by a blank: the second keyword, and not the first. */
  lemma TrueKeyword(input: string, start: nat)
    requires start + 4 < |input| && input[start..start + 4] == "true" && input[start + 4] == ' '
    ensures FirstMatch(input, start, KEYWORDS, 1)
  {
    assert input[start] == 't';
    MatchStartsWithFirstCharacter(input, start, KEYWORDS[0]);
  }

  /** `false` followed by a blank: the first keyword. */
  lemma FalseKeyword(input: string, start: nat)
    requires start + 5 < |input| && input[start..start + 5] == "false" && input[start + 5] == ' '
    ensures FirstMatch(input, start, KEYWORDS, 0)
  {
  }

  /** `true` followed by a blank, where a prefix operator is expected: the number 1. */
  lemma TrueOperand(input: string, pos: nat, stack: seq<Frame>, start: nat)
    requires start + 4 < |input| && stack != [] && (start == pos || (start == pos + 1 && input[pos] == ' '))
    requires input[start..start + 4] == "true" && input[start + 4] == ' '
    ensures Step(input, LexState(pos, Prefix, stack)) == Next(LexState(start + 4, Infix, Emit(stack, NumberToken("1"))))
  {
    TrueKeyword(input, start);
    assert input[start] == 't';
    KeywordIteration(input, pos, stack, start, 1);
  }

  /** `false` followed by a blank, where a prefix operator is expected: the number 0. */
  lemma FalseOperand(input: string, pos: nat, stack: seq<Frame>, start: nat)
    requires start + 5 < |input| && stack != [] && (start == pos || (start == pos + 1 && input[pos] == ' '))
    requires input[start..start + 5] == "false" && input[start + 5] == ' '
    ensures Step(input, LexState(pos, Prefix, stack)) == Next(LexState(start + 5, Infix, Emit(stack, NumberToken("0"))))
  {
    FalseKeyword(input, start);
    assert input[start] == 'f';
    KeywordIteration(input, pos, stack, start, 0);
  }

  /** The token lists on the root after each step of the nested choice. */
  lemma NestedChoiceGrows()
    ensures Emit(RootWith([]), NumberToken("1")) == RootWith(NESTED_CHOICE_TOKENS[..1])
    ensures NESTED_CHOICE_TOKENS[..1] + [Token(Infix, Group, "?", [NumberToken("1")]), OperatorToken(":")] == NESTED_CHOICE_TOKENS[..3]
    ensures Emit(RootWith(NESTED_CHOICE_TOKENS[..3]), NumberToken("0")) == RootWith(NESTED_CHOICE_TOKENS[..4])
    ensures NESTED_CHOICE_TOKENS[..4] + [Token(Infix, Group, "?", [NumberToken("0")]), OperatorToken(":")] == NESTED_CHOICE_TOKENS[..6]
  {
    EmitOnRoot([], NumberToken("1"));
    assert [] + [NumberToken("1")] == NESTED_CHOICE_TOKENS[..1];
    EmitOnRoot(NESTED_CHOICE_TOKENS[..3], NumberToken("0"));
    assert NESTED_CHOICE_TOKENS[..3] + [NumberToken("0")] == NESTED_CHOICE_TOKENS[..4];
  }

  lemma NestedFirstCondition(input: string)
    requires input == NESTED_CHOICE
    ensures Step(input, LexState(0, Prefix, RootWith([]))) == Next(LexState(4, Infix, RootWith(NESTED_CHOICE_TOKENS[..1])))
  {
    assert input[0..4] == "true" && input[4] == ' ';
    TrueOperand(input, 0, RootWith([]), 0);
    NestedChoiceGrows();
  }

  lemma NestedFirstQuestionMark(input: string)
    requires input == NESTED_CHOICE
    ensures Step(input, LexState(4, Infix, RootWith(NESTED_CHOICE_TOKENS[..1])))
            == Next(LexState(6, Prefix, ChoiceOpen(NESTED_CHOICE_TOKENS[..1], [])))
  {
    assert input[4] == ' ' && input[5] == '?';
    QuestionAfterKeyword(input, 4, NESTED_CHOICE_TOKENS[..1]);
  }

  lemma NestedFirstBranch(input: string)
    requires input == NESTED_CHOICE
    ensures Step(input, LexState(6, Prefix, ChoiceOpen(NESTED_CHOICE_TOKENS[..1], [])))
            == Next(LexState(10, Prefix, RootWith(NESTED_CHOICE_TOKENS[..3])))
  {
    assert input[6] == ' ' && input[7] == '1' && input[8] == ' ' && input[9] == ':';
    DigitBranch(input, 6, NESTED_CHOICE_TOKENS[..1]);
    assert [input[7]] == "1";
    NestedChoiceGrows();
  }

  lemma NestedSecondCondition(input: string)
    requires input == NESTED_CHOICE
    ensures Step(input, LexState(10, Prefix, RootWith(NESTED_CHOICE_TOKENS[..3]))) == Next(LexState(16, Infix, RootWith(NESTED_CHOICE_TOKENS[..4])))
  {
    var before := RootWith(NESTED_CHOICE_TOKENS[..3]);
    assert input[10] == ' ' && input[11..16] == "false" && input[16] == ' ';
    FalseOperand(input, 10, before, 11);
    NestedChoiceGrows();
  }

  lemma NestedSecondQuestionMark(input: string)
    requires input == NESTED_CHOICE
    ensures Step(input, LexState(16, Infix, RootWith(NESTED_CHOICE_TOKENS[..4])))
            == Next(LexState(18, Prefix, ChoiceOpen(NESTED_CHOICE_TOKENS[..4], [])))
  {
    assert input[16] == ' ' && input[17] == '?';
    QuestionAfterKeyword(input, 16, NESTED_CHOICE_TOKENS[..4]);
  }

  lemma NestedSecondBranch(input: string)
    requires input == NESTED_CHOICE
    ensures Step(input, LexState(18, Prefix, ChoiceOpen(NESTED_CHOICE_TOKENS[..4], [])))
            == Next(LexState(22, Prefix, RootWith(NESTED_CHOICE_TOKENS[..6])))
  {
    assert input[18] == ' ' && input[19] == '0' && input[20] == ' ' && input[21] == ':';
    DigitBranch(input, 18, NESTED_CHOICE_TOKENS[..4]);
    assert [input[19]] == "0";
    NestedChoiceGrows();
  }

  lemma NestedAlternative(input: string)
    requires input == NESTED_CHOICE
    ensures Step(input, LexState(22, Prefix, RootWith(NESTED_CHOICE_TOKENS[..6]))) == Stop(RootWith(NESTED_CHOICE_TOKENS))
  {
    var before := NESTED_CHOICE_TOKENS[..6];
    assert |input| == 25 && input[22] == ' ' && input[23] == '-' && input[24] == '1';
    NegatedDigitEnds(input, 22, RootWith(before));
    assert [input[24]] == "1";
    NegatedAlternativeEmitted(before);
  }

  /** The prefix `-` and the number 1 emitted after the first six tokens complete the token list. */
  lemma NegatedAlternativeEmitted(before: seq<Token>)
    requires before == NESTED_CHOICE_TOKENS[..6]
    ensures Emit(Emit(RootWith(before), Token(Prefix, Operator, "-", [])), NumberToken("1")) == RootWith(NESTED_CHOICE_TOKENS)
  {
    var minus := Token(Prefix, Operator, "-", []);
    EmitOnRoot(before, minus);
    EmitOnRoot(before + [minus], NumberToken("1"));
    assert before + [minus] + [NumberToken("1")] == NESTED_CHOICE_TOKENS;
  }

  /**
    `true ? 1 : false ? 0 : -1` reads as the number 1, a `?` branch holding 1,
    `:`, the number 0, a `?` branch holding 0, `:`, a prefix `-` and the
    number 1: the keywords become numbers, and each `?` branch is closed by
    the first `:` after it.
   */
  lemma LexNestedChoice()
    ensures Lex(NESTED_CHOICE) == Ok(RootToken(NESTED_CHOICE_TOKENS))
  {
    var input := NESTED_CHOICE;
    var r := Ok(RootToken(NESTED_CHOICE_TOKENS));
    assert LexFrom(input, LexState(22, Prefix, RootWith(NESTED_CHOICE_TOKENS[..6]))) == r by {
      NestedAlternative(input);
    }
    assert LexFrom(input, LexState(18, Prefix, ChoiceOpen(NESTED_CHOICE_TOKENS[..4], []))) == r by {
      NestedSecondBranch(input);
    }
    assert LexFrom(input, LexState(16, Infix, RootWith(NESTED_CHOICE_TOKENS[..4]))) == r by {
      NestedSecondQuestionMark(input);
    }
    assert LexFrom(input, LexState(10, Prefix, RootWith(NESTED_CHOICE_TOKENS[..3]))) == r by {
      NestedSecondCondition(input);
    }
    assert LexFrom(input, LexState(6, Prefix, ChoiceOpen(NESTED_CHOICE_TOKENS[..1], []))) == r by {
      NestedFirstBranch(input);
    }
    assert LexFrom(input, LexState(4, Infix, RootWith(NESTED_CHOICE_TOKENS[..1]))) == r by {
      NestedFirstQuestionMark(input);
    }
    assert LexFrom(input, LexState(0, Prefix, RootWith([]))) == r by {
      NestedFirstCondition(input);
    }
    assert ROOT == RootWith([])[0];
  }

  // ----- `x := 3` (test.h:184) -----

  const ASSIGNMENT: string := "x := 3"

  const ASSIGNMENT_TOKENS: seq<Token> := [VariableToken("x"), OperatorToken(":="), NumberToken("3")]

  lemma AssignmentTarget(input: string)
    requires input == ASSIGNMENT
    ensures Step(input, LexState(0, Prefix, RootWith([])))
            == CloseOrInfix(input, LexState(2, Infix, RootWith(ASSIGNMENT_TOKENS[..1])))
  {
    assert input[0] == 'x' && input[1] == ' ' && input[2] == ':';
    assert Span(input, 0, Space) == 0;
    assert Span(input, 1, Word) == 1;
    assert Span(input, 0, Word) == 1;
    assert Span(input, 2, Space) == 2;
    assert Span(input, 1, Space) == 2;
    assert input[0..1] == "x";
    VariableIteration(input, 0, RootWith([]), 0, 1, 2);
    EmitOnRoot([], VariableToken("x"));
    assert [] + [VariableToken("x")] == ASSIGNMENT_TOKENS[..1];
  }

  lemma AssignmentOperator(input: string)
    requires input == ASSIGNMENT
    ensures CloseOrInfix(input, LexState(2, Infix, RootWith(ASSIGNMENT_TOKENS[..1])))
            == Next(LexState(4, Prefix, RootWith(ASSIGNMENT_TOKENS[..2])))
  {
    assert input[2] == ':' && input[3] == '=';
    ColonEqualsIsAssignment(input, 2);
    InfixOnRoot(input, 2, ASSIGNMENT_TOKENS[..1], 7);
    assert ASSIGNMENT_TOKENS[..1] + [OperatorToken(":=")] == ASSIGNMENT_TOKENS[..2];
  }

  lemma AssignmentValue(input: string)
    requires input == ASSIGNMENT
    ensures Step(input, LexState(4, Prefix, RootWith(ASSIGNMENT_TOKENS[..2]))) == Stop(RootWith(ASSIGNMENT_TOKENS))
  {
    assert input[4] == ' ' && input[5] == '3' && |input| == 6;
    assert ASSIGNMENT_TOKENS[..2] + [NumberToken("3")] == ASSIGNMENT_TOKENS;
    DigitOnRoot(input, 4, ASSIGNMENT_TOKENS[..2], 5, 6, ASSIGNMENT_TOKENS);
  }

  /** `x := 3` reads as the variable `x`, `:=` and the number 3. */
  lemma LexAssignment()
    ensures Lex(ASSIGNMENT) == Ok(RootToken(ASSIGNMENT_TOKENS))
  {
    var input := ASSIGNMENT;
    AssignmentTarget(input);
    AssignmentOperator(input);
    AssignmentValue(input);
    assert LexFrom(input, LexState(4, Prefix, RootWith(ASSIGNMENT_TOKENS[..2]))) == Ok(RootToken(ASSIGNMENT_TOKENS));
    assert ROOT == RootWith([])[0];
  }
}

=== FILE: lexed_shape.dfy ===
/**
  A property of the token trees `tokenize` produces: no token list begins with
  a `then` or `?` branch group. A branch group is only opened after its list
  has received a token (the `if` group, or the operand in front of `?`), so
  the tree builder never sees a list whose first operator is `_then_`.
 */
module LexedShape {
  import opened Basics
  import opened Lexer

  predicate IsBranch(t: Token) {
    t.category.Infix? && t.tokenType.Group?
  }

  /** The list is empty or does not start with a branch group. */
  predicate NoLeadingBranch(tokens: seq<Token>) {
    tokens == [] || !IsBranch(tokens[0])
  }

  /**
    Every open token's children start well, and a branch group is only open
    above a frame that already has children.
   */
  predicate FramesLead(stack: seq<Frame>) {
    (forall i :: 0 <= i < |stack| ==> NoLeadingBranch(stack[i].token.children)) &&
    (forall i :: 1 <= i < |stack| ==> IsBranch(stack[i].token) ==> stack[i - 1].token.children != [])
  }

  /** Between iterations: a postfix or infix token is only expected after the innermost list has a token. */
  predicate Leads(st: LexState) {
    FramesLead(st.stack) &&
    (st.stack != [] && (st.expected.Infix? || st.expected.Postfix?) ==> st.stack[|st.stack| - 1].token.children != [])
  }

  /**
    Within an iteration: as `Leads`, except that an infix token may be
    expected of an empty list when the input continues with `then` or `else`.
   */
  predicate MidLeads(input: string, st: LexState) {
    FramesLead(st.stack) &&
    (st.stack != [] && (st.expected.Infix? || st.expected.Postfix?) && st.stack[|st.stack| - 1].token.children == [] ==>
      st.expected.Infix? && st.pos < |input| && (input[st.pos] == 't' || input[st.pos] == 'e'))
  }

  // ----- the stack operations -----

  lemma EmitLeads(stack: seq<Frame>, t: Token)
    requires stack != [] && FramesLead(stack) && !IsBranch(t)
    ensures FramesLead(Emit(stack, t)) && Emit(stack, t)[|stack| - 1].token.children != []
  {
    var r := Emit(stack, t);
    forall i | 0 <= i < |r|
      ensures NoLeadingBranch(r[i].token.children)
    {
      if i < |stack| - 1 {
        assert r[i] == stack[i];
      }
    }
    forall i | 1 <= i < |r| && IsBranch(r[i].token)
      ensures r[i - 1].token.children != []
    {
      if i < |stack| - 1 {
        assert r[i] == stack[i] && r[i - 1] == stack[i - 1];
      } else {
        assert r[i - 1] == stack[i - 1];
      }
    }
  }

  lemma OpenLeads(stack: seq<Frame>, t: Token, closer: string)
    requires stack != [] && FramesLead(stack) && t.children == []
    requires IsBranch(t) ==> stack[|stack| - 1].token.children != []
    ensures FramesLead(Open(stack, t, closer))
  {
    var r := Open(stack, t, closer);
    assert forall i :: 0 <= i < |stack| ==> r[i] == stack[i];
  }

  lemma PopLeads(stack: seq<Frame>)
    requires |stack| >= 2 && FramesLead(stack)
    ensures FramesLead(Pop(stack)) && Pop(stack)[|stack| - 2].token.children != []
  {
    var below := stack[..|stack| - 1];
    assert FramesLead(below) by {
      assert forall i :: 0 <= i < |below| ==> below[i] == stack[i];
    }
    var top := stack[|stack| - 1].token;
    if IsBranch(top) {
      assert below[|below| - 1].token.children != [];
      var r := Emit(below, top);
      assert forall i :: 0 <= i < |below| - 1 ==> r[i] == below[i];
      assert r[|below| - 1].token.children == below[|below| - 1].token.children + [top];
    } else {
      EmitLeads(below, top);
    }
  }

  // ----- the stages -----

  lemma PrefixLeads(input: string, st: LexState)
    requires st.pos < |input| && st.stack != [] && Leads(st)
    ensures PrefixStage(input, st).Proceed? ==> Leads(PrefixStage(input, st).state)
  {
    if st.expected == Prefix {
      var m := Fetch(input, st.pos, PREFIXES);
      if m != [] && st.pos + |m| != |input| {
        EmitLeads(st.stack, Token(Prefix, Operator, m, []));
      }
    }
  }

  lemma OperandLeads(input: string, st: LexState)
    requires st.pos < |input| && st.stack != [] && Leads(st)
    ensures var r := OperandStage(input, st);
      (r.Jump? ==> Leads(r.next)) && (r.Proceed? ==> MidLeads(input, r.state))
  {
    var pos, stack := st.pos, st.stack;
    if st.expected == Operand {
      var keyword := Fetch(input, pos, KEYWORDS);
      if keyword != [] {
        EmitLeads(stack, Token(Operand, Number, if keyword == "true" then "1" else "0", []));
      } else if StartsWith(input, pos, IF) {
        OpenLeads(stack, Token(Prefix, Group, IF, []), THEN);
      } else if StartsWith(input, pos, THEN) || StartsWith(input, pos, ELSE) {
        assert input[pos] == (if StartsWith(input, pos, THEN) then THEN else ELSE)[0];
      } else if IsNumeric(input[pos]) {
        var e := Span(input, pos, Numeric);
        EmitLeads(stack, Token(Operand, Number, input[pos..e], []));
      } else if IsAlphanumeric(input[pos]) {
        WordLeads(input, st);
      } else {
        SymbolLeads(input, st);
      }
    }
  }

  /** An operand that starts with a name keeps the frames well led. */
  lemma WordLeads(input: string, st: LexState)
    requires st.pos < |input| && st.stack != [] && Leads(st)
    ensures var r := NamedOperand(input, st);
      (r.Jump? ==> Leads(r.next)) && (r.Proceed? ==> MidLeads(input, r.state))
  {
    var pos, stack := st.pos, st.stack;
    var e := Span(input, pos, Word);
    var name := input[pos..e];
    if e < |input| && input[e] == '(' {
      OpenLeads(stack, Token(Operand, FunctionCall, name, []), ")");
    } else if StartsWith(input, e, "[]") {
      EmitLeads(stack, Token(Operand, Collection, name, []));
    } else if e < |input| && input[e] == '[' {
      OpenLeads(stack, Token(Operand, IndexedVariable, name, []), "]");
    } else if e < |input| && input[e] == '{' {
      OpenLeads(stack, Token(Operand, Aggregation, name, []), "}");
    } else {
      EmitLeads(stack, Token(Operand, Variable, name, []));
    }
  }

  /** An operand that starts with a symbol or a bracket keeps the frames well led. */
  lemma SymbolLeads(input: string, st: LexState)
    requires st.pos < |input| && st.stack != [] && Leads(st)
    ensures var r := SymbolicOperand(input, st);
      r.Jump? ==> Leads(r.next)
  {
    var pos, stack := st.pos, st.stack;
    var symbol := Fetch(input, pos, SYMBOLIC_NAMES);
    if symbol != [] {
      OpenLeads(stack, Token(Operand, FunctionCall, Alias(symbol), []), ")");
      OpenLeads(stack, Token(Operand, Aggregation, Alias(symbol), []), "}");
    } else {
      OpenLeads(stack, Token(Operand, Group, "", []), ")");
      OpenLeads(stack, Token(Operand, Set, "", []), "}");
      OpenLeads(stack, Token(Operand, Sequence, "", []), "]");
    }
  }

  lemma PostfixLeads(input: string, st: LexState)
    requires st.pos <= |input| && st.stack != [] && MidLeads(input, st)
    ensures MidLeads(input, PostfixStage(input, st))
  {
    if st.expected == Postfix {
      var m := Fetch(input, st.pos, POSTFIXES);
      if m != [] {
        EmitLeads(st.stack, Token(Postfix, Operator, m, []));
      }
    }
  }

  lemma CloseOrInfixLeads(input: string, st: LexState)
    requires st.pos < |input| && st.stack != [] && MidLeads(input, st)
    ensures CloseOrInfix(input, st).Next? ==> Leads(CloseOrInfix(input, st).state)
  {
    var pos, stack := st.pos, st.stack;
    var top := stack[|stack| - 1];
    if Closes(input, pos, top) {
      if |stack| >= 2 {
        PopLeads(stack);
        var popped := Pop(stack);
        var closer := top.closer.value;
        if closer == THEN {
          OpenLeads(popped, Token(Infix, Group, THEN, []), ELSE);
        } else if closer == ":" || closer == ELSE {
          EmitLeads(popped, Token(Infix, Operator, closer, []));
        }
      }
    } else if st.expected == Infix {
      if input[pos] == ',' {
        EmitLeads(stack, Token(Infix, Separator, ",", []));
      } else if input[pos] == '?' {
        OpenLeads(stack, Token(Infix, Group, "?", []), ":");
      } else {
        var m := Fetch(input, pos, INFIXES);
        if m != [] {
          EmitLeads(stack, Token(Infix, Operator, m, []));
        }
      }
    }
  }

  lemma SpanOfNonSpace(input: string, pos: nat)
    requires pos < |input| && !IsSpace(input[pos])
    ensures Span(input, pos, Space) == pos
  {
  }

  /** The end of an iteration, after the postfix stage, keeps the frames well led. */
  lemma TailLeads(input: string, s3: LexState)
    requires s3.pos <= |input| && s3.stack != [] && MidLeads(input, s3)
    ensures var p := Span(input, s3.pos, Space);
      p < |input| && CloseOrInfix(input, s3.(pos := p)).Next? ==> Leads(CloseOrInfix(input, s3.(pos := p)).state)
  {
    var p := Span(input, s3.pos, Space);
    if p < |input| {
      SkipSpaceLeads(input, s3);
      CloseOrInfixLeads(input, s3.(pos := p));
    }
  }

  /** Skipping blanks keeps a state mid-iteration well led: a `then` or `else` is not blank. */
  lemma SkipSpaceLeads(input: string, st: LexState)
    requires st.pos <= |input| && MidLeads(input, st)
    ensures Span(input, st.pos, Space) < |input| ==> MidLeads(input, st.(pos := Span(input, st.pos, Space)))
  {
    if st.stack != [] && st.stack[|st.stack| - 1].token.children == [] && (st.expected.Infix? || st.expected.Postfix?) {
      SpanOfNonSpace(input, st.pos);
    }
  }

  /** One iteration keeps the frames well led. */
  lemma StepLeads(input: string, st: LexState)
    requires st.pos < |input| && Leads(st)
    ensures match Step(input, st)
      case Next(s) => Leads(s)
      case Stop(stack) => FramesLead(stack)
      case Halt(_) => true
  {
    var pos := Span(input, st.pos, Space);
    if pos < |input| && st.stack != [] {
      var s0 := st.(pos := pos);
      PrefixLeads(input, s0);
      match PrefixStage(input, s0)
      case Raise(_) =>
      case Proceed(s1) =>
        OperandLeads(input, s1);
        match OperandStage(input, s1)
        case Raise(_) =>
        case Jump(s) =>
          assert Step(input, st) == Next(s);
        case Proceed(s2) =>
          PostfixLeads(input, s2);
          TailLeads(input, PostfixStage(input, s2));
    }
  }

  lemma {:induction false} LexFromLeads(input: string, st: LexState)
    requires st.pos <= |input| && Leads(st)
    ensures LexFrom(input, st).Ok? ==> NoLeadingBranch(LexFrom(input, st).value.children)
    decreases |input| - st.pos
  {
    if st.pos < |input| {
      StepLeads(input, st);
      match Step(input, st)
      case Next(s) => LexFromLeads(input, s);
      case Stop(_) =>
      case Halt(_) =>
    }
  }

  /** The outermost token list of a lexed expression does not start with a branch group. */
  lemma LexedRootLeads(input: string)
    ensures Lex(input).Ok? ==> NoLeadingBranch(Lex(input).value.children)
  {
    LexFromLeads(input, LexState(0, Prefix, [ROOT]));
  }
}

=== FILE: lexer.dfy ===
/**
  The lexer of limex.h (`Expression::tokenize` and its helpers `skipWhitespaces`,
  `startsWith` and `fetch`).

  The lexer is a state machine over the input. One loop iteration first skips
  white space and then runs four stages in order: PREFIX, OPERAND, POSTFIX and a
  final stage that either closes the innermost open delimiter or reads an INFIX
  token. Alongside the expected category it keeps a stack of frames, one per open
  delimiter: the grouping token being filled and the spelling that closes it.

  `Step` and `LexFrom` give the meaning of the loop as functions; the method
  `Tokenize` is the loop itself and is proved to compute `Lex`.

  Characters are Unicode scalar values: an operator such as `≤` is one character
  here, where the C++ code sees its UTF-8 bytes.
 */
module Lexer {
  import opened Basics

  datatype Category = Prefix | Operand | Postfix | Infix

  datatype TokenType =
    | Number | Variable | Collection | Operator | Separator
    | Group | Set | Sequence | FunctionCall | Aggregation | IndexedVariable

  /** A token; only grouping tokens have children. */
  datatype Token = Token(category: Category, tokenType: TokenType, value: string, children: seq<Token>)

  // ----- character classes (C locale) -----

  predicate IsDigit(c: char) { '0' <= c <= '9' }

  /** `isnumeric`: a digit or the decimal point. */
  predicate IsNumeric(c: char) { IsDigit(c) || c == '.' }

  /** `isalphanumeric`: an ASCII letter, a digit or `_`. */
  predicate IsAlphanumeric(c: char) {
    'a' <= c <= 'z' || 'A' <= c <= 'Z' || IsDigit(c) || c == '_'
  }

  /** `std::isspace` in the C locale. */
  predicate IsSpace(c: char) {
    c == ' ' || c == '\t' || c == '\n' || c == '\r' || c == '\U{000B}' || c == '\U{000C}'
  }

  datatype CharClass = Space | Numeric | Word

  predicate InClass(c: char, cls: CharClass) {
    match cls
    case Space => IsSpace(c)
    case Numeric => IsNumeric(c)
    case Word => IsAlphanumeric(c)
  }

  /** The end of the longest run of characters of class `cls` that starts at `pos`. */
  function Span(input: string, pos: nat, cls: CharClass): (e: nat)
    requires pos <= |input|
    ensures pos <= e <= |input|
    decreases |input| - pos
  {
    if pos < |input| && InClass(input[pos], cls) then Span(input, pos + 1, cls) else pos
  }

  /** `Span` ends the longest run: every character before the end is in the class, the one at the end is not. */
  lemma {:induction false} SpanIsMaximalRun(input: string, pos: nat, cls: CharClass)
    requires pos <= |input|
    ensures var e := Span(input, pos, cls);
      (forall k :: pos <= k < e ==> InClass(input[k], cls)) && (e == |input| || !InClass(input[e], cls))
    decreases |input| - pos
  {
    if pos < |input| && InClass(input[pos], cls) {
      SpanIsMaximalRun(input, pos + 1, cls);
    }
  }

  /** `skipWhitespaces`: advances `pos` over white space. */
  method SkipWhitespaces(input: string, pos: nat) returns (p: nat)
    requires pos <= |input|
    ensures p == Span(input, pos, Space)
  {
    p := pos;
    while p < |input| && IsSpace(input[p])
      invariant pos <= p <= |input|
      invariant Span(input, p, Space) == Span(input, pos, Space)
    {
      p := p + 1;
    }
  }

  // ----- the spelling tables (limex.h:211-222) -----

  /** A list of spellings to match, none of them empty. */
  type Spellings = c: seq<string> | forall k :: 0 <= k < |c| ==> c[k] != []

  const KEYWORDS: Spellings := ["false", "true"]
  const IF: string := "if"
  const THEN: string := "then"
  const ELSE: string := "else"
  const PREFIXES: Spellings := ["!", "\U{00AC}", "-"]
  /** `infix`, in its order, written in two parts: up to `not in`, then the Unicode symbols that follow. */
  const INFIXES: Spellings := LEADING_INFIXES + SYMBOL_INFIXES
  const LEADING_INFIXES: Spellings := [
    ",", "==", "!=", "<=", ">=", "<", ">", ":=", "\U{2254}", "+=", "-=", "*=", "/=",
    "+", "-", "*", "/", "^", "&&", "||", "?", ":", "and", "or", "in", "not in"]
  const SYMBOL_INFIXES: Spellings := ["\U{2260}", "\U{2264}", "\U{2265}", "\U{2227}", "\U{2228}", "\U{2208}", "\U{2209}"]
  const POSTFIXES: Spellings := ["\U{00B2}", "\U{00B3}"]
  const SYMBOLIC_NAMES: Spellings := ["\U{2211}", "\U{221A}", "\U{221B}"]

  /** The callable a symbolic name stands for (`aliases`). */
  function Alias(symbol: string): string {
    if symbol == "\U{2211}" then "sum"
    else if symbol == "\U{221A}" then "sqrt"
    else "cbrt"
  }

  // ----- keyword matching -----

  /**
    `startsWith`: `candidate` occurs in `input` at `start`, and when it ends in
    a word character the match is not followed by another word character.
   */
  predicate StartsWith(input: string, start: nat, candidate: string)
    requires start <= |input| && candidate != []
  {
    var end := start + |candidate|;
    end <= |input| && input[start..end] == candidate &&
    (!IsAlphanumeric(candidate[|candidate| - 1]) || end == |input| || !IsAlphanumeric(input[end]))
  }

  /** Candidate `k` is the first one `input` starts with at `start`. */
  predicate FirstMatch(input: string, start: nat, candidates: Spellings, k: int)
    requires start <= |input|
  {
    0 <= k < |candidates| && StartsWith(input, start, candidates[k]) &&
    forall j :: 0 <= j < k ==> !StartsWith(input, start, candidates[j])
  }

  /** `fetch`: the first candidate, in list order, that `input` starts with at `start`; else "". */
  function Fetch(input: string, start: nat, candidates: Spellings): (r: string)
    requires start <= |input|
    ensures r != [] ==> StartsWith(input, start, r)
    decreases |candidates|
  {
    if candidates == [] then []
    else if StartsWith(input, start, candidates[0]) then candidates[0]
    else Fetch(input, start, candidates[1..])
  }

  /** `Fetch` yields the first matching candidate in list order, and "" exactly when none matches. */
  lemma {:induction false} FetchIsFirstMatch(input: string, start: nat, candidates: Spellings)
    requires start <= |input|
    ensures var r := Fetch(input, start, candidates);
      (r == [] <==> forall k :: 0 <= k < |candidates| ==> !StartsWith(input, start, candidates[k])) &&
      (r != [] ==> exists k :: FirstMatch(input, start, candidates, k) && candidates[k] == r)
    decreases |candidates|
  {
    if candidates != [] && !StartsWith(input, start, candidates[0]) {
      var tail := candidates[1..];
      FetchIsFirstMatch(input, start, tail);
      if Fetch(input, start, tail) != [] {
        var k :| FirstMatch(input, start, tail, k) && tail[k] == Fetch(input, start, tail);
        assert FirstMatch(input, start, candidates, k + 1);
      }
      assert forall k :: 1 <= k < |candidates| ==> candidates[k] == tail[k - 1];
    } else if candidates != [] {
      assert FirstMatch(input, start, candidates, 0);
    }
  }

  /** No candidate is fetched when none starts with the character at `start`. */
  lemma {:induction false} FetchMissesFirstCharacter(input: string, start: nat, candidates: Spellings)
    requires start < |input|
    requires forall k :: 0 <= k < |candidates| ==> candidates[k][0] != input[start]
    ensures Fetch(input, start, candidates) == []
    decreases |candidates|
  {
    if candidates != [] {
      FetchMissesFirstCharacter(input, start, candidates[1..]);
    }
  }

  // ----- the delimiter stack -----

  /** An open grouping token and the spelling that closes it; the root frame has none. */
  datatype Frame = Frame(token: Token, closer: Option<string>)

  const ROOT: Frame := Frame(Token(Operand, Group, "", []), None)

  /** Appends a token to the children of the innermost open frame. */
  function Emit(stack: seq<Frame>, t: Token): (r: seq<Frame>)
    requires stack != []
    ensures |r| == |stack| && r[..|r| - 1] == stack[..|stack| - 1]
    ensures r[|r| - 1].closer == stack[|stack| - 1].closer
  {
    var top := stack[|stack| - 1];
    stack[..|stack| - 1] + [top.(token := top.token.(children := top.token.children + [t]))]
  }

  /** Opens a grouping token that `closer` will close. */
  function Open(stack: seq<Frame>, t: Token, closer: string): seq<Frame> {
    stack + [Frame(t, Some(closer))]
  }

  /**
    Closes the innermost frame: its token, now complete, becomes the last child
    of the frame below. Closing the only frame leaves an empty stack.
   */
  function Pop(stack: seq<Frame>): (r: seq<Frame>)
    requires stack != []
    ensures |r| == |stack| - 1
  {
    if |stack| == 1 then [] else Emit(stack[..|stack| - 1], stack[|stack| - 1].token)
  }

  /** The innermost frame's closing spelling occurs at `pos`. */
  predicate Closes(input: string, pos: nat, frame: Frame)
    requires pos <= |input|
  {
    frame.closer.Some? && frame.closer.value != [] && StartsWith(input, pos, frame.closer.value)
  }

  // ----- one iteration of the loop, stage by stage -----

  datatype LexState = LexState(pos: nat, expected: Category, stack: seq<Frame>)

  /** A stage either starts the next iteration, falls through to the next stage, or raises. */
  datatype Stage = Jump(next: LexState) | Proceed(state: LexState) | Raise(error: Error)

  datatype StepResult = Next(state: LexState) | Stop(stack: seq<Frame>) | Halt(error: Error)

  /** Consumes a prefix operator when one is expected; an operand is expected next. */
  function PrefixStage(input: string, st: LexState): (r: Stage)
    requires st.pos < |input| && st.stack != []
    ensures r.Proceed? ==> st.pos <= r.state.pos < |input| && r.state.stack != []
    ensures !r.Jump?
    ensures r.Raise? ==> r.error == PrefixWithoutOperand
  {
    if st.expected != Prefix then Proceed(st)
    else
      var m := Fetch(input, st.pos, PREFIXES);
      if m == [] then Proceed(st.(expected := Operand))
      else if st.pos + |m| == |input| then Raise(PrefixWithoutOperand)
      else Proceed(LexState(st.pos + |m|, Operand, Emit(st.stack, Token(Prefix, Operator, m, []))))
  }

  /** Consumes an operand when one is expected. */
  function OperandStage(input: string, st: LexState): (r: Stage)
    requires st.pos < |input| && st.stack != []
    ensures r.Jump? ==> st.pos < r.next.pos <= |input|
    ensures r.Proceed? ==> st.pos <= r.state.pos <= |input| && r.state.stack != []
    ensures r.Raise? ==> r.error == SymbolicNameWithoutArguments || r.error == UnexpectedOperand
  {
    var pos, stack := st.pos, st.stack;
    if st.expected != Operand then Proceed(st)
    else
      var keyword := Fetch(input, pos, KEYWORDS);
      if keyword != [] then
        Jump(LexState(pos + |keyword|, Infix,
          Emit(stack, Token(Operand, Number, if keyword == "true" then "1" else "0", []))))
      else if StartsWith(input, pos, IF) then
        Jump(LexState(pos + 2, Prefix, Open(stack, Token(Prefix, Group, IF, []), THEN)))
      else if StartsWith(input, pos, THEN) || StartsWith(input, pos, ELSE) then
        Proceed(st.(expected := Infix))
      else if IsNumeric(input[pos]) then
        var e := Span(input, pos, Numeric);
        Proceed(LexState(e, Postfix, Emit(stack, Token(Operand, Number, input[pos..e], []))))
      else if IsAlphanumeric(input[pos]) then NamedOperand(input, st)
      else SymbolicOperand(input, st)
  }

  /** An operand that starts with a name: a call, a collection, an indexed variable, an aggregation or a variable. */
  function NamedOperand(input: string, st: LexState): (r: Stage)
    requires st.pos < |input| && st.stack != []
    ensures r.Jump? ==> st.pos < r.next.pos <= |input|
    ensures r.Proceed? ==> st.pos <= r.state.pos <= |input| && r.state.stack != []
    ensures !r.Raise?
  {
    var pos, stack := st.pos, st.stack;
    var e := Span(input, pos, Word);
    var name := input[pos..e];
    if e < |input| && input[e] == '(' then
      Jump(LexState(e + 1, Prefix, Open(stack, Token(Operand, FunctionCall, name, []), ")")))
    else if StartsWith(input, e, "[]") then
      Proceed(LexState(e + 2, Operand, Emit(stack, Token(Operand, Collection, name, []))))
    else if e < |input| && input[e] == '[' then
      Jump(LexState(e + 1, Prefix, Open(stack, Token(Operand, IndexedVariable, name, []), "]")))
    else if e < |input| && input[e] == '{' then
      Jump(LexState(e + 1, Prefix, Open(stack, Token(Operand, Aggregation, name, []), "}")))
    else
      Proceed(LexState(e, Postfix, Emit(stack, Token(Operand, Variable, name, []))))
  }

  /** An operand that starts with a symbolic name or an opening bracket. */
  function SymbolicOperand(input: string, st: LexState): (r: Stage)
    requires st.pos < |input| && st.stack != []
    ensures r.Jump? ==> st.pos < r.next.pos <= |input|
    ensures !r.Proceed?
    ensures r.Raise? ==> r.error == SymbolicNameWithoutArguments || r.error == UnexpectedOperand
  {
    var pos, stack := st.pos, st.stack;
    var symbol := Fetch(input, pos, SYMBOLIC_NAMES);
    if symbol != [] then
      var e := pos + |symbol|;
      if e < |input| && input[e] == '(' then
        Jump(LexState(e + 1, Prefix, Open(stack, Token(Operand, FunctionCall, Alias(symbol), []), ")")))
      else if e < |input| && input[e] == '{' then
        Jump(LexState(e + 1, Prefix, Open(stack, Token(Operand, Aggregation, Alias(symbol), []), "}")))
      else Raise(SymbolicNameWithoutArguments)
    else if input[pos] == '(' then
      Jump(LexState(pos + 1, Prefix, Open(stack, Token(Operand, Group, "", []), ")")))
    else if input[pos] == '{' then
      Jump(LexState(pos + 1, Prefix, Open(stack, Token(Operand, Set, "", []), "}")))
    else if input[pos] == '[' then
      Jump(LexState(pos + 1, Prefix, Open(stack, Token(Operand, Sequence, "", []), "]")))
    else Raise(UnexpectedOperand)
  }

  /** Consumes a postfix operator when one may follow; an infix token is expected next. */
  function PostfixStage(input: string, st: LexState): (r: LexState)
    requires st.pos <= |input| && st.stack != []
    ensures st.pos <= r.pos <= |input| && r.stack != []
  {
    if st.expected != Postfix then st
    else
      var m := Fetch(input, st.pos, POSTFIXES);
      if m == [] then st.(expected := Infix)
      else LexState(st.pos + |m|, Infix, Emit(st.stack, Token(Postfix, Operator, m, [])))
  }

  /**
    Closes the innermost frame when its closer comes next (`then` also opens the
    `then` group, `else` and `:` also emit themselves as an infix operator);
    otherwise reads a separator, a `?` group or an infix operator.
   */
  function CloseOrInfix(input: string, st: LexState): (r: StepResult)
    requires st.pos < |input| && st.stack != []
    ensures r.Next? ==> st.pos < r.state.pos <= |input|
    ensures !r.Stop?
  {
    var pos, stack := st.pos, st.stack;
    var top := stack[|stack| - 1];
    if Closes(input, pos, top) then
      var closer := top.closer.value;
      if closer == THEN then
        if |stack| == 1 then Halt(GroupStackEmpty)
        else Next(LexState(pos + |closer|, Prefix, Open(Pop(stack), Token(Infix, Group, THEN, []), ELSE)))
      else if closer == ":" || closer == ELSE then
        if |stack| == 1 then Halt(GroupStackEmpty)
        else Next(LexState(pos + |closer|, Prefix, Emit(Pop(stack), Token(Infix, Operator, closer, []))))
      else Next(LexState(pos + |closer|, Postfix, Pop(stack)))
    else if st.expected == Infix then
      if input[pos] == ',' then
        Next(LexState(pos + 1, Prefix, Emit(stack, Token(Infix, Separator, ",", []))))
      else if input[pos] == '?' then
        Next(LexState(pos + 1, Prefix, Open(stack, Token(Infix, Group, "?", []), ":")))
      else
        var m := Fetch(input, pos, INFIXES);
        if m != [] then Next(LexState(pos + |m|, Prefix, Emit(stack, Token(Infix, Operator, m, []))))
        else Halt(UnexpectedCharacter)
    else Halt(UnexpectedCharacter)
  }

  /** One iteration of the loop of `tokenize`. */
  function Step(input: string, st: LexState): (r: StepResult)
    requires st.pos < |input|
    ensures r.Next? ==> st.pos < r.state.pos <= |input|
  {
    var pos := Span(input, st.pos, Space);
    if pos == |input| then Stop(st.stack)
    else if st.stack == [] then Halt(GroupStackEmpty)
    else
      match PrefixStage(input, st.(pos := pos))
      case Raise(e) => Halt(e)
      case Jump(s) => Next(s)
      case Proceed(s1) =>
        match OperandStage(input, s1)
        case Raise(e) => Halt(e)
        case Jump(s) => Next(s)
        case Proceed(s2) =>
          var s3 := PostfixStage(input, s2);
          var p := Span(input, s3.pos, Space);
          if p == |input| then Stop(s3.stack)
          else CloseOrInfix(input, s3.(pos := p))
  }

  /** The token tree once the loop stops: only the root frame may remain open. */
  function Finish(stack: seq<Frame>): Result<Token> {
    if |stack| != 1 then Err(UnbalancedDelimiters) else Ok(stack[0].token)
  }

  /** Runs the loop from state `st` to the end of the input. */
  function LexFrom(input: string, st: LexState): Result<Token>
    requires st.pos <= |input|
    decreases |input| - st.pos
  {
    if st.pos == |input| then Finish(st.stack)
    else match Step(input, st)
      case Next(s) => LexFrom(input, s)
      case Stop(stack) => Finish(stack)
      case Halt(e) => Err(e)
  }

  /** The root grouping token of `input`. */
  function Lex(input: string): Result<Token> {
    LexFrom(input, LexState(0, Prefix, [ROOT]))
  }

  // ----- the frame invariant -----

  /** Only the root frame lacks a closer, and every closer is a non-empty spelling. */
  predicate WellFramed(stack: seq<Frame>) {
    |stack| >= 1 && stack[0].closer.None? &&
    forall i :: 1 <= i < |stack| ==> stack[i].closer.Some? && stack[i].closer.value != []
  }

  lemma EmitKeepsFrames(stack: seq<Frame>, t: Token)
    requires WellFramed(stack)
    ensures WellFramed(Emit(stack, t))
  {
    var r := Emit(stack, t);
    forall i | 1 <= i < |r|
      ensures r[i].closer.Some? && r[i].closer.value != []
    {
      if i < |r| - 1 {
        assert r[i] == r[..|r| - 1][i] == stack[..|stack| - 1][i];
      }
    }
    if |r| > 1 {
      assert r[0] == r[..|r| - 1][0];
    }
  }

  lemma OpenKeepsFrames(stack: seq<Frame>, t: Token, closer: string)
    requires WellFramed(stack) && closer != []
    ensures WellFramed(Open(stack, t, closer))
  {
    var r := Open(stack, t, closer);
    forall i | 1 <= i < |r|
      ensures r[i].closer.Some? && r[i].closer.value != []
    {
      if i < |stack| {
        assert r[i] == stack[i];
      }
    }
  }

  lemma PopKeepsFrames(stack: seq<Frame>)
    requires WellFramed(stack) && |stack| >= 2
    ensures WellFramed(Pop(stack))
  {
    var below := stack[..|stack| - 1];
    assert WellFramed(below) by {
      forall i | 1 <= i < |below|
        ensures below[i].closer.Some? && below[i].closer.value != []
      {
        assert below[i] == stack[i];
      }
    }
    EmitKeepsFrames(below, stack[|stack| - 1].token);
  }

  /**
    On a well-framed stack an iteration never pops the root frame, so it never
    reaches the empty stack, and it leaves the stack well framed.
   */
  lemma StepKeepsFrames(input: string, st: LexState)
    requires st.pos < |input| && WellFramed(st.stack)
    ensures Step(input, st) != Halt(GroupStackEmpty)
    ensures Step(input, st).Next? ==> WellFramed(Step(input, st).state.stack)
  {
    var pos := Span(input, st.pos, Space);
    if pos < |input| {
      var s0 := st.(pos := pos);
      PrefixKeepsFrames(input, s0);
      match PrefixStage(input, s0)
      case Raise(_) =>
      case Proceed(s1) =>
        OperandKeepsFrames(input, s1);
        match OperandStage(input, s1)
        case Raise(_) =>
        case Jump(_) =>
        case Proceed(s2) =>
          PostfixKeepsFrames(input, s2);
          var s3 := PostfixStage(input, s2);
          var p := Span(input, s3.pos, Space);
          if p < |input| {
            CloseOrInfixKeepsFrames(input, s3.(pos := p));
          }
    }
  }

  lemma PrefixKeepsFrames(input: string, st: LexState)
    requires st.pos < |input| && WellFramed(st.stack)
    ensures PrefixStage(input, st).Proceed? ==> WellFramed(PrefixStage(input, st).state.stack)
  {
    EmitKeepsFrames(st.stack, Token(Prefix, Operator, Fetch(input, st.pos, PREFIXES), []));
  }

  lemma PostfixKeepsFrames(input: string, st: LexState)
    requires st.pos <= |input| && WellFramed(st.stack)
    ensures WellFramed(PostfixStage(input, st).stack)
  {
    EmitKeepsFrames(st.stack, Token(Postfix, Operator, Fetch(input, st.pos, POSTFIXES), []));
  }

  lemma OperandKeepsFrames(input: string, st: LexState)
    requires st.pos < |input| && WellFramed(st.stack)
    ensures var r := OperandStage(input, st);
      (r.Jump? ==> WellFramed(r.next.stack)) && (r.Proceed? ==> WellFramed(r.state.stack))
  {
    var pos, stack := st.pos, st.stack;
    if st.expected == Operand {
      var keyword := Fetch(input, pos, KEYWORDS);
      if keyword != [] {
        EmitKeepsFrames(stack, Token(Operand, Number, if keyword == "true" then "1" else "0", []));
      } else if StartsWith(input, pos, IF) {
        OpenKeepsFrames(stack, Token(Prefix, Group, IF, []), THEN);
      } else if StartsWith(input, pos, THEN) || StartsWith(input, pos, ELSE) {
      } else if IsNumeric(input[pos]) {
        EmitKeepsFrames(stack, Token(Operand, Number, input[pos..Span(input, pos, Numeric)], []));
      } else if IsAlphanumeric(input[pos]) {
        WordKeepsFrames(input, st);
      } else {
        SymbolKeepsFrames(input, st);
      }
    }
  }

  /** An operand that starts with a name keeps the frames. */
  lemma WordKeepsFrames(input: string, st: LexState)
    requires st.pos < |input| && WellFramed(st.stack)
    ensures var r := NamedOperand(input, st);
      (r.Jump? ==> WellFramed(r.next.stack)) && (r.Proceed? ==> WellFramed(r.state.stack))
  {
    var pos, stack := st.pos, st.stack;
    var e := Span(input, pos, Word);
    var name := input[pos..e];
    if e < |input| && input[e] == '(' {
      OpenKeepsFrames(stack, Token(Operand, FunctionCall, name, []), ")");
    } else if StartsWith(input, e, "[]") {
      EmitKeepsFrames(stack, Token(Operand, Collection, name, []));
    } else if e < |input| && input[e] == '[' {
      OpenKeepsFrames(stack, Token(Operand, IndexedVariable, name, []), "]");
    } else if e < |input| && input[e] == '{' {
      OpenKeepsFrames(stack, Token(Operand, Aggregation, name, []), "}");
    } else {
      EmitKeepsFrames(stack, Token(Operand, Variable, name, []));
    }
  }

  /** An operand that starts with a symbol or a bracket keeps the frames. */
  lemma SymbolKeepsFrames(input: string, st: LexState)
    requires st.pos < |input| && WellFramed(st.stack)
    ensures var r := SymbolicOperand(input, st);
      r.Jump? ==> WellFramed(r.next.stack)
  {
    var pos, stack := st.pos, st.stack;
    var symbol := Fetch(input, pos, SYMBOLIC_NAMES);
    if symbol != [] {
      OpenKeepsFrames(stack, Token(Operand, FunctionCall, Alias(symbol), []), ")");
      OpenKeepsFrames(stack, Token(Operand, Aggregation, Alias(symbol), []), "}");
    } else {
      OpenKeepsFrames(stack, Token(Operand, Group, "", []), ")");
      OpenKeepsFrames(stack, Token(Operand, Set, "", []), "}");
      OpenKeepsFrames(stack, Token(Operand, Sequence, "", []), "]");
    }
  }

  lemma CloseOrInfixKeepsFrames(input: string, st: LexState)
    requires st.pos < |input| && WellFramed(st.stack)
    ensures CloseOrInfix(input, st) != Halt(GroupStackEmpty)
    ensures CloseOrInfix(input, st).Next? ==> WellFramed(CloseOrInfix(input, st).state.stack)
  {
    var stack := st.stack;
    if Closes(input, st.pos, stack[|stack| - 1]) {
      ClosingKeepsFrames(input, st);
    } else {
      InfixKeepsFrames(input, st);
    }
  }

  lemma ClosingKeepsFrames(input: string, st: LexState)
    requires st.pos < |input| && WellFramed(st.stack)
    requires Closes(input, st.pos, st.stack[|st.stack| - 1])
    ensures CloseOrInfix(input, st).Next? && WellFramed(CloseOrInfix(input, st).state.stack)
  {
    var pos, stack := st.pos, st.stack;
    assert |stack| >= 2;
    PopKeepsFrames(stack);
    var closer := stack[|stack| - 1].closer.value;
    if closer == THEN {
      assert CloseOrInfix(input, st) == Next(LexState(pos + |closer|, Prefix, Open(Pop(stack), Token(Infix, Group, THEN, []), ELSE)));
      OpenKeepsFrames(Pop(stack), Token(Infix, Group, THEN, []), ELSE);
    } else if closer == ":" || closer == ELSE {
      assert CloseOrInfix(input, st) == Next(LexState(pos + |closer|, Prefix, Emit(Pop(stack), Token(Infix, Operator, closer, []))));
      EmitKeepsFrames(Pop(stack), Token(Infix, Operator, closer, []));
    } else {
      assert CloseOrInfix(input, st) == Next(LexState(pos + |closer|, Postfix, Pop(stack)));
    }
  }

  lemma InfixKeepsFrames(input: string, st: LexState)
    requires st.pos < |input| && WellFramed(st.stack)
    requires !Closes(input, st.pos, st.stack[|st.stack| - 1])
    ensures CloseOrInfix(input, st) != Halt(GroupStackEmpty)
    ensures CloseOrInfix(input, st).Next? ==> WellFramed(CloseOrInfix(input, st).state.stack)
  {
    var pos, stack := st.pos, st.stack;
    if st.expected != Infix {
      assert CloseOrInfix(input, st) == Halt(UnexpectedCharacter);
    } else if input[pos] == ',' {
      EmitKeepsFrames(stack, Token(Infix, Separator, ",", []));
    } else if input[pos] == '?' {
      OpenKeepsFrames(stack, Token(Infix, Group, "?", []), ":");
    } else {
      var m := Fetch(input, pos, INFIXES);
      if m != [] {
        assert CloseOrInfix(input, st) == Next(LexState(pos + |m|, Prefix, Emit(stack, Token(Infix, Operator, m, []))));
        EmitKeepsFrames(stack, Token(Infix, Operator, m, []));
      } else {
        assert CloseOrInfix(input, st) == Halt(UnexpectedCharacter);
      }
    }
  }

  /** `tokenize`: the loop over the input, proved to compute `Lex`. */
  method Tokenize(input: string) returns (r: Result<Token>)
    ensures r == Lex(input)
  {
    var stack := [ROOT];
    var pos: nat := 0;
    var expected := Prefix;
    while pos < |input|
      invariant pos <= |input| && WellFramed(stack)
      invariant LexFrom(input, LexState(pos, expected, stack)) == Lex(input)
      decreases |input| - pos
    {
      ghost var start := LexState(pos, expected, stack);
      StepKeepsFrames(input, start);
      pos := SkipWhitespaces(input, pos);
      if pos == |input| {
        assert Step(input, start) == Stop(stack);
        break;
      }
      var prefix := ReadPrefix(input, LexState(pos, expected, stack));
      if prefix.Raise? {
        assert Step(input, start) == Halt(prefix.error);
        return Err(prefix.error);
      }
      var operand := ReadOperand(input, prefix.state);
      if operand.Raise? {
        assert Step(input, start) == Halt(operand.error);
        return Err(operand.error);
      } else if operand.Jump? {
        assert Step(input, start) == Next(operand.next);
        pos, expected, stack := operand.next.pos, operand.next.expected, operand.next.stack;
        continue;
      }
      var postfix := ReadPostfix(input, operand.state);
      pos, expected, stack := postfix.pos, postfix.expected, postfix.stack;
      pos := SkipWhitespaces(input, pos);
      if pos == |input| {
        assert Step(input, start) == Stop(stack);
        break;
      }
      var last := ReadCloserOrInfix(input, LexState(pos, expected, stack));
      assert Step(input, start) == last;
      if last.Halt? {
        return Err(last.error);
      }
      pos, expected, stack := last.state.pos, last.state.expected, last.state.stack;
    }
    if |stack| != 1 {
      return Err(UnbalancedDelimiters);
    }
    return Ok(stack[0].token);
  }

  /** The prefix stage of one iteration of `tokenize`. */
  method ReadPrefix(input: string, st: LexState) returns (r: Stage)
    requires st.pos < |input| && st.stack != []
    ensures r == PrefixStage(input, st)
  {
    if st.expected != Prefix {
      return Proceed(st);
    }
    var pos, stack := st.pos, st.stack;
    var m := FetchFirst(input, pos, PREFIXES);
    if m != [] {
      pos := pos + |m|;
      if pos == |input| {
        return Raise(PrefixWithoutOperand);
      }
      stack := Emit(stack, Token(Prefix, Operator, m, []));
    }
    return Proceed(LexState(pos, Operand, stack));
  }

  /** The postfix stage of one iteration of `tokenize`. */
  method ReadPostfix(input: string, st: LexState) returns (r: LexState)
    requires st.pos <= |input| && st.stack != []
    ensures r == PostfixStage(input, st)
  {
    if st.expected != Postfix {
      return st;
    }
    var pos, stack := st.pos, st.stack;
    var m := FetchFirst(input, pos, POSTFIXES);
    if m != [] {
      pos := pos + |m|;
      stack := Emit(stack, Token(Postfix, Operator, m, []));
    }
    return LexState(pos, Infix, stack);
  }

  /** The last stage of one iteration of `tokenize`: a closer, a separator, a `?` or an infix operator. */
  method ReadCloserOrInfix(input: string, st: LexState) returns (r: StepResult)
    requires st.pos < |input| && st.stack != []
    ensures r == CloseOrInfix(input, st)
  {
    var pos, stack := st.pos, st.stack;
    var top := stack[|stack| - 1];
    if Closes(input, pos, top) {
      var closer := top.closer.value;
      pos := pos + |closer|;
      if closer == THEN {
        if |stack| == 1 {
          return Halt(GroupStackEmpty);
        }
        return Next(LexState(pos, Prefix, Open(Pop(stack), Token(Infix, Group, THEN, []), ELSE)));
      }
      if closer == ":" || closer == ELSE {
        if |stack| == 1 {
          return Halt(GroupStackEmpty);
        }
        return Next(LexState(pos, Prefix, Emit(Pop(stack), Token(Infix, Operator, closer, []))));
      }
      return Next(LexState(pos, Postfix, Pop(stack)));
    }
    if st.expected == Infix {
      if input[pos] == ',' {
        return Next(LexState(pos + 1, Prefix, Emit(stack, Token(Infix, Separator, ",", []))));
      }
      if input[pos] == '?' {
        return Next(LexState(pos + 1, Prefix, Open(stack, Token(Infix, Group, "?", []), ":")));
      }
      var m := FetchFirst(input, pos, INFIXES);
      if m != [] {
        return Next(LexState(pos + |m|, Prefix, Emit(stack, Token(Infix, Operator, m, []))));
      }
    }
    return Halt(UnexpectedCharacter);
  }

  /** `fetch`: the loop over the candidates. */
  method FetchFirst(input: string, start: nat, candidates: Spellings) returns (r: string)
    requires start <= |input|
    ensures r == Fetch(input, start, candidates)
  {
    for k := 0 to |candidates|
      invariant Fetch(input, start, candidates) == Fetch(input, start, candidates[k..])
    {
      if StartsWith(input, start, candidates[k]) {
        return candidates[k];
      }
      assert candidates[k..][1..] == candidates[k + 1..];
    }
    return [];
  }

  /** The inner loops of `tokenize` that collect a number or a name. */
  method ConsumeRun(input: string, pos: nat, cls: CharClass) returns (run: string, e: nat)
    requires pos <= |input|
    ensures e == Span(input, pos, cls) && run == input[pos..e]
  {
    run, e := [], pos;
    while e < |input| && InClass(input[e], cls)
      invariant pos <= e <= |input| && run == input[pos..e]
      invariant Span(input, e, cls) == Span(input, pos, cls)
    {
      run := run + [input[e]];
      e := e + 1;
    }
  }

  /** The operand stage of one iteration of `tokenize`. */
  method ReadOperand(input: string, st: LexState) returns (r: Stage)
    requires st.pos < |input| && st.stack != []
    ensures r == OperandStage(input, st)
  {
    var pos, stack := st.pos, st.stack;
    if st.expected != Operand {
      return Proceed(st);
    }
    var keyword := FetchFirst(input, pos, KEYWORDS);
    if keyword != [] {
      pos := pos + |keyword|;
      var value := if keyword == "true" then "1" else "0";
      return Jump(LexState(pos, Infix, Emit(stack, Token(Operand, Number, value, []))));
    } else if StartsWith(input, pos, IF) {
      return Jump(LexState(pos + 2, Prefix, Open(stack, Token(Prefix, Group, IF, []), THEN)));
    } else if StartsWith(input, pos, THEN) || StartsWith(input, pos, ELSE) {
      return Proceed(LexState(pos, Infix, stack));
    } else if IsNumeric(input[pos]) {
      var number, p := ConsumeRun(input, pos, Numeric);
      return Proceed(LexState(p, Postfix, Emit(stack, Token(Operand, Number, number, []))));
    } else if IsAlphanumeric(input[pos]) {
      var name, p := ConsumeRun(input, pos, Word);
      pos := p;
      if pos < |input| && input[pos] == '(' {
        return Jump(LexState(pos + 1, Prefix, Open(stack, Token(Operand, FunctionCall, name, []), ")")));
      } else if StartsWith(input, pos, "[]") {
        return Proceed(LexState(pos + 2, Operand, Emit(stack, Token(Operand, Collection, name, []))));
      } else if pos < |input| && input[pos] == '[' {
        return Jump(LexState(pos + 1, Prefix, Open(stack, Token(Operand, IndexedVariable, name, []), "]")));
      } else if pos < |input| && input[pos] == '{' {
        return Jump(LexState(pos + 1, Prefix, Open(stack, Token(Operand, Aggregation, name, []), "}")));
      }
      return Proceed(LexState(pos, Postfix, Emit(stack, Token(Operand, Variable, name, []))));
    }
    var symbol := FetchFirst(input, pos, SYMBOLIC_NAMES);
    if symbol != [] {
      pos := pos + |symbol|;
      if pos < |input| && input[pos] == '(' {
        return Jump(LexState(pos + 1, Prefix, Open(stack, Token(Operand, FunctionCall, Alias(symbol), []), ")")));
      } else if pos < |input| && input[pos] == '{' {
        return Jump(LexState(pos + 1, Prefix, Open(stack, Token(Operand, Aggregation, Alias(symbol), []), "}")));
      }
      return Raise(SymbolicNameWithoutArguments);
    } else if input[pos] == '(' {
      return Jump(LexState(pos + 1, Prefix, Open(stack, Token(Operand, Group, "", []), ")")));
    } else if input[pos] == '{' {
      return Jump(LexState(pos + 1, Prefix, Open(stack, Token(Operand, Set, "", []), "}")));
    } else if input[pos] == '[' {
      return Jump(LexState(pos + 1, Prefix, Open(stack, Token(Operand, Sequence, "", []), "]")));
    }
    return Raise(UnexpectedOperand);
  }
}

=== FILE: reduction.dfy ===
/**
  The discipline of the operator stack in `buildTree`: an operator is pushed
  only once every pending operator that binds at least as tightly has been
  applied (a pending `_then_` excepted), so operators of equal precedence fold
  to the left; and each separator closes exactly one operand of the list.
 */
module Reduction {
  import opened Basics
  import opened Syntax
  import Lexer
  import opened Builder

  /** `a` binds more loosely than `b`: its precedence number is larger. */
  predicate Looser(a: Kind, b: Kind) {
    Precedence(a).Some? && Precedence(b).Some? && Precedence(a).value > Precedence(b).value
  }

  /**
    Every operator on the stack binds more tightly than the one beneath it,
    except next to a `_then_`.
   */
  predicate Ordered(ops: seq<Kind>) {
    forall j :: 1 <= j < |ops| ==> ops[j] == ThenMark || ops[j - 1] == ThenMark || Looser(ops[j - 1], ops[j])
  }

  /**
    Before `op` is pushed, the reduction leaves only a prefix of the stack
    whose top is a `_then_` or binds more loosely than `op`; an operator of
    equal or tighter precedence is never left beneath `op`.
   */
  lemma ReduceBeforeLeavesLooser(p: Pending, op: Kind)
    ensures var r := ReduceBefore(p, op);
      r.Ok? ==>
        r.value.ops <= p.ops &&
        (r.value.ops != [] ==> var top := r.value.ops[|r.value.ops| - 1]; top == ThenMark || Looser(top, op))
  {
    ReducedStackIsPrefix(p, op);
    ReducedTopIsLooser(p, op);
  }

  /** A top operator that binds at least as tightly as `op` is applied, and the reduction goes on. */
  lemma ReduceBeforeApplies(p: Pending, op: Kind)
    requires p.ops != [] && ApplyTop(p).Ok?
    requires var top := p.ops[|p.ops| - 1];
      Precedence(top).Some? && Precedence(op).Some? && Precedence(top).value <= Precedence(op).value && top != ThenMark
    ensures ReduceBefore(p, op) == ReduceBefore(ApplyTop(p).value, op)
  {
  }

  /**
    Before an infix operator is pushed onto a stack of operators that all have
    a precedence, the lookup in the reduction loop never fails: the reduction
    does not raise the unknown-operator error.
   */
  lemma {:induction false} ReduceBeforeInfixKnown(p: Pending, s: string)
    requires InfixKind(s).Some?
    requires forall i :: 0 <= i < |p.ops| ==> Precedence(p.ops[i]).Some?
    ensures ReduceBefore(p, InfixKind(s).value) != Err(UnknownOperator)
    decreases |p.ops|
  {
    var op := InfixKind(s).value;
    InfixKindsHavePrecedence(s);
    if p.ops != [] {
      var top := p.ops[|p.ops| - 1];
      assert Precedence(top).Some?;
      if Precedence(top).value <= Precedence(op).value && top != ThenMark && ApplyTop(p).Ok? {
        var q := ApplyTop(p).value;
        assert forall i :: 0 <= i < |q.ops| ==> Precedence(q.ops[i]).Some? by {
          forall i | 0 <= i < |q.ops|
            ensures Precedence(q.ops[i]).Some?
          {
            assert q.ops[i] == p.ops[i];
          }
        }
        ReduceBeforeApplies(p, op);
        ReduceBeforeInfixKnown(q, s);
      }
    }
  }

  /** The reduction only pops operators. */
  lemma {:induction false} ReducedStackIsPrefix(p: Pending, op: Kind)
    ensures ReduceBefore(p, op).Ok? ==> ReduceBefore(p, op).value.ops <= p.ops
    decreases |p.ops|
  {
    if p.ops != [] {
      var top := p.ops[|p.ops| - 1];
      if Precedence(top).Some? && Precedence(op).Some? && Precedence(top).value <= Precedence(op).value && top != ThenMark {
        var a := ApplyTop(p);
        if a.Ok? {
          var q := a.value;
          ReduceBeforeApplies(p, op);
          ReducedStackIsPrefix(q, op);
          if ReduceBefore(q, op).Ok? {
            var r := ReduceBefore(q, op).value;
            assert r.ops <= q.ops && q.ops <= p.ops;
          }
        }
      }
    }
  }

  /** The stack is empty, or its top is a `_then_` or binds more loosely than `op`. */
  predicate StopsBefore(ops: seq<Kind>, op: Kind) {
    ops == [] || ops[|ops| - 1] == ThenMark || Looser(ops[|ops| - 1], op)
  }

  /** The reduction stops at a `_then_` or at an operator looser than `op`. */
  lemma {:induction false} ReducedTopIsLooser(p: Pending, op: Kind)
    ensures ReduceBefore(p, op).Ok? ==> StopsBefore(ReduceBefore(p, op).value.ops, op)
    decreases |p.ops|
  {
    if p.ops != [] {
      var top := p.ops[|p.ops| - 1];
      if Precedence(top).None? || Precedence(op).None? {
        assert ReduceBefore(p, op).Err?;
      } else if Precedence(top).value <= Precedence(op).value && top != ThenMark {
        var a := ApplyTop(p);
        if a.Ok? {
          ReduceBeforeApplies(p, op);
          ReducedTopIsLooser(a.value, op);
        } else {
          assert ReduceBefore(p, op).Err?;
        }
      } else {
        assert ReduceBefore(p, op) == Ok(p) && StopsBefore(p.ops, op);
      }
    }
  }

  lemma OrderedPrefix(ops: seq<Kind>, k: nat)
    requires Ordered(ops) && k <= |ops|
    ensures Ordered(ops[..k])
  {
  }

  /** Pushing `op` onto the reduced stack keeps the stack ordered. */
  lemma PushAfterReduceOrdered(p: Pending, op: Kind)
    requires Ordered(p.ops)
    ensures ReduceBefore(p, op).Ok? ==> Ordered(ReduceBefore(p, op).value.ops + [op])
  {
    ReduceBeforeLeavesLooser(p, op);
    if ReduceBefore(p, op).Ok? {
      var ops := ReduceBefore(p, op).value.ops;
      OrderedPrefix(p.ops, |ops|);
      assert ops == p.ops[..|ops|];
      var pushed := ops + [op];
      forall j | 1 <= j < |pushed|
        ensures pushed[j] == ThenMark || pushed[j - 1] == ThenMark || Looser(pushed[j - 1], pushed[j])
      {
        if j < |ops| {
          assert pushed[j] == ops[j] && pushed[j - 1] == ops[j - 1];
        }
      }
    }
  }

  /** One iteration of the token loop keeps the operator stack ordered. */
  lemma StepKeepsOrdered(cfg: Config, tokens: seq<Lexer.Token>, i: nat, st: ListState, topLevel: bool)
    requires i < |tokens| && Ordered(st.pending.ops)
    ensures var r := Step(cfg, tokens, i, st, topLevel);
      r.Ok? ==> Ordered(r.value.pending.ops)
  {
    var t := tokens[i];
    var r := Step(cfg, tokens, i, st, topLevel);
    if t.category.Prefix? && t.tokenType.Group? {
      assert r.Ok? ==> r.value.pending.ops == st.pending.ops;
    } else if t.category.Infix? && t.tokenType.Group? {
      assert r.Ok? ==> r.value.pending.ops == st.pending.ops + [ThenMark];
    } else if t.category.Operand? {
      assert r.Ok? ==> r.value.pending.ops == st.pending.ops;
    } else if t.tokenType.Separator? {
      assert r.Ok? ==> r.value.pending.ops == [];
    } else if t.category.Infix? {
      if InfixKind(t.value).Some? {
        var op := InfixKind(t.value).value;
        PushAfterReduceOrdered(st.pending, op);
        assert r.Ok? ==> r.value.pending.ops == ReduceBefore(st.pending, op).value.ops + [op];
      }
    } else {
      assert r.Ok? ==> r == Ok(st);
    }
  }

  /** The loop over a list keeps its operator stack ordered. */
  lemma {:induction false} RunKeepsOrdered(cfg: Config, tokens: seq<Lexer.Token>, i: nat, st: ListState, topLevel: bool)
    requires Ordered(st.pending.ops)
    ensures var r := Run(cfg, tokens, i, st, topLevel);
      r.Ok? ==> Ordered(r.value.pending.ops)
    decreases |tokens| - i
  {
    if i < |tokens| {
      StepKeepsOrdered(cfg, tokens, i, st, topLevel);
      var next := Step(cfg, tokens, i, st, topLevel);
      if next.Ok? {
        RunKeepsOrdered(cfg, tokens, i + 1, next.value, topLevel);
      }
    }
  }

  // ----- separators and operands -----

  /** The tokens from `from` on that the loop treats as separators. */
  function Separators(tokens: seq<Lexer.Token>, from: nat): nat
    decreases |tokens| - from
  {
    if from >= |tokens| then 0
    else (if tokens[from].tokenType.Separator? && !tokens[from].category.Operand? then 1 else 0) + Separators(tokens, from + 1)
  }

  lemma {:induction false} RunCountsOperands(cfg: Config, tokens: seq<Lexer.Token>, i: nat, st: ListState, topLevel: bool)
    ensures var r := Run(cfg, tokens, i, st, topLevel);
      r.Ok? ==> |r.value.operands| == |st.operands| + Separators(tokens, i)
    decreases |tokens| - i
  {
    if i < |tokens| {
      var next := Step(cfg, tokens, i, st, topLevel);
      if next.Ok? {
        RunCountsOperands(cfg, tokens, i + 1, next.value, topLevel);
      }
    }
  }

  /**
    A list node has one operand per separator-delimited part, after its
    index operand if it has one.
   */
  lemma BuildCountsOperands(cfg: Config, kind: Kind, tokens: seq<Lexer.Token>, index: Option<nat>, tables: Tables, topLevel: bool)
    ensures var r := Build(cfg, kind, tokens, index, tables, topLevel);
      r.Ok? ==>
        r.value.0.kind == kind &&
        |r.value.0.operands| == (if index.Some? then 1 else 0) + Separators(tokens, 0) + 1 &&
        (index.Some? ==> r.value.0.operands[0] == Idx(index.value))
  {
    var start := ListState(if index.Some? then [Idx(index.value)] else [], Pending([], []), tables);
    RunCountsOperands(cfg, tokens, 0, start, topLevel);
    var st := Run(cfg, tokens, 0, start, topLevel);
    if st.Ok? && index.Some? {
      RunKeepsFirstOperand(cfg, tokens, 0, start, topLevel);
    }
  }

  /** The loop only appends operands. */
  lemma {:induction false} RunKeepsFirstOperand(cfg: Config, tokens: seq<Lexer.Token>, i: nat, st: ListState, topLevel: bool)
    ensures var r := Run(cfg, tokens, i, st, topLevel);
      r.Ok? ==> st.operands <= r.value.operands
    decreases |tokens| - i
  {
    if i < |tokens| {
      var next := Step(cfg, tokens, i, st, topLevel);
      if next.Ok? {
        RunKeepsFirstOperand(cfg, tokens, i + 1, next.value, topLevel);
        var r := Run(cfg, tokens, i + 1, next.value, topLevel);
        if r.Ok? {
          assert st.operands == next.value.operands[..|st.operands|] == r.value.operands[..|st.operands|];
        }
      }
    }
  }
}

=== FILE: registry.dfy ===
/**
  The callable registry of limex.h (`Handle`): parallel lists of callable
  names and implementations, filled by `initialize` with fourteen built-ins
  at fixed positions and extended by `add`.

  Values are reals; a boolean result is 1.0 or 0.0 and any non-zero value
  counts as true, as a `double` converted to and from `bool` does in C++.
  `std::pow`, `std::sqrt` and `std::cbrt` are supplied by a `MathLibrary`
  value instead of being computed.
 */
module Registry {
  import opened Basics

  /** An implementation of a callable; it may reject its arguments. */
  type Impl = seq<real> -> Result<real>

  /** The floating-point library functions the built-ins delegate to. */
  datatype MathLibrary = MathLibrary(pow: (real, real) -> real, sqrt: real -> real, cbrt: real -> real)

  function Truth(b: bool): real { if b then 1.0 else 0.0 }

  predicate IsTrue(v: real) { v != 0.0 }

  // ----- the built-in positions (`Expression::BUILTIN`) -----

  const IF_THEN_ELSE: nat := 0
  const N_ARY_IF: nat := 1
  const ABS: nat := 2
  const POW: nat := 3
  const SQRT: nat := 4
  const CBRT: nat := 5
  const SUM: nat := 6
  const AVG: nat := 7
  const COUNT: nat := 8
  const MIN: nat := 9
  const MAX: nat := 10
  const ELEMENT_OF: nat := 11
  const NOT_ELEMENT_OF: nat := 12
  const AT: nat := 13

  const BUILTIN_NAMES: seq<string> := [
    "if_then_else", "n_ary_if", "abs", "pow", "sqrt", "cbrt", "sum", "avg",
    "count", "min", "max", "element_of", "not_element_of", "at"]

  // ----- the built-ins -----

  /** `if_then_else`: exactly three arguments; the second if the first is true, else the third. */
  function IfThenElse(args: seq<real>): (r: Result<real>)
    ensures r.Ok? <==> |args| == 3
    ensures r.Ok? ==> (IsTrue(args[0]) ==> r.value == args[1]) && (!IsTrue(args[0]) ==> r.value == args[2])
  {
    if |args| != 3 then Err(WrongArgumentCount)
    else Ok(if IsTrue(args[0]) then args[1] else args[2])
  }

  /** The branch chosen among the condition/value pairs from pair `i` on, else the last argument. */
  function FirstTrueBranch(args: seq<real>, i: nat): real
    requires |args| % 2 == 1
    decreases |args| / 2 - i
  {
    if i < |args| / 2 then
      if IsTrue(args[2 * i]) then args[2 * i + 1] else FirstTrueBranch(args, i + 1)
    else args[|args| - 1]
  }

  /** `n_ary_if`: arguments `c1, v1, …, cn, vn, default`. */
  function NaryIf(args: seq<real>): (r: Result<real>)
    ensures r.Ok? <==> |args| % 2 == 1
  {
    if |args| == 0 || |args| % 2 != 1 then Err(WrongArgumentCount)
    else Ok(FirstTrueBranch(args, 0))
  }

  /**
    `n_ary_if` returns the value paired with the first true condition, or the
    last argument when no condition is true.
   */
  lemma {:induction false} NaryIfPicksFirstTrue(args: seq<real>, i: nat)
    requires |args| % 2 == 1 && i <= |args| / 2
    ensures var v := FirstTrueBranch(args, i);
      (exists k :: i <= k < |args| / 2 && IsTrue(args[2 * k]) && v == args[2 * k + 1] &&
         forall j :: i <= j < k ==> !IsTrue(args[2 * j])) ||
      (v == args[|args| - 1] && forall j :: i <= j < |args| / 2 ==> !IsTrue(args[2 * j]))
    decreases |args| / 2 - i
  {
    if i < |args| / 2 && !IsTrue(args[2 * i]) {
      NaryIfPicksFirstTrue(args, i + 1);
    }
  }

  /** `abs`: exactly one argument. */
  function Abs(args: seq<real>): (r: Result<real>)
    ensures r.Ok? <==> |args| == 1
    ensures r.Ok? ==> r.value >= 0.0 && (r.value == args[0] || r.value == -args[0])
  {
    if |args| != 1 then Err(WrongArgumentCount)
    else Ok(if args[0] >= 0.0 then args[0] else -args[0])
  }

  /** `pow`: exactly two arguments. */
  function Pow(math: MathLibrary, args: seq<real>): (r: Result<real>)
    ensures r.Ok? <==> |args| == 2
    ensures r.Ok? ==> r.value == math.pow(args[0], args[1])
  {
    if |args| != 2 then Err(WrongArgumentCount) else Ok(math.pow(args[0], args[1]))
  }

  /** `sqrt`: exactly one argument. */
  function Sqrt(math: MathLibrary, args: seq<real>): (r: Result<real>)
    ensures r.Ok? <==> |args| == 1
    ensures r.Ok? ==> r.value == math.sqrt(args[0])
  {
    if |args| != 1 then Err(WrongArgumentCount) else Ok(math.sqrt(args[0]))
  }

  /** `cbrt`: exactly one argument. */
  function Cbrt(math: MathLibrary, args: seq<real>): (r: Result<real>)
    ensures r.Ok? <==> |args| == 1
    ensures r.Ok? ==> r.value == math.cbrt(args[0])
  {
    if |args| != 1 then Err(WrongArgumentCount) else Ok(math.cbrt(args[0]))
  }

  /** The sum of the arguments, accumulated from the left. */
  function Total(args: seq<real>): real {
    if args == [] then 0.0 else Total(args[..|args| - 1]) + args[|args| - 1]
  }

  /** `sum`: any number of arguments. */
  function Sum(args: seq<real>): (r: Result<real>)
    ensures r.Ok? && r.value == Total(args)
  {
    Ok(Total(args))
  }

  /** `avg`: at least one argument. */
  function Avg(args: seq<real>): (r: Result<real>)
    ensures r.Ok? <==> args != []
    ensures r.Ok? ==> r.value * (|args| as real) == Total(args)
  {
    if args == [] then Err(WrongArgumentCount) else Ok(Total(args) / (|args| as real))
  }

  /** `count`: the number of arguments. */
  function Count(args: seq<real>): (r: Result<real>)
    ensures r == Ok(|args| as real)
  {
    Ok(|args| as real)
  }

  /** The least argument. */
  function Least(args: seq<real>): real
    requires args != []
  {
    if |args| == 1 then args[0]
    else var m := Least(args[..|args| - 1]);
      if m > args[|args| - 1] then args[|args| - 1] else m
  }

  /** The greatest argument. */
  function Greatest(args: seq<real>): real
    requires args != []
  {
    if |args| == 1 then args[0]
    else var m := Greatest(args[..|args| - 1]);
      if m < args[|args| - 1] then args[|args| - 1] else m
  }

  /** `Least` is an argument and no argument is smaller. */
  lemma {:induction false} LeastIsMinimum(args: seq<real>)
    requires args != []
    ensures Least(args) in args
    ensures forall k :: 0 <= k < |args| ==> Least(args) <= args[k]
  {
    if |args| > 1 {
      var init := args[..|args| - 1];
      LeastIsMinimum(init);
      assert forall k :: 0 <= k < |init| ==> init[k] == args[k];
    }
  }

  /** `Greatest` is an argument and no argument is larger. */
  lemma {:induction false} GreatestIsMaximum(args: seq<real>)
    requires args != []
    ensures Greatest(args) in args
    ensures forall k :: 0 <= k < |args| ==> args[k] <= Greatest(args)
  {
    if |args| > 1 {
      var init := args[..|args| - 1];
      GreatestIsMaximum(init);
      assert forall k :: 0 <= k < |init| ==> init[k] == args[k];
    }
  }

  /** `min`: at least one argument. */
  function Min(args: seq<real>): (r: Result<real>)
    ensures r.Ok? <==> args != []
  {
    if args == [] then Err(WrongArgumentCount) else Ok(Least(args))
  }

  /** `max`: at least one argument. */
  function Max(args: seq<real>): (r: Result<real>)
    ensures r.Ok? <==> args != []
  {
    if args == [] then Err(WrongArgumentCount) else Ok(Greatest(args))
  }

  /** `element_of`: is the first argument among the others? */
  function ElementOf(args: seq<real>): (r: Result<real>)
    ensures r.Ok? <==> args != []
    ensures r.Ok? ==> (r.value == 1.0 <==> exists k :: 1 <= k < |args| && args[k] == args[0])
    ensures r.Ok? ==> (r.value == 0.0 <==> forall k :: 1 <= k < |args| ==> args[k] != args[0])
  {
    if args == [] then Err(WrongArgumentCount) else Ok(Truth(args[0] in args[1..]))
  }

  /** `not_element_of`: the complement of `element_of`, with the same error. */
  function NotElementOf(args: seq<real>): (r: Result<real>)
    ensures args == [] ==> r == ElementOf(args)
    ensures args != [] ==> r == Ok(1.0 - ElementOf(args).value)
  {
    if args == [] then Err(WrongArgumentCount) else Ok(Truth(args[0] !in args[1..]))
  }

  /** `at`: not available for values that are plain numbers. */
  function At(args: seq<real>): (r: Result<real>)
    ensures r == Err(AtNotSupported)
  {
    Err(AtNotSupported)
  }

  /** The implementations `initialize` registers, in registration order. */
  function Builtins(math: MathLibrary): (r: seq<Impl>)
    ensures |r| == |BUILTIN_NAMES|
  {
    [IfThenElse, NaryIf, Abs, args => Pow(math, args), args => Sqrt(math, args),
     args => Cbrt(math, args), Sum, Avg, Count, Min, Max, ElementOf, NotElementOf, At]
  }

  // ----- the accumulator loops of the built-ins -----

  /** The loop of `sum` and `avg`. */
  method Accumulate(args: seq<real>) returns (total: real)
    ensures total == Total(args)
  {
    total := 0.0;
    for i := 0 to |args|
      invariant total == Total(args[..i])
    {
      assert args[..i + 1][..i] == args[..i];
      total := total + args[i];
    }
    assert args[..|args|] == args;
  }

  /** The loop of `avg`. */
  method Average(args: seq<real>) returns (r: Result<real>)
    ensures r == Avg(args)
  {
    if args == [] {
      return Err(WrongArgumentCount);
    }
    var total := Accumulate(args);
    return Ok(total / (|args| as real));
  }

  /** The loop of `min`; the first argument stands in for the `DBL_MAX` seed. */
  method Minimum(args: seq<real>) returns (r: Result<real>)
    ensures r == Min(args)
  {
    if args == [] {
      return Err(WrongArgumentCount);
    }
    var result := args[0];
    for i := 1 to |args|
      invariant result == Least(args[..i])
    {
      assert args[..i + 1][..i] == args[..i];
      if result > args[i] {
        result := args[i];
      }
    }
    assert args[..|args|] == args;
    return Ok(result);
  }

  /** The loop of `max`; the first argument stands in for the `-DBL_MAX` seed. */
  method Maximum(args: seq<real>) returns (r: Result<real>)
    ensures r == Max(args)
  {
    if args == [] {
      return Err(WrongArgumentCount);
    }
    var result := args[0];
    for i := 1 to |args|
      invariant result == Greatest(args[..i])
    {
      assert args[..i + 1][..i] == args[..i];
      if result < args[i] {
        result := args[i];
      }
    }
    assert args[..|args|] == args;
    return Ok(result);
  }

  /** The loop of `n_ary_if`. */
  method ChooseBranch(args: seq<real>) returns (r: Result<real>)
    ensures r == NaryIf(args)
  {
    if |args| == 0 || |args| % 2 != 1 {
      return Err(WrongArgumentCount);
    }
    for i := 0 to |args| / 2
      invariant FirstTrueBranch(args, i) == FirstTrueBranch(args, 0)
    {
      if IsTrue(args[2 * i]) {
        return Ok(args[2 * i + 1]);
      }
    }
    return Ok(args[|args| - 1]);
  }

  /** The loop of `element_of` (`found` true) and of `not_element_of` (`found` false). */
  method Member(args: seq<real>, found: bool) returns (r: Result<real>)
    ensures r == if found then ElementOf(args) else NotElementOf(args)
  {
    if args == [] {
      return Err(WrongArgumentCount);
    }
    for i := 1 to |args|
      invariant args[0] !in args[1..i]
    {
      if args[0] == args[i] {
        assert args[i] in args[1..];
        return Ok(Truth(found));
      }
    }
    assert args[1..|args|] == args[1..];
    return Ok(Truth(!found));
  }

  // ----- the registry -----

  /** `Handle::getIndex`: the first position of `name`; an unknown name raises. */
  function CallableIndex(names: seq<string>, name: string): (r: Result<nat>)
    ensures r.Ok? <==> name in names
    ensures r.Err? ==> r.error == UnknownCallable
    ensures r.Ok? ==>
      r.value < |names| && names[r.value] == name && (forall j :: 0 <= j < r.value ==> names[j] != name)
  {
    match FirstIndexOf(names, name)
    case None => Err(UnknownCallable)
    case Some(k) => Ok(k)
  }

  /**
    Appending a new name leaves every earlier name at its position and puts the
    new one at the end.
   */
  lemma AppendKeepsIndices(names: seq<string>, name: string)
    requires Distinct(names) && name !in names
    ensures Distinct(names + [name])
    ensures forall i :: 0 <= i < |names| ==> CallableIndex(names + [name], names[i]) == Ok(i)
    ensures CallableIndex(names + [name], name) == Ok(|names|)
  {
    var extended := names + [name];
    assert forall j :: 0 <= j < |names| ==> extended[j] == names[j];
    assert extended[|names|] == name;
  }

  lemma BuiltinNamesDistinct()
    ensures Distinct(BUILTIN_NAMES)
  {
  }

  /** The callables known to an expression: parallel lists of names and implementations. */
  class Handle {
    var names: seq<string>
    var implementations: seq<Impl>

    ghost predicate Valid()
      reads this
    {
      |names| == |implementations| && Distinct(names)
    }

    /** The built-ins occupy their fixed positions. */
    ghost predicate HasBuiltins(math: MathLibrary)
      reads this
    {
      |names| >= |BUILTIN_NAMES| && |implementations| >= |BUILTIN_NAMES| &&
      names[..|BUILTIN_NAMES|] == BUILTIN_NAMES &&
      implementations[..|BUILTIN_NAMES|] == Builtins(math)
    }

    /** `Handle()` with `initialize`: registers the fourteen built-ins. */
    constructor (math: MathLibrary)
      ensures Valid() && names == BUILTIN_NAMES && implementations == Builtins(math)
      ensures HasBuiltins(math)
    {
      names := [];
      implementations := [];
      new;
      var b := Builtins(math);
      var n := BUILTIN_NAMES;
      BuiltinNamesDistinct();
      for i := 0 to |n|
        invariant Valid() && names == n[..i] && implementations == b[..i]
      {
        assert n[i] !in n[..i];
        var o := Add(n[i], b[i]);
      }
      assert n[..|n|] == n && b[..|b|] == b;
    }

    /** `add`: a name already present raises; otherwise both lists grow by one. */
    method Add(name: string, implementation: Impl) returns (o: Outcome)
      requires Valid()
      modifies this
      ensures Valid()
      ensures name in old(names) ==>
        o == Fail(DuplicateCallable) && names == old(names) && implementations == old(implementations)
      ensures name !in old(names) ==>
        o == Pass && names == old(names) + [name] && implementations == old(implementations) + [implementation]
    {
      if name in names {
        return Fail(DuplicateCallable);
      }
      AppendKeepsIndices(names, name);
      names := names + [name];
      implementations := implementations + [implementation];
      return Pass;
    }

    /** `getIndex`: the loop over the names. */
    method GetIndex(name: string) returns (r: Result<nat>)
      ensures r == CallableIndex(names, name)
    {
      for i := 0 to |names|
        invariant name !in names[..i]
      {
        if names[i] == name {
          return Ok(i);
        }
      }
      assert names[..|names|] == names;
      return Err(UnknownCallable);
    }
  }
}

=== FILE: scenarios.dfy ===
/**
  How `buildTree` shapes a chain of two infix operators, and the values that
  limex.h's own test list states for such chains. Numbers evaluate exactly
  (reals).
 */
module Scenarios {
  import opened Basics
  import opened Syntax
  import Lexer
  import opened Registry
  import opened Builder
  import opened Evaluator
  import LexedInputs

  function Num(v: string): Lexer.Token { Lexer.Token(Lexer.Operand, Lexer.Number, v, []) }
  function Op(s: string): Lexer.Token { Lexer.Token(Lexer.Infix, Lexer.Operator, s, []) }
  function Branch(s: string, children: seq<Lexer.Token>): Lexer.Token { Lexer.Token(Lexer.Infix, Lexer.Group, s, children) }
  function Value(v: real): Node { Node(Literal, [Lit(v)]) }
  function Binary(k: Kind, l: Node, r: Node): Node { Node(k, [Sub(l), Sub(r)]) }

  /** An infix operator that combines two nodes into one (no assignment, no ternary part). */
  predicate Plain(k: Kind) {
    Precedence(k).Some? && !IsAssignment(k) && k != ThenMark && k != ElseMark
  }

  // ----- single iterations of the token loop -----

  /** A number token followed by no postfix operator and preceded by no prefix operator. */
  predicate NumberAt(tokens: seq<Lexer.Token>, i: nat, v: real) {
    i < |tokens| && tokens[i] == Num(tokens[i].value) &&
    ParseNumber(tokens[i].value) == Ok(v) &&
    (i + 1 < |tokens| ==> !tokens[i + 1].category.Postfix?) &&
    (i > 0 ==> !tokens[i - 1].category.Prefix?)
  }

  /** An infix operator token that is no assignment. */
  predicate OperatorAt(tokens: seq<Lexer.Token>, i: nat, op: Kind) {
    i < |tokens| && tokens[i] == Op(tokens[i].value) &&
    InfixKind(tokens[i].value) == Some(op) && !IsAssignment(op)
  }

  lemma NumberRun(cfg: Config, tokens: seq<Lexer.Token>, i: nat, st: ListState, topLevel: bool, v: real)
    requires NumberAt(tokens, i, v)
    ensures Run(cfg, tokens, i, st, topLevel)
            == Run(cfg, tokens, i + 1, ListState(st.operands, Pending(st.pending.nodes + [Value(v)], st.pending.ops), st.tables), topLevel)
  {
    assert Step(cfg, tokens, i, st, topLevel) == Ok(ListState(st.operands, Pending(st.pending.nodes + [Value(v)], st.pending.ops), st.tables));
  }

  lemma OperatorRun(cfg: Config, tokens: seq<Lexer.Token>, i: nat, st: ListState, topLevel: bool, op: Kind, q: Pending)
    requires OperatorAt(tokens, i, op) && ReduceBefore(st.pending, op) == Ok(q)
    ensures Run(cfg, tokens, i, st, topLevel) == Run(cfg, tokens, i + 1, ListState(st.operands, Pending(q.nodes, q.ops + [op]), st.tables), topLevel)
  {
    assert Step(cfg, tokens, i, st, topLevel) == Ok(ListState(st.operands, Pending(q.nodes, q.ops + [op]), st.tables));
  }

  /** A number followed by an infix operator. */
  lemma PairRun(cfg: Config, tokens: seq<Lexer.Token>, i: nat, nodes: seq<Node>, ops: seq<Kind>, tables: Tables, topLevel: bool,
                v: real, op: Kind, q: Pending)
    requires NumberAt(tokens, i, v) && OperatorAt(tokens, i + 1, op)
    requires ReduceBefore(Pending(nodes + [Value(v)], ops), op) == Ok(q)
    ensures Run(cfg, tokens, i, ListState([], Pending(nodes, ops), tables), topLevel)
            == Run(cfg, tokens, i + 2, ListState([], Pending(q.nodes, q.ops + [op]), tables), topLevel)
  {
    var st := ListState([], Pending(nodes, ops), tables);
    NumberRun(cfg, tokens, i, st, topLevel, v);
    OperatorRun(cfg, tokens, i + 1, ListState([], Pending(nodes + [Value(v)], ops), tables), topLevel, op, q);
  }

  /** A list that starts with a number and an infix operator. */
  lemma HeadRun(cfg: Config, tokens: seq<Lexer.Token>, tables: Tables, topLevel: bool, v: real, op: Kind)
    requires NumberAt(tokens, 0, v) && OperatorAt(tokens, 1, op)
    ensures Run(cfg, tokens, 0, ListState([], Pending([], []), tables), topLevel)
            == Run(cfg, tokens, 2, ListState([], Pending([Value(v)], [op]), tables), topLevel)
  {
    assert [] + [Value(v)] == [Value(v)];
    ReduceBeforeEmpty(Pending([Value(v)], []), op);
    PairRun(cfg, tokens, 0, [], [], tables, topLevel, v, op, Pending([Value(v)], []));
    assert [] + [op] == [op];
  }

  /** An operator that binds at least as tightly as the next one is applied before it is pushed. */
  lemma ReducePlain(l: Node, r: Node, k: Kind, op: Kind)
    requires Plain(k) && Plain(op) && Precedence(k).value <= Precedence(op).value
    ensures ReduceBefore(Pending([l, r], [k]), op) == Ok(Pending([Binary(k, l, r)], []))
  {
    ApplyPlain([], l, r, [], k);
    assert ReduceBefore(Pending([Binary(k, l, r)], []), op) == Ok(Pending([Binary(k, l, r)], []));
  }

  /** An operator that binds more loosely than the next one stays pending. */
  lemma ReduceStops(l: Node, r: Node, k: Kind, op: Kind)
    requires Plain(k) && Plain(op) && Precedence(k).value > Precedence(op).value
    ensures ReduceBefore(Pending([l, r], [k]), op) == Ok(Pending([l, r], [k]))
  {
  }

  /** Reduction stops at a pending `_then_`. */
  lemma ReduceStopsAtBranch(p: Pending, op: Kind)
    requires p.ops != [] && p.ops[|p.ops| - 1] == ThenMark && Precedence(op).Some?
    ensures ReduceBefore(p, op) == Ok(p)
  {
  }

  /** The last token of the list is a number. */
  lemma LastNumberRun(cfg: Config, tokens: seq<Lexer.Token>, i: nat, nodes: seq<Node>, ops: seq<Kind>, tables: Tables, topLevel: bool, v: real)
    requires i + 1 == |tokens| && NumberAt(tokens, i, v)
    ensures Run(cfg, tokens, i, ListState([], Pending(nodes, ops), tables), topLevel)
            == Ok(ListState([], Pending(nodes + [Value(v)], ops), tables))
  {
    NumberRun(cfg, tokens, i, ListState([], Pending(nodes, ops), tables), topLevel, v);
    RunEnds(cfg, tokens, ListState([], Pending(nodes + [Value(v)], ops), tables), topLevel);
  }

  /** At the end of a list, one pending operator combines the two nodes. */
  lemma ReduceAllOne(l: Node, r: Node, k: Kind)
    requires Plain(k)
    ensures ReduceAll(Pending([l, r], [k])) == Ok(Pending([Binary(k, l, r)], []))
  {
    ApplyPlain([], l, r, [], k);
    assert ReduceAll(Pending([Binary(k, l, r)], [])) == Ok(Pending([Binary(k, l, r)], []));
  }

  /** At the end of a list, two pending operators are applied topmost first. */
  lemma ReduceAllTwo(a: Node, b: Node, c: Node, k1: Kind, k2: Kind)
    requires Plain(k1) && Plain(k2)
    ensures ReduceAll(Pending([a, b, c], [k1, k2])) == Ok(Pending([Binary(k1, a, Binary(k2, b, c))], []))
  {
    ApplyPlain([a], b, c, [k1], k2);
    assert [a] + [b, c] == [a, b, c] && [k1] + [k2] == [k1, k2];
    ReduceAllOne(a, Binary(k2, b, c), k1);
    assert [a] + [Binary(k2, b, c)] == [a, Binary(k2, b, c)];
  }

  /** The list ends with a number, an infix operator and a number. */
  lemma TailRun(cfg: Config, tokens: seq<Lexer.Token>, i: nat, nodes: seq<Node>, ops: seq<Kind>, tables: Tables, topLevel: bool,
                v: real, op: Kind, q: Pending, w: real)
    requires i + 3 == |tokens| && NumberAt(tokens, i, v) && OperatorAt(tokens, i + 1, op) && NumberAt(tokens, i + 2, w)
    requires ReduceBefore(Pending(nodes + [Value(v)], ops), op) == Ok(q)
    ensures Run(cfg, tokens, i, ListState([], Pending(nodes, ops), tables), topLevel)
            == Ok(ListState([], Pending(q.nodes + [Value(w)], q.ops + [op]), tables))
  {
    PairRun(cfg, tokens, i, nodes, ops, tables, topLevel, v, op, q);
    LastNumberRun(cfg, tokens, i + 2, q.nodes, q.ops + [op], tables, topLevel, w);
  }

  lemma ReduceBeforeEmpty(p: Pending, op: Kind)
    requires p.ops == []
    ensures ReduceBefore(p, op) == Ok(p)
  {
  }

  lemma RunEnds(cfg: Config, tokens: seq<Lexer.Token>, st: ListState, topLevel: bool)
    ensures Run(cfg, tokens, |tokens|, st, topLevel) == Ok(st)
  {
  }

  /** A list without an index operand is built from the state the loop ends in. */
  lemma BuildFromRun(cfg: Config, kind: Kind, tokens: seq<Lexer.Token>, tables: Tables, topLevel: bool, st: ListState, n: Node)
    requires Run(cfg, tokens, 0, ListState([], Pending([], []), tables), topLevel) == Ok(st)
    requires st.operands == [] && ReduceAll(st.pending) == Ok(Pending([n], []))
    ensures Build(cfg, kind, tokens, None, tables, topLevel) == Ok((Node(kind, [Sub(n)]), st.tables))
  {
    assert Complete(kind, [], st.pending) == Ok(Node(kind, [Sub(n)]));
  }

  /** The top operator combines the two topmost nodes. */
  lemma ApplyPlain(below: seq<Node>, l: Node, r: Node, ops: seq<Kind>, k: Kind)
    requires Plain(k)
    ensures ApplyTop(Pending(below + [l, r], ops + [k])) == Ok(Pending(below + [Binary(k, l, r)], ops))
  {
    var p := Pending(below + [l, r], ops + [k]);
    var n := |p.nodes|;
    assert p.nodes[n - 2] == l && p.nodes[n - 1] == r && p.nodes[..n - 2] == below;
    assert p.ops[..|p.ops| - 1] == ops;
  }

  lemma PairShape(a: string, o: string, b: string, va: real, vb: real, k: Kind)
    requires ParseNumber(a) == Ok(va) && ParseNumber(b) == Ok(vb)
    requires InfixKind(o) == Some(k) && !IsAssignment(k)
    ensures var tokens := [Num(a), Op(o), Num(b)];
      NumberAt(tokens, 0, va) && OperatorAt(tokens, 1, k) && NumberAt(tokens, 2, vb)
  {
  }

  lemma ChainShape(a: string, o1: string, b: string, o2: string, c: string, va: real, vb: real, vc: real, k1: Kind, k2: Kind)
    requires ParseNumber(a) == Ok(va) && ParseNumber(b) == Ok(vb) && ParseNumber(c) == Ok(vc)
    requires InfixKind(o1) == Some(k1) && InfixKind(o2) == Some(k2) && !IsAssignment(k1) && !IsAssignment(k2)
    ensures var tokens := [Num(a), Op(o1), Num(b), Op(o2), Num(c)];
      NumberAt(tokens, 0, va) && OperatorAt(tokens, 1, k1) && NumberAt(tokens, 2, vb) &&
      OperatorAt(tokens, 3, k2) && NumberAt(tokens, 4, vc)
  {
  }

  /** Two operands joined by one infix operator. */
  lemma SingleOperatorList(cfg: Config, kind: Kind, a: string, o: string, b: string,
                           va: real, vb: real, k: Kind, tables: Tables, topLevel: bool)
    requires ParseNumber(a) == Ok(va) && ParseNumber(b) == Ok(vb)
    requires InfixKind(o) == Some(k) && Plain(k)
    ensures Build(cfg, kind, [Num(a), Op(o), Num(b)], None, tables, topLevel)
            == Ok((Node(kind, [Sub(Binary(k, Value(va), Value(vb)))]), tables))
  {
    var tokens := [Num(a), Op(o), Num(b)];
    PairShape(a, o, b, va, vb, k);
    assert [] + [Value(va)] == [Value(va)];
    ReduceBeforeEmpty(Pending([Value(va)], []), k);
    TailRun(cfg, tokens, 0, [], [], tables, topLevel, va, k, Pending([Value(va)], []), vb);
    assert [Value(va)] + [Value(vb)] == [Value(va), Value(vb)] && [] + [k] == [k];
    ReduceAllOne(Value(va), Value(vb), k);
    BuildFromRun(cfg, kind, tokens, tables, topLevel, ListState([], Pending([Value(va), Value(vb)], [k]), tables), Binary(k, Value(va), Value(vb)));
  }

  /** The token loop over `a o1 b o2 c` when `o1` binds at least as tightly as `o2`. */
  lemma LeftChainRun(cfg: Config, tokens: seq<Lexer.Token>, tables: Tables, topLevel: bool,
                     va: real, vb: real, vc: real, k1: Kind, k2: Kind)
    requires |tokens| == 5 && NumberAt(tokens, 0, va) && OperatorAt(tokens, 1, k1) && NumberAt(tokens, 2, vb)
    requires OperatorAt(tokens, 3, k2) && NumberAt(tokens, 4, vc)
    requires Plain(k1) && Plain(k2) && Precedence(k1).value <= Precedence(k2).value
    ensures Run(cfg, tokens, 0, ListState([], Pending([], []), tables), topLevel)
            == Ok(ListState([], Pending([Binary(k1, Value(va), Value(vb)), Value(vc)], [k2]), tables))
  {
    HeadRun(cfg, tokens, tables, topLevel, va, k1);
    var first := Binary(k1, Value(va), Value(vb));
    assert [Value(va)] + [Value(vb)] == [Value(va), Value(vb)];
    ReducePlain(Value(va), Value(vb), k1, k2);
    TailRun(cfg, tokens, 2, [Value(va)], [k1], tables, topLevel, vb, k2, Pending([first], []), vc);
    assert [first] + [Value(vc)] == [first, Value(vc)] && [] + [k2] == [k2];
  }

  /** The token loop over `a o1 b o2 c` when `o2` binds more tightly than `o1`. */
  lemma RightChainRun(cfg: Config, tokens: seq<Lexer.Token>, tables: Tables, topLevel: bool,
                      va: real, vb: real, vc: real, k1: Kind, k2: Kind)
    requires |tokens| == 5 && NumberAt(tokens, 0, va) && OperatorAt(tokens, 1, k1) && NumberAt(tokens, 2, vb)
    requires OperatorAt(tokens, 3, k2) && NumberAt(tokens, 4, vc)
    requires Plain(k1) && Plain(k2) && Precedence(k1).value > Precedence(k2).value
    ensures Run(cfg, tokens, 0, ListState([], Pending([], []), tables), topLevel)
            == Ok(ListState([], Pending([Value(va), Value(vb), Value(vc)], [k1, k2]), tables))
  {
    HeadRun(cfg, tokens, tables, topLevel, va, k1);
    var held := Pending([Value(va), Value(vb)], [k1]);
    assert [Value(va)] + [Value(vb)] == held.nodes;
    ReduceStops(Value(va), Value(vb), k1, k2);
    TailRun(cfg, tokens, 2, [Value(va)], [k1], tables, topLevel, vb, k2, held, vc);
    assert held.nodes + [Value(vc)] == [Value(va), Value(vb), Value(vc)] && held.ops + [k2] == [k1, k2];
  }

  /**
    `a o1 b o2 c` with `o1` binding at least as tightly as `o2`: `o1` is
    applied first, so operators of equal precedence fold to the left.
   */
  lemma FirstOperatorAppliesFirst(cfg: Config, kind: Kind, a: string, o1: string, b: string, o2: string, c: string,
                                  va: real, vb: real, vc: real, k1: Kind, k2: Kind, tables: Tables, topLevel: bool)
    requires ParseNumber(a) == Ok(va) && ParseNumber(b) == Ok(vb) && ParseNumber(c) == Ok(vc)
    requires InfixKind(o1) == Some(k1) && InfixKind(o2) == Some(k2) && Plain(k1) && Plain(k2)
    requires Precedence(k1).value <= Precedence(k2).value
    ensures Build(cfg, kind, [Num(a), Op(o1), Num(b), Op(o2), Num(c)], None, tables, topLevel)
            == Ok((Node(kind, [Sub(Binary(k2, Binary(k1, Value(va), Value(vb)), Value(vc)))]), tables))
  {
    var tokens := [Num(a), Op(o1), Num(b), Op(o2), Num(c)];
    ChainShape(a, o1, b, o2, c, va, vb, vc, k1, k2);
    LeftChainRun(cfg, tokens, tables, topLevel, va, vb, vc, k1, k2);
    var first := Binary(k1, Value(va), Value(vb));
    ReduceAllOne(first, Value(vc), k2);
    BuildFromRun(cfg, kind, tokens, tables, topLevel, ListState([], Pending([first, Value(vc)], [k2]), tables), Binary(k2, first, Value(vc)));
  }

  /**
    `a o1 b o2 c` with `o2` binding more tightly than `o1`: `o2` takes `b`
    as its left operand and is applied first.
   */
  lemma TighterOperatorAppliesFirst(cfg: Config, kind: Kind, a: string, o1: string, b: string, o2: string, c: string,
                                    va: real, vb: real, vc: real, k1: Kind, k2: Kind, tables: Tables, topLevel: bool)
    requires ParseNumber(a) == Ok(va) && ParseNumber(b) == Ok(vb) && ParseNumber(c) == Ok(vc)
    requires InfixKind(o1) == Some(k1) && InfixKind(o2) == Some(k2) && Plain(k1) && Plain(k2)
    requires Precedence(k1).value > Precedence(k2).value
    ensures Build(cfg, kind, [Num(a), Op(o1), Num(b), Op(o2), Num(c)], None, tables, topLevel)
            == Ok((Node(kind, [Sub(Binary(k1, Value(va), Binary(k2, Value(vb), Value(vc))))]), tables))
  {
    var tokens := [Num(a), Op(o1), Num(b), Op(o2), Num(c)];
    ChainShape(a, o1, b, o2, c, va, vb, vc, k1, k2);
    RightChainRun(cfg, tokens, tables, topLevel, va, vb, vc, k1, k2);
    ReduceAllTwo(Value(va), Value(vb), Value(vc), k1, k2);
    BuildFromRun(cfg, kind, tokens, tables, topLevel, ListState([], Pending([Value(va), Value(vb), Value(vc)], [k1, k2]), tables),
                 Binary(k1, Value(va), Binary(k2, Value(vb), Value(vc))));
  }

  // ----- a ternary after a comparison -----

  /** A list holding one number. */
  lemma SingleNumberList(cfg: Config, kind: Kind, a: string, va: real, tables: Tables, topLevel: bool)
    requires ParseNumber(a) == Ok(va)
    ensures Build(cfg, kind, [Num(a)], None, tables, topLevel) == Ok((Node(kind, [Sub(Value(va))]), tables))
  {
    var tokens := [Num(a)];
    assert NumberAt(tokens, 0, va);
    LastNumberRun(cfg, tokens, 0, [], [], tables, topLevel, va);
    assert [] + [Value(va)] == [Value(va)];
    assert ReduceAll(Pending([Value(va)], [])) == Ok(Pending([Value(va)], []));
    BuildFromRun(cfg, kind, tokens, tables, topLevel, ListState([], Pending([Value(va)], []), tables), Value(va));
  }

  /** A `?` or `then` branch holding one number: its node and a `_then_` are pushed, and nothing is reduced. */
  lemma BranchRun(cfg: Config, tokens: seq<Lexer.Token>, i: nat, st: ListState, topLevel: bool, a: string, va: real)
    requires i < |tokens| && tokens[i] == Branch(tokens[i].value, [Num(a)]) && ParseNumber(a) == Ok(va)
    ensures Run(cfg, tokens, i, st, topLevel)
            == Run(cfg, tokens, i + 1, ListState(st.operands, Pending(st.pending.nodes + [Node(ThenMark, [Sub(Value(va))])],
                                                                     st.pending.ops + [ThenMark]), st.tables), topLevel)
  {
    SingleNumberList(cfg, ThenMark, a, va, st.tables, false);
  }

  /**
    At the end of a list holding `x o c _then_ e`, the `_else` takes the
    condition, the branch as a group and the alternative, and then `o`
    combines `x` with the choice.
   */
  lemma ReduceTernary(x: Node, c: Node, t: Node, e: Node, k: Kind)
    requires Plain(k) && c.kind != IfMark
    ensures var choice := Node(IfThenElse, [Sub(c), Sub(Node(Group, [Sub(t)])), Sub(e)]);
      ReduceAll(Pending([x, c, Node(ThenMark, [Sub(t)]), e], [k, ThenMark, ElseMark])) == Ok(Pending([Binary(k, x, choice)], []))
  {
    var choice := Node(IfThenElse, [Sub(c), Sub(Node(Group, [Sub(t)])), Sub(e)]);
    var p := Pending([x, c, Node(ThenMark, [Sub(t)]), e], [k, ThenMark, ElseMark]);
    assert p.nodes[..1] == [x] && p.ops[..1] == [k];
    assert ApplyTop(p) == Ok(Pending([x] + [choice], [k]));
    assert [x] + [choice] == [x, choice];
    ReduceAllOne(x, choice, k);
  }

  lemma TernaryShape(a: string, o: string, b: string, q: string, c: string, e: string, d: string,
                     va: real, vb: real, vd: real, k: Kind)
    requires ParseNumber(a) == Ok(va) && ParseNumber(b) == Ok(vb) && ParseNumber(d) == Ok(vd)
    requires InfixKind(o) == Some(k) && !IsAssignment(k) && InfixKind(e) == Some(ElseMark)
    ensures var tokens := [Num(a), Op(o), Num(b), Branch(q, [Num(c)]), Op(e), Num(d)];
      NumberAt(tokens, 0, va) && OperatorAt(tokens, 1, k) && NumberAt(tokens, 2, vb) &&
      tokens[3] == Branch(q, [Num(c)]) && OperatorAt(tokens, 4, ElseMark) && NumberAt(tokens, 5, vd)
  {
  }

  /** The token loop over `a o b ? c`, up to the `:`. */
  lemma BranchedRun(cfg: Config, tokens: seq<Lexer.Token>, topLevel: bool, c: string, va: real, vb: real, vc: real, k: Kind)
    requires |tokens| > 4 && NumberAt(tokens, 0, va) && OperatorAt(tokens, 1, k) && NumberAt(tokens, 2, vb)
    requires tokens[3] == Branch(tokens[3].value, [Num(c)]) && ParseNumber(c) == Ok(vc)
    ensures Run(cfg, tokens, 0, ListState([], Pending([], []), NO_TABLES), topLevel)
            == Run(cfg, tokens, 4, ListState([], Pending([Value(va), Value(vb), Node(ThenMark, [Sub(Value(vc))])], [k, ThenMark]), NO_TABLES), topLevel)
  {
    HeadRun(cfg, tokens, NO_TABLES, topLevel, va, k);
    var st2 := ListState([], Pending([Value(va)], [k]), NO_TABLES);
    NumberRun(cfg, tokens, 2, st2, topLevel, vb);
    assert [Value(va)] + [Value(vb)] == [Value(va), Value(vb)];
    var st3 := ListState([], Pending([Value(va), Value(vb)], [k]), NO_TABLES);
    BranchRun(cfg, tokens, 3, st3, topLevel, c, vc);
    var branch := Node(ThenMark, [Sub(Value(vc))]);
    assert [Value(va), Value(vb)] + [branch] == [Value(va), Value(vb), branch] && [k] + [ThenMark] == [k, ThenMark];
  }

  /** The token loop over `a o b ? c : d`. */
  lemma ComparedTernaryRun(cfg: Config, tokens: seq<Lexer.Token>, topLevel: bool, c: string, va: real, vb: real, vc: real, vd: real, k: Kind)
    requires |tokens| == 6 && NumberAt(tokens, 0, va) && OperatorAt(tokens, 1, k) && NumberAt(tokens, 2, vb)
    requires tokens[3] == Branch(tokens[3].value, [Num(c)]) && ParseNumber(c) == Ok(vc)
    requires OperatorAt(tokens, 4, ElseMark) && NumberAt(tokens, 5, vd)
    ensures Run(cfg, tokens, 0, ListState([], Pending([], []), NO_TABLES), topLevel)
            == Ok(ListState([], Pending([Value(va), Value(vb), Node(ThenMark, [Sub(Value(vc))]), Value(vd)], [k, ThenMark, ElseMark]), NO_TABLES))
  {
    BranchedRun(cfg, tokens, topLevel, c, va, vb, vc, k);
    var nodes := [Value(va), Value(vb), Node(ThenMark, [Sub(Value(vc))])];
    ElseRun(cfg, tokens, topLevel, nodes, k, vd);
    assert nodes + [Value(vd)] == [Value(va), Value(vb), Node(ThenMark, [Sub(Value(vc))]), Value(vd)];
  }

  /** The token loop over `: d` at the end of a list whose stack ends with a branch. */
  lemma ElseRun(cfg: Config, tokens: seq<Lexer.Token>, topLevel: bool, nodes: seq<Node>, k: Kind, vd: real)
    requires |tokens| == 6 && OperatorAt(tokens, 4, ElseMark) && NumberAt(tokens, 5, vd)
    ensures Run(cfg, tokens, 4, ListState([], Pending(nodes, [k, ThenMark]), NO_TABLES), topLevel)
            == Ok(ListState([], Pending(nodes + [Value(vd)], [k, ThenMark, ElseMark]), NO_TABLES))
  {
    var st4 := ListState([], Pending(nodes, [k, ThenMark]), NO_TABLES);
    ReduceStopsAtBranch(st4.pending, ElseMark);
    OperatorRun(cfg, tokens, 4, st4, topLevel, ElseMark, st4.pending);
    assert [k, ThenMark] + [ElseMark] == [k, ThenMark, ElseMark];
    LastNumberRun(cfg, tokens, 5, nodes, [k, ThenMark, ElseMark], NO_TABLES, topLevel, vd);
  }

  // ----- evaluation of the shaped trees -----

  /** The value of an addition or subtraction node is the operator applied to its operands' values, left operand first. */
  lemma EvalArithmetic(k: Kind, l: Node, r: Node, s: Scope, b: Bindings)
    requires k == Add || k == Subtract
    requires Eval(l, s, b).Ok? && Eval(r, s, b).Ok?
    ensures var x, y := Eval(l, s, b).value, Eval(r, s, b).value;
      Eval(Binary(k, l, r), s, b) == Ok(if k == Add then x + y else x - y)
  {
    var n := Binary(k, l, r);
    assert EvalChild(n, 0, s, b) == Eval(l, s, b) && EvalChild(n, 1, s, b) == Eval(r, s, b);
    assert EvalPair(n, s, b) == Ok((Eval(l, s, b).value, Eval(r, s, b).value));
    if k == Add {
      assert Eval(n, s, b) == Ok(Eval(l, s, b).value + Eval(r, s, b).value);
    } else {
      assert Eval(n, s, b) == Ok(Eval(l, s, b).value - Eval(r, s, b).value);
    }
  }

  /** With the built-in implementations registered, `^` is the handle's `pow` of the two operand values. */
  lemma EvalPower(math: MathLibrary, l: Node, r: Node, collectionCount: nat, b: Bindings)
    requires Eval(l, Scope(Builtins(math), collectionCount), b).Ok? && Eval(r, Scope(Builtins(math), collectionCount), b).Ok?
    ensures var s := Scope(Builtins(math), collectionCount);
      Eval(Binary(Exponentiate, l, r), s, b) == Ok(math.pow(Eval(l, s, b).value, Eval(r, s, b).value))
  {
    var s := Scope(Builtins(math), collectionCount);
    var n := Binary(Exponentiate, l, r);
    var x, y := Eval(l, s, b).value, Eval(r, s, b).value;
    assert EvalChild(n, 0, s, b) == Ok(x) && EvalChild(n, 1, s, b) == Ok(y);
    assert EvalFrom(n, 2, s, b) == Ok([]);
    assert [y] + [] == [y];
    assert EvalFrom(n, 1, s, b) == Ok([y]);
    assert [x] + [y] == [x, y];
    assert EvalFrom(n, 0, s, b) == Ok([x, y]);
    assert s.callables[POW]([x, y]) == Pow(math, [x, y]);
  }

  /** The value of a `>` node is 1 when the left operand's value exceeds the right one's, and 0 otherwise. */
  lemma EvalGreater(l: Node, r: Node, s: Scope, b: Bindings)
    requires Eval(l, s, b).Ok? && Eval(r, s, b).Ok?
    ensures Eval(Binary(GreaterThan, l, r), s, b) == Ok(if Eval(l, s, b).value > Eval(r, s, b).value then 1.0 else 0.0)
  {
    var n := Binary(GreaterThan, l, r);
    assert EvalChild(n, 0, s, b) == Eval(l, s, b) && EvalChild(n, 1, s, b) == Eval(r, s, b);
    var x, y := Eval(l, s, b).value, Eval(r, s, b).value;
    assert EvalPair(n, s, b) == Ok((x, y));
    assert Eval(n, s, b) == Ok(Truth(x > y));
  }

  lemma EvalValue(v: real, s: Scope, b: Bindings)
    ensures Eval(Value(v), s, b) == Ok(v)
  {
  }

  lemma ParsesDigit(d: char)
    requires '0' <= d <= '9'
    ensures ParseNumber([d]) == Ok((d - '0') as real)
  {
    ParsesInteger([d], []);
    assert [d] + [] == [d];
    assert Whole([d]) == Whole([]) * 10 + DigitValue(d);
  }

  // ----- expressions of the test list -----

  /** An input that lexes to `tokens` parses as the outermost list `tokens`. */
  lemma ParsedAs(cfg: Config, input: string, tokens: seq<Lexer.Token>)
    requires Lexer.Lex(input) == Ok(LexedInputs.RootToken(tokens))
    ensures Parse(cfg, input) == Build(cfg, Group, tokens, None, NO_TABLES, true)
  {
  }

  /** `3 - 5 + 2`: the subtraction is applied first, and the value is 0. */
  lemma SubtractThenAdd(cfg: Config, input: string, s: Scope, b: Bindings)
    requires input == "3 - 5 + 2"
    ensures var tree := Binary(Add, Binary(Subtract, Value(3.0), Value(5.0)), Value(2.0));
      Parse(cfg, input) == Ok((Node(Group, [Sub(tree)]), NO_TABLES)) &&
      Eval(tree, s, b) == Ok(0.0)
  {
    var tokens := [Num("3"), Op("-"), Num("5"), Op("+"), Num("2")];
    LexedInputs.LexDifference();
    ParsedAs(cfg, input, tokens);
    DifferenceBuilds(cfg, tokens);
    DifferenceValue(s, b);
  }

  lemma DifferenceBuilds(cfg: Config, tokens: seq<Lexer.Token>)
    requires tokens == [Num("3"), Op("-"), Num("5"), Op("+"), Num("2")]
    ensures var tree := Binary(Add, Binary(Subtract, Value(3.0), Value(5.0)), Value(2.0));
      Build(cfg, Group, tokens, None, NO_TABLES, true) == Ok((Node(Group, [Sub(tree)]), NO_TABLES))
  {
    ParsesDigit('3');
    ParsesDigit('5');
    ParsesDigit('2');
    FirstOperatorAppliesFirst(cfg, Group, "3", "-", "5", "+", "2", 3.0, 5.0, 2.0, Subtract, Add, NO_TABLES, true);
  }

  lemma DifferenceValue(s: Scope, b: Bindings)
    ensures Eval(Binary(Add, Binary(Subtract, Value(3.0), Value(5.0)), Value(2.0)), s, b) == Ok(0.0)
  {
    var difference := Binary(Subtract, Value(3.0), Value(5.0));
    assert Eval(difference, s, b) == Ok(-2.0) by {
      EvalValue(3.0, s, b);
      EvalValue(5.0, s, b);
      EvalArithmetic(Subtract, Value(3.0), Value(5.0), s, b);
    }
    assert Eval(Value(2.0), s, b) == Ok(2.0) by {
      EvalValue(2.0, s, b);
    }
    EvalArithmetic(Add, difference, Value(2.0), s, b);
  }

  /** `2^3^2`: exponentiation folds to the left, so the value is `pow(pow(2, 3), 2)`. */
  lemma PowerFoldsLeft(cfg: Config, input: string, math: MathLibrary, collectionCount: nat, b: Bindings)
    requires input == "2^3^2"
    ensures var tree := Binary(Exponentiate, Binary(Exponentiate, Value(2.0), Value(3.0)), Value(2.0));
      Parse(cfg, input) == Ok((Node(Group, [Sub(tree)]), NO_TABLES)) &&
      Eval(tree, Scope(Builtins(math), collectionCount), b) == Ok(math.pow(math.pow(2.0, 3.0), 2.0))
  {
    var tokens := [Num("2"), Op("^"), Num("3"), Op("^"), Num("2")];
    LexedInputs.LexPowers();
    ParsedAs(cfg, input, tokens);
    PowersBuild(cfg, tokens);
    PowersValue(math, collectionCount, b);
  }

  lemma PowersBuild(cfg: Config, tokens: seq<Lexer.Token>)
    requires tokens == [Num("2"), Op("^"), Num("3"), Op("^"), Num("2")]
    ensures var tree := Binary(Exponentiate, Binary(Exponentiate, Value(2.0), Value(3.0)), Value(2.0));
      Build(cfg, Group, tokens, None, NO_TABLES, true) == Ok((Node(Group, [Sub(tree)]), NO_TABLES))
  {
    ParsesDigit('2');
    ParsesDigit('3');
    FirstOperatorAppliesFirst(cfg, Group, "2", "^", "3", "^", "2", 2.0, 3.0, 2.0, Exponentiate, Exponentiate, NO_TABLES, true);
  }

  lemma PowersValue(math: MathLibrary, collectionCount: nat, b: Bindings)
    ensures var tree := Binary(Exponentiate, Binary(Exponentiate, Value(2.0), Value(3.0)), Value(2.0));
      Eval(tree, Scope(Builtins(math), collectionCount), b) == Ok(math.pow(math.pow(2.0, 3.0), 2.0))
  {
    var s := Scope(Builtins(math), collectionCount);
    EvalValue(2.0, s, b);
    EvalValue(3.0, s, b);
    EvalPower(math, Value(2.0), Value(3.0), collectionCount, b);
    EvalPower(math, Binary(Exponentiate, Value(2.0), Value(3.0)), Value(2.0), collectionCount, b);
  }

  /**
    `1>0 ? 1 : 2`: the ternary binds more tightly than the comparison, so the
    expression reads `1 > (0 ? 1 : 2)`.
   */
  lemma TernaryBindsTighterThanComparison(cfg: Config, input: string)
    requires input == "1>0 ? 1 : 2"
    ensures var choice := Node(IfThenElse, [Sub(Value(0.0)), Sub(Node(Group, [Sub(Value(1.0))])), Sub(Value(2.0))]);
      Parse(cfg, input) == Ok((Node(Group, [Sub(Binary(GreaterThan, Value(1.0), choice))]), NO_TABLES))
  {
    var tokens := [Num("1"), Op(">"), Num("0"), Branch("?", [Num("1")]), Op(":"), Num("2")];
    assert Parse(cfg, input) == Build(cfg, Group, tokens, None, NO_TABLES, true) by {
      LexedInputs.LexCompared();
      ParsedAs(cfg, input, tokens);
    }
    ComparedBuilds(cfg);
  }

  lemma ComparedBuilds(cfg: Config)
    ensures var choice := Node(IfThenElse, [Sub(Value(0.0)), Sub(Node(Group, [Sub(Value(1.0))])), Sub(Value(2.0))]);
      Build(cfg, Group, [Num("1"), Op(">"), Num("0"), Branch("?", [Num("1")]), Op(":"), Num("2")], None, NO_TABLES, true)
        == Ok((Node(Group, [Sub(Binary(GreaterThan, Value(1.0), choice))]), NO_TABLES))
  {
    ParsesDigit('0');
    ParsesDigit('1');
    ParsesDigit('2');
    TernaryUnderOperator(cfg, "1", ">", "0", "?", "1", ":", "2", 1.0, 0.0, 1.0, 2.0, GreaterThan, true);
  }

  /** `a o b ? c : d` with a plain operator `o`: the choice is the right operand of `o`. */
  lemma TernaryUnderOperator(cfg: Config, a: string, o: string, b: string, q: string, c: string, e: string, d: string,
                             va: real, vb: real, vc: real, vd: real, k: Kind, topLevel: bool)
    requires ParseNumber(a) == Ok(va) && ParseNumber(b) == Ok(vb) && ParseNumber(c) == Ok(vc) && ParseNumber(d) == Ok(vd)
    requires InfixKind(o) == Some(k) && Plain(k) && InfixKind(e) == Some(ElseMark)
    ensures var choice := Node(IfThenElse, [Sub(Value(vb)), Sub(Node(Group, [Sub(Value(vc))])), Sub(Value(vd))]);
      Build(cfg, Group, [Num(a), Op(o), Num(b), Branch(q, [Num(c)]), Op(e), Num(d)], None, NO_TABLES, topLevel)
        == Ok((Node(Group, [Sub(Binary(k, Value(va), choice))]), NO_TABLES))
  {
    var tokens := [Num(a), Op(o), Num(b), Branch(q, [Num(c)]), Op(e), Num(d)];
    TernaryShape(a, o, b, q, c, e, d, va, vb, vd, k);
    ComparedTernaryRun(cfg, tokens, topLevel, c, va, vb, vc, vd, k);
    var choice := Node(IfThenElse, [Sub(Value(vb)), Sub(Node(Group, [Sub(Value(vc))])), Sub(Value(vd))]);
    ReduceTernary(Value(va), Value(vb), Value(vc), Value(vd), k);
    BuildFromRun(cfg, Group, tokens, NO_TABLES, topLevel,
                 ListState([], Pending([Value(va), Value(vb), Node(ThenMark, [Sub(Value(vc))]), Value(vd)], [k, ThenMark, ElseMark]), NO_TABLES),
                 Binary(k, Value(va), choice));
  }

  /** The tree of `1>0 ? 1 : 2` evaluates to 0, the value test.h expects for it. */
  lemma ComparedTernaryValue(math: MathLibrary, collectionCount: nat, b: Bindings)
    ensures var choice := Node(IfThenElse, [Sub(Value(0.0)), Sub(Node(Group, [Sub(Value(1.0))])), Sub(Value(2.0))]);
      Eval(Binary(GreaterThan, Value(1.0), choice), Scope(Builtins(math), collectionCount), b) == Ok(0.0)
  {
    var choice := Node(IfThenElse, [Sub(Value(0.0)), Sub(Node(Group, [Sub(Value(1.0))])), Sub(Value(2.0))]);
    var s := Scope(Builtins(math), collectionCount);
    EvalValue(0.0, s, b);
    EvalValue(1.0, s, b);
    EvalValue(2.0, s, b);
    assert Eval(Node(Group, [Sub(Value(1.0))]), s, b) == Ok(1.0);
    IfThenElseSelectsBranch(math, Value(0.0), Node(Group, [Sub(Value(1.0))]), Value(2.0), collectionCount, b);
    EvalGreater(Value(1.0), choice, s, b);
  }

  // ----- nested ternaries -----

  /** A `?` branch holding one number and the `:` after it: both are pushed, and nothing is reduced. */
  lemma BranchElseRun(cfg: Config, tokens: seq<Lexer.Token>, i: nat, nodes: seq<Node>, ops: seq<Kind>, topLevel: bool, b: string, vb: real)
    requires i + 1 < |tokens| && tokens[i] == Branch(tokens[i].value, [Num(b)]) && ParseNumber(b) == Ok(vb)
    requires OperatorAt(tokens, i + 1, ElseMark)
    ensures Run(cfg, tokens, i, ListState([], Pending(nodes, ops), NO_TABLES), topLevel)
            == Run(cfg, tokens, i + 2, ListState([], Pending(nodes + [Node(ThenMark, [Sub(Value(vb))])], ops + [ThenMark, ElseMark]), NO_TABLES), topLevel)
  {
    BranchRun(cfg, tokens, i, ListState([], Pending(nodes, ops), NO_TABLES), topLevel, b, vb);
    var held := Pending(nodes + [Node(ThenMark, [Sub(Value(vb))])], ops + [ThenMark]);
    ReduceStopsAtBranch(held, ElseMark);
    OperatorRun(cfg, tokens, i + 1, ListState([], held, NO_TABLES), topLevel, ElseMark, held);
    assert ops + [ThenMark] + [ElseMark] == ops + [ThenMark, ElseMark];
  }

  /** A number, a `?` branch holding one number and a `:`. */
  lemma ChoiceRun(cfg: Config, tokens: seq<Lexer.Token>, i: nat, nodes: seq<Node>, ops: seq<Kind>, topLevel: bool,
                  b: string, va: real, vb: real)
    requires i + 2 < |tokens| && NumberAt(tokens, i, va)
    requires tokens[i + 1] == Branch(tokens[i + 1].value, [Num(b)]) && ParseNumber(b) == Ok(vb) && OperatorAt(tokens, i + 2, ElseMark)
    ensures Run(cfg, tokens, i, ListState([], Pending(nodes, ops), NO_TABLES), topLevel)
            == Run(cfg, tokens, i + 3, ListState([], Pending(nodes + [Value(va), Node(ThenMark, [Sub(Value(vb))])], ops + [ThenMark, ElseMark]), NO_TABLES), topLevel)
  {
    NumberRun(cfg, tokens, i, ListState([], Pending(nodes, ops), NO_TABLES), topLevel, va);
    BranchElseRun(cfg, tokens, i + 1, nodes + [Value(va)], ops, topLevel, b, vb);
    assert nodes + [Value(va)] + [Node(ThenMark, [Sub(Value(vb))])] == nodes + [Value(va), Node(ThenMark, [Sub(Value(vb))])];
  }

  /** The token loop over `a ? b : c ? d :`: each `_then_` stops the reduction, so all four markers stay pending. */
  lemma NestedBranchesRun(cfg: Config, tokens: seq<Lexer.Token>, topLevel: bool, b: string, d: string,
                          va: real, vb: real, vc: real, vd: real)
    requires |tokens| > 6 && NumberAt(tokens, 0, va) && tokens[1] == Branch(tokens[1].value, [Num(b)]) && ParseNumber(b) == Ok(vb)
    requires OperatorAt(tokens, 2, ElseMark) && NumberAt(tokens, 3, vc)
    requires tokens[4] == Branch(tokens[4].value, [Num(d)]) && ParseNumber(d) == Ok(vd) && OperatorAt(tokens, 5, ElseMark)
    ensures Run(cfg, tokens, 0, ListState([], Pending([], []), NO_TABLES), topLevel)
            == Run(cfg, tokens, 6, ListState([], Pending([Value(va), Node(ThenMark, [Sub(Value(vb))]), Value(vc), Node(ThenMark, [Sub(Value(vd))])],
                                                        [ThenMark, ElseMark, ThenMark, ElseMark]), NO_TABLES), topLevel)
  {
    var first := [Value(va), Node(ThenMark, [Sub(Value(vb))])];
    ChoiceRun(cfg, tokens, 0, [], [], topLevel, b, va, vb);
    assert [] + first == first && [] + [ThenMark, ElseMark] == [ThenMark, ElseMark];
    ChoiceRun(cfg, tokens, 3, first, [ThenMark, ElseMark], topLevel, d, vc, vd);
    assert first + [Value(vc), Node(ThenMark, [Sub(Value(vd))])] == [Value(va), Node(ThenMark, [Sub(Value(vb))]), Value(vc), Node(ThenMark, [Sub(Value(vd))])];
    assert [ThenMark, ElseMark] + [ThenMark, ElseMark] == [ThenMark, ElseMark, ThenMark, ElseMark];
  }

  /** `_else` over `c _then_ e`, with a condition that is no `if` list: the choice replaces the three nodes. */
  lemma ApplyElse(below: seq<Node>, c: Node, t: Node, e: Node, ops: seq<Kind>)
    requires c.kind != IfMark
    ensures ApplyTop(Pending(below + [c, Node(ThenMark, [Sub(t)]), e], ops + [ThenMark, ElseMark]))
            == Ok(Pending(below + [Node(IfThenElse, [Sub(c), Sub(Node(Group, [Sub(t)])), Sub(e)])], ops))
  {
    var p := Pending(below + [c, Node(ThenMark, [Sub(t)]), e], ops + [ThenMark, ElseMark]);
    var k := |p.nodes|;
    assert p.nodes[k - 3] == c && p.nodes[k - 2] == Node(ThenMark, [Sub(t)]) && p.nodes[k - 1] == e && p.nodes[..k - 3] == below;
    assert p.ops[|p.ops| - 2] == ThenMark && p.ops[..|p.ops| - 2] == ops;
  }

  /**
    At the end of `a ? b : c ? d : f`, the inner choice is built first and
    becomes the alternative of the outer one: `?`/`:` chains fold to the right.
   */
  lemma ReduceNested(a: Node, b: Node, c: Node, d: Node, f: Node)
    requires a.kind != IfMark && c.kind != IfMark
    ensures var inner := Node(IfThenElse, [Sub(c), Sub(Node(Group, [Sub(d)])), Sub(f)]);
      ReduceAll(Pending([a, Node(ThenMark, [Sub(b)]), c, Node(ThenMark, [Sub(d)]), f], [ThenMark, ElseMark, ThenMark, ElseMark]))
        == Ok(Pending([Node(IfThenElse, [Sub(a), Sub(Node(Group, [Sub(b)])), Sub(inner)])], []))
  {
    var inner := Node(IfThenElse, [Sub(c), Sub(Node(Group, [Sub(d)])), Sub(f)]);
    var outer := Node(IfThenElse, [Sub(a), Sub(Node(Group, [Sub(b)])), Sub(inner)]);
    var first := [a, Node(ThenMark, [Sub(b)])];
    var p0 := Pending([a, Node(ThenMark, [Sub(b)]), c, Node(ThenMark, [Sub(d)]), f], [ThenMark, ElseMark, ThenMark, ElseMark]);
    var p1 := Pending([a, Node(ThenMark, [Sub(b)]), inner], [ThenMark, ElseMark]);
    var p2 := Pending([outer], []);
    assert ApplyTop(p0) == Ok(p1) by {
      assert p0.nodes == first + [c, Node(ThenMark, [Sub(d)]), f];
      assert p0.ops == [ThenMark, ElseMark] + [ThenMark, ElseMark];
      ApplyElse(first, c, d, f, [ThenMark, ElseMark]);
      assert first + [inner] == p1.nodes;
    }
    assert ApplyTop(p1) == Ok(p2) by {
      assert p1.nodes == [] + [a, Node(ThenMark, [Sub(b)]), inner];
      assert p1.ops == [] + [ThenMark, ElseMark];
      ApplyElse([], a, b, inner, []);
      assert [] + [outer] == [outer];
    }
    ReduceAllApplies(p0, p1);
    ReduceAllApplies(p1, p2);
  }

  /** At the end of a list, reduction goes on with what the top operator leaves. */
  lemma ReduceAllApplies(p: Pending, q: Pending)
    requires p.ops != [] && ApplyTop(p) == Ok(q)
    ensures ReduceAll(p) == ReduceAll(q)
  {
  }

  lemma NestedShape(a: string, q1: string, b: string, e1: string, c: string, q2: string, d: string, e2: string, tail: seq<Lexer.Token>,
                    va: real, vc: real)
    requires tail != [] && !tail[0].category.Postfix?
    requires ParseNumber(a) == Ok(va) && ParseNumber(c) == Ok(vc)
    requires InfixKind(e1) == Some(ElseMark) && InfixKind(e2) == Some(ElseMark)
    ensures var tokens := [Num(a), Branch(q1, [Num(b)]), Op(e1), Num(c), Branch(q2, [Num(d)]), Op(e2)] + tail;
      NumberAt(tokens, 0, va) && tokens[1] == Branch(tokens[1].value, [Num(b)]) && OperatorAt(tokens, 2, ElseMark) &&
      NumberAt(tokens, 3, vc) && tokens[4] == Branch(tokens[4].value, [Num(d)]) && OperatorAt(tokens, 5, ElseMark)
  {
    var tokens := [Num(a), Branch(q1, [Num(b)]), Op(e1), Num(c), Branch(q2, [Num(d)]), Op(e2)] + tail;
    assert tokens[0] == Num(a) && tokens[1] == Branch(q1, [Num(b)]) && tokens[2] == Op(e1);
    assert tokens[3] == Num(c) && tokens[4] == Branch(q2, [Num(d)]) && tokens[5] == Op(e2) && tokens[6] == tail[0];
  }

  /** `a ? b : c ? d : f`: the second choice is the alternative of the first. */
  lemma NestedTernary(cfg: Config, a: string, q1: string, b: string, e1: string, c: string, q2: string, d: string, e2: string, f: string,
                      va: real, vb: real, vc: real, vd: real, vf: real, topLevel: bool)
    requires ParseNumber(a) == Ok(va) && ParseNumber(b) == Ok(vb) && ParseNumber(c) == Ok(vc)
    requires ParseNumber(d) == Ok(vd) && ParseNumber(f) == Ok(vf)
    requires InfixKind(e1) == Some(ElseMark) && InfixKind(e2) == Some(ElseMark)
    ensures var inner := Node(IfThenElse, [Sub(Value(vc)), Sub(Node(Group, [Sub(Value(vd))])), Sub(Value(vf))]);
      Build(cfg, Group, [Num(a), Branch(q1, [Num(b)]), Op(e1), Num(c), Branch(q2, [Num(d)]), Op(e2), Num(f)], None, NO_TABLES, topLevel)
        == Ok((Node(Group, [Sub(Node(IfThenElse, [Sub(Value(va)), Sub(Node(Group, [Sub(Value(vb))])), Sub(inner)]))]), NO_TABLES))
  {
    var tokens := [Num(a), Branch(q1, [Num(b)]), Op(e1), Num(c), Branch(q2, [Num(d)]), Op(e2), Num(f)];
    var nodes := [Value(va), Node(ThenMark, [Sub(Value(vb))]), Value(vc), Node(ThenMark, [Sub(Value(vd))])];
    var ops := [ThenMark, ElseMark, ThenMark, ElseMark];
    var last := ListState([], Pending(nodes + [Value(vf)], ops), NO_TABLES);
    assert Run(cfg, tokens, 0, ListState([], Pending([], []), NO_TABLES), topLevel) == Ok(last) by {
      assert tokens == [Num(a), Branch(q1, [Num(b)]), Op(e1), Num(c), Branch(q2, [Num(d)]), Op(e2)] + [Num(f)];
      NestedShape(a, q1, b, e1, c, q2, d, e2, [Num(f)], va, vc);
      NestedBranchesRun(cfg, tokens, topLevel, b, d, va, vb, vc, vd);
      assert NumberAt(tokens, 6, vf);
      LastNumberRun(cfg, tokens, 6, nodes, ops, NO_TABLES, topLevel, vf);
    }
    var inner := Node(IfThenElse, [Sub(Value(vc)), Sub(Node(Group, [Sub(Value(vd))])), Sub(Value(vf))]);
    var outer := Node(IfThenElse, [Sub(Value(va)), Sub(Node(Group, [Sub(Value(vb))])), Sub(inner)]);
    assert ReduceAll(last.pending) == Ok(Pending([outer], [])) by {
      assert nodes + [Value(vf)] == [Value(va), Node(ThenMark, [Sub(Value(vb))]), Value(vc), Node(ThenMark, [Sub(Value(vd))]), Value(vf)];
      ReduceNested(Value(va), Value(vb), Value(vc), Value(vd), Value(vf));
    }
    BuildFromRun(cfg, Group, tokens, NO_TABLES, topLevel, last, outer);
  }

  /** A prefix `-` followed by a number that ends the list: the prefix token pushes nothing, and the number is pushed negated. */
  lemma NegatedLastRun(cfg: Config, tokens: seq<Lexer.Token>, i: nat, nodes: seq<Node>, ops: seq<Kind>, tables: Tables, topLevel: bool, v: real)
    requires i + 2 == |tokens| && tokens[i] == Lexer.Token(Lexer.Prefix, Lexer.Operator, "-", [])
    requires tokens[i + 1] == Num(tokens[i + 1].value) && ParseNumber(tokens[i + 1].value) == Ok(v)
    ensures Run(cfg, tokens, i, ListState([], Pending(nodes, ops), tables), topLevel)
            == Ok(ListState([], Pending(nodes + [Node(Negate, [Sub(Value(v))])], ops), tables))
  {
    var st := ListState([], Pending(nodes, ops), tables);
    var last := ListState([], Pending(nodes + [Node(Negate, [Sub(Value(v))])], ops), tables);
    assert Step(cfg, tokens, i, st, topLevel) == Ok(st);
    assert WrapPostfix(tokens, i + 1, Value(v)) == Ok(Value(v));
    assert WrapPrefix(tokens, i + 1, Value(v)) == Ok(Node(Negate, [Sub(Value(v))]));
    assert Step(cfg, tokens, i + 1, st, topLevel) == Ok(last);
    RunEnds(cfg, tokens, last, topLevel);
  }

  /** The token loop over `a ? b : c ? d : -f`. */
  lemma NestedNegatedRun(cfg: Config, tokens: seq<Lexer.Token>, a: string, q1: string, b: string, e1: string, c: string, q2: string,
                         d: string, e2: string, f: string, va: real, vb: real, vc: real, vd: real, vf: real, topLevel: bool)
    requires ParseNumber(a) == Ok(va) && ParseNumber(b) == Ok(vb) && ParseNumber(c) == Ok(vc)
    requires ParseNumber(d) == Ok(vd) && ParseNumber(f) == Ok(vf)
    requires InfixKind(e1) == Some(ElseMark) && InfixKind(e2) == Some(ElseMark)
    requires tokens == [Num(a), Branch(q1, [Num(b)]), Op(e1), Num(c), Branch(q2, [Num(d)]), Op(e2)]
                       + [Lexer.Token(Lexer.Prefix, Lexer.Operator, "-", []), Num(f)]
    ensures Run(cfg, tokens, 0, ListState([], Pending([], []), NO_TABLES), topLevel)
            == Ok(ListState([], Pending([Value(va), Node(ThenMark, [Sub(Value(vb))]), Value(vc), Node(ThenMark, [Sub(Value(vd))]),
                                         Node(Negate, [Sub(Value(vf))])], [ThenMark, ElseMark, ThenMark, ElseMark]), NO_TABLES))
  {
    var minus := Lexer.Token(Lexer.Prefix, Lexer.Operator, "-", []);
    var nodes := [Value(va), Node(ThenMark, [Sub(Value(vb))]), Value(vc), Node(ThenMark, [Sub(Value(vd))])];
    var ops := [ThenMark, ElseMark, ThenMark, ElseMark];
    var held := ListState([], Pending(nodes, ops), NO_TABLES);
    assert Run(cfg, tokens, 0, ListState([], Pending([], []), NO_TABLES), topLevel) == Run(cfg, tokens, 6, held, topLevel) by {
      NestedShape(a, q1, b, e1, c, q2, d, e2, [minus, Num(f)], va, vc);
      NestedBranchesRun(cfg, tokens, topLevel, b, d, va, vb, vc, vd);
    }
    assert Run(cfg, tokens, 6, held, topLevel) == Ok(ListState([], Pending(nodes + [Node(Negate, [Sub(Value(vf))])], ops), NO_TABLES)) by {
      assert |tokens| == 8 && tokens[6] == minus && tokens[7] == Num(f);
      NegatedLastRun(cfg, tokens, 6, nodes, ops, NO_TABLES, topLevel, vf);
    }
    assert nodes + [Node(Negate, [Sub(Value(vf))])]
        == [Value(va), Node(ThenMark, [Sub(Value(vb))]), Value(vc), Node(ThenMark, [Sub(Value(vd))]), Node(Negate, [Sub(Value(vf))])];
  }

  /** `a ? b : c ? d : -f`: as `NestedTernary`, with the negated `f` as the inner alternative. */
  lemma NestedTernaryNegatedLast(cfg: Config, a: string, q1: string, b: string, e1: string, c: string, q2: string, d: string, e2: string, f: string,
                                 va: real, vb: real, vc: real, vd: real, vf: real, topLevel: bool)
    requires ParseNumber(a) == Ok(va) && ParseNumber(b) == Ok(vb) && ParseNumber(c) == Ok(vc)
    requires ParseNumber(d) == Ok(vd) && ParseNumber(f) == Ok(vf)
    requires InfixKind(e1) == Some(ElseMark) && InfixKind(e2) == Some(ElseMark)
    ensures var inner := Node(IfThenElse, [Sub(Value(vc)), Sub(Node(Group, [Sub(Value(vd))])), Sub(Node(Negate, [Sub(Value(vf))]))]);
      Build(cfg, Group, [Num(a), Branch(q1, [Num(b)]), Op(e1), Num(c), Branch(q2, [Num(d)]), Op(e2),
                         Lexer.Token(Lexer.Prefix, Lexer.Operator, "-", []), Num(f)], None, NO_TABLES, topLevel)
        == Ok((Node(Group, [Sub(Node(IfThenElse, [Sub(Value(va)), Sub(Node(Group, [Sub(Value(vb))])), Sub(inner)]))]), NO_TABLES))
  {
    var tokens := [Num(a), Branch(q1, [Num(b)]), Op(e1), Num(c), Branch(q2, [Num(d)]), Op(e2),
                   Lexer.Token(Lexer.Prefix, Lexer.Operator, "-", []), Num(f)];
    var negated := Node(Negate, [Sub(Value(vf))]);
    var pending := Pending([Value(va), Node(ThenMark, [Sub(Value(vb))]), Value(vc), Node(ThenMark, [Sub(Value(vd))]), negated],
                           [ThenMark, ElseMark, ThenMark, ElseMark]);
    assert tokens == [Num(a), Branch(q1, [Num(b)]), Op(e1), Num(c), Branch(q2, [Num(d)]), Op(e2)]
                   + [Lexer.Token(Lexer.Prefix, Lexer.Operator, "-", []), Num(f)];
    NestedNegatedRun(cfg, tokens, a, q1, b, e1, c, q2, d, e2, f, va, vb, vc, vd, vf, topLevel);
    var inner := Node(IfThenElse, [Sub(Value(vc)), Sub(Node(Group, [Sub(Value(vd))])), Sub(negated)]);
    var outer := Node(IfThenElse, [Sub(Value(va)), Sub(Node(Group, [Sub(Value(vb))])), Sub(inner)]);
    ReduceNested(Value(va), Value(vb), Value(vc), Value(vd), negated);
    BuildFromRun(cfg, Group, tokens, NO_TABLES, topLevel, ListState([], pending, NO_TABLES), outer);
  }

  /**
    The value of `a ? b : c ? d : e` is `b` when `a` is true, otherwise `d`
    when `c` is true, otherwise the value of `e`.
   */
  lemma NestedTernaryValue(math: MathLibrary, va: real, vb: real, vc: real, vd: real, e: Node, collectionCount: nat, b: Bindings)
    requires Eval(e, Scope(Builtins(math), collectionCount), b).Ok?
    ensures var s := Scope(Builtins(math), collectionCount);
      var inner := Node(IfThenElse, [Sub(Value(vc)), Sub(Node(Group, [Sub(Value(vd))])), Sub(e)]);
      Eval(Node(IfThenElse, [Sub(Value(va)), Sub(Node(Group, [Sub(Value(vb))])), Sub(inner)]), s, b)
        == Ok(if IsTrue(va) then vb else if IsTrue(vc) then vd else Eval(e, s, b).value)
  {
    var s := Scope(Builtins(math), collectionCount);
    var inner := Node(IfThenElse, [Sub(Value(vc)), Sub(Node(Group, [Sub(Value(vd))])), Sub(e)]);
    assert Eval(inner, s, b) == Ok(if IsTrue(vc) then vd else Eval(e, s, b).value) by {
      EvalValue(vc, s, b);
      EvalValue(vd, s, b);
      GroupValue(Node(Group, [Sub(Value(vd))]), s, b);
      IfThenElseSelectsBranch(math, Value(vc), Node(Group, [Sub(Value(vd))]), e, collectionCount, b);
    }
    EvalValue(va, s, b);
    EvalValue(vb, s, b);
    GroupValue(Node(Group, [Sub(Value(vb))]), s, b);
    IfThenElseSelectsBranch(math, Value(va), Node(Group, [Sub(Value(vb))]), inner, collectionCount, b);
  }

  /** `true ? 1 : false ? 0 : -1`: the second choice is the alternative of the first, and the value is 1. */
  lemma NestedChoiceSelectsFirst(cfg: Config, input: string, math: MathLibrary, collectionCount: nat, b: Bindings)
    requires input == "true ? 1 : false ? 0 : -1"
    ensures var inner := Node(IfThenElse, [Sub(Value(0.0)), Sub(Node(Group, [Sub(Value(0.0))])), Sub(Node(Negate, [Sub(Value(1.0))]))]);
      var tree := Node(IfThenElse, [Sub(Value(1.0)), Sub(Node(Group, [Sub(Value(1.0))])), Sub(inner)]);
      Parse(cfg, input) == Ok((Node(Group, [Sub(tree)]), NO_TABLES)) &&
      Eval(tree, Scope(Builtins(math), collectionCount), b) == Ok(1.0)
  {
    var tokens := [Num("1"), Branch("?", [Num("1")]), Op(":"), Num("0"), Branch("?", [Num("0")]), Op(":"),
                   Lexer.Token(Lexer.Prefix, Lexer.Operator, "-", []), Num("1")];
    assert Parse(cfg, input) == Build(cfg, Group, tokens, None, NO_TABLES, true) by {
      LexedInputs.LexNestedChoice();
      assert tokens == LexedInputs.NESTED_CHOICE_TOKENS;
      ParsedAs(cfg, input, tokens);
    }
    NestedChoiceBuilds(cfg);
    NestedChoiceValue(math, collectionCount, b);
  }

  lemma NestedChoiceBuilds(cfg: Config)
    ensures var inner := Node(IfThenElse, [Sub(Value(0.0)), Sub(Node(Group, [Sub(Value(0.0))])), Sub(Node(Negate, [Sub(Value(1.0))]))]);
      Build(cfg, Group, [Num("1"), Branch("?", [Num("1")]), Op(":"), Num("0"), Branch("?", [Num("0")]), Op(":"),
                         Lexer.Token(Lexer.Prefix, Lexer.Operator, "-", []), Num("1")], None, NO_TABLES, true)
        == Ok((Node(Group, [Sub(Node(IfThenElse, [Sub(Value(1.0)), Sub(Node(Group, [Sub(Value(1.0))])), Sub(inner)]))]), NO_TABLES))
  {
    ParsesDigit('0');
    ParsesDigit('1');
    NestedTernaryNegatedLast(cfg, "1", "?", "1", ":", "0", "?", "0", ":", "1", 1.0, 1.0, 0.0, 0.0, 1.0, true);
  }

  /** The tree of `true ? 1 : false ? 0 : -1` evaluates to 1, the value test.h expects for it. */
  lemma NestedChoiceValue(math: MathLibrary, collectionCount: nat, b: Bindings)
    ensures var inner := Node(IfThenElse, [Sub(Value(0.0)), Sub(Node(Group, [Sub(Value(0.0))])), Sub(Node(Negate, [Sub(Value(1.0))]))]);
      Eval(Node(IfThenElse, [Sub(Value(1.0)), Sub(Node(Group, [Sub(Value(1.0))])), Sub(inner)]), Scope(Builtins(math), collectionCount), b) == Ok(1.0)
  {
    var s := Scope(Builtins(math), collectionCount);
    assert Eval(Node(Negate, [Sub(Value(1.0))]), s, b) == Ok(-1.0) by {
      EvalValue(1.0, s, b);
    }
    NestedTernaryValue(math, 1.0, 1.0, 0.0, 0.0, Node(Negate, [Sub(Value(1.0))]), collectionCount, b);
  }
}

=== FILE: scoping.dfy ===
/**
  What the tree builder guarantees about the names it interns: the tables of
  variable and collection names only grow, by appending, and stay free of
  duplicates, and every index the finished tree holds refers into the tables
  as they stand at the end (or into the handle's callables).

  The guarantee holds for the corrected assignment rule (assignments only in
  the outermost list). A plain `:=` there clears the variable names; the node
  on its left, which refers to the names collected before, is discarded.
 */
module Scoping {
  import opened Basics
  import opened Syntax
  import Lexer
  import opened Builder
  import LexedShape
  import Reduction

  /** The sizes of the tables an index may refer into. */
  datatype Bounds = Bounds(variables: nat, collections: nat, callables: nat)

  function BoundsOf(t: Tables, callables: seq<string>): Bounds {
    Bounds(|t.variables|, |t.collections|, |callables|)
  }

  predicate Within(b: Bounds, b': Bounds) {
    b.variables <= b'.variables && b.collections <= b'.collections && b.callables <= b'.callables
  }

  /**
    The index operand of a node of `kind` fits: a variable into the variable
    names, a collection or an indexed collection into the collection names, a
    call or an aggregation into the callables. Other kinds hold no index.
   */
  predicate IndexFits(kind: Kind, j: nat, b: Bounds) {
    match kind
    case Variable => j < b.variables
    case Collection | Index => j < b.collections
    case FunctionCall | Aggregation => j < b.callables
    case _ => true
  }

  predicate OperandScoped(kind: Kind, o: Operand, b: Bounds)
    decreases o, 1
  {
    match o
    case Lit(_) => true
    case Idx(j) => IndexFits(kind, j, b)
    case Sub(m) => Scoped(m, b)
  }

  /** Every index anywhere in the tree fits the bounds. */
  predicate Scoped(n: Node, b: Bounds)
    decreases n, 0
  {
    forall i :: 0 <= i < |n.operands| ==> OperandScoped(n.kind, n.operands[i], b)
  }

  predicate OperandsScoped(kind: Kind, operands: seq<Operand>, b: Bounds) {
    forall i :: 0 <= i < |operands| ==> OperandScoped(kind, operands[i], b)
  }

  predicate PendingScoped(p: Pending, b: Bounds) {
    forall j :: 0 <= j < |p.nodes| ==> Scoped(p.nodes[j], b)
  }

  ghost predicate DistinctTables(t: Tables) {
    Distinct(t.variables) && Distinct(t.collections)
  }

  /**
    `t'` extends `t`: earlier names keep their positions and no duplicate
    appears; when `mayClear` holds, the variable names may instead have been
    dropped and collected afresh (a plain `:=`).
   */
  ghost predicate Grows(t: Tables, t': Tables, mayClear: bool) {
    (t.variables <= t'.variables || mayClear) && t.collections <= t'.collections &&
    (DistinctTables(t) ==> DistinctTables(t'))
  }


  // ----- bounds only grow -----

  lemma {:induction false} ScopedGrows(n: Node, b: Bounds, b': Bounds)
    requires Scoped(n, b) && Within(b, b')
    ensures Scoped(n, b')
    decreases n
  {
    forall i | 0 <= i < |n.operands|
      ensures OperandScoped(n.kind, n.operands[i], b')
    {
      if n.operands[i].Sub? {
        ScopedGrows(n.operands[i].node, b, b');
      }
    }
  }

  lemma OperandsGrow(kind: Kind, operands: seq<Operand>, b: Bounds, b': Bounds)
    requires OperandsScoped(kind, operands, b) && Within(b, b')
    ensures OperandsScoped(kind, operands, b')
  {
    forall i | 0 <= i < |operands|
      ensures OperandScoped(kind, operands[i], b')
    {
      if operands[i].Sub? {
        ScopedGrows(operands[i].node, b, b');
      }
    }
  }

  lemma NodesGrow(nodes: seq<Node>, from: nat, b: Bounds, b': Bounds)
    requires forall j :: from <= j < |nodes| ==> Scoped(nodes[j], b)
    requires Within(b, b')
    ensures forall j :: from <= j < |nodes| ==> Scoped(nodes[j], b')
  {
    forall j | from <= j < |nodes|
      ensures Scoped(nodes[j], b')
    {
      ScopedGrows(nodes[j], b, b');
    }
  }

  // ----- the stacks keep their nodes scoped -----

  /** Renaming a node's kind to `group` keeps it scoped: a group holds no index of its own. */
  lemma RegroupKeepsScope(n: Node, b: Bounds)
    requires Scoped(n, b)
    ensures Scoped(n.(kind := Group), b)
  {
    forall i | 0 <= i < |n.operands|
      ensures OperandScoped(Group, n.operands[i], b)
    {
      assert OperandScoped(n.kind, n.operands[i], b);
    }
  }

  /** A node whose operands are all scoped subtrees is scoped. */
  lemma CombinedScoped(kind: Kind, operands: seq<Operand>, b: Bounds)
    requires forall j :: 0 <= j < |operands| ==> operands[j].Sub? && Scoped(operands[j].node, b)
    ensures Scoped(Node(kind, operands), b)
  {
  }

  lemma PushKeepsScope(nodes: seq<Node>, n: Node, b: Bounds)
    requires forall j :: 0 <= j < |nodes| ==> Scoped(nodes[j], b)
    requires Scoped(n, b)
    ensures forall j :: 0 <= j < |nodes + [n]| ==> Scoped((nodes + [n])[j], b)
  {
  }

  lemma ApplyTopKeepsScope(p: Pending, b: Bounds)
    requires p.ops != [] && PendingScoped(p, b)
    ensures ApplyTop(p).Ok? ==> PendingScoped(ApplyTop(p).value, b)
  {
    if ApplyTop(p).Ok? {
      var q := ApplyTop(p).value;
      var m := |q.nodes| - 1;
      CombinedNodeScoped(p, b);
      assert q.nodes == p.nodes[..m] + [q.nodes[m]];
      PushKeepsScope(p.nodes[..m], q.nodes[m], b);
    }
  }

  /** The node the top operator builds is scoped when the nodes it combines are. */
  lemma CombinedNodeScoped(p: Pending, b: Bounds)
    requires p.ops != [] && ApplyTop(p).Ok?
    requires forall j :: |ApplyTop(p).value.nodes| - 1 <= j < |p.nodes| ==> Scoped(p.nodes[j], b)
    ensures var q := ApplyTop(p).value; Scoped(q.nodes[|q.nodes| - 1], b)
  {
    var op := p.ops[|p.ops| - 1];
    if op == ElseMark {
      ChoiceScoped(p, b);
    } else {
      var k := |p.nodes|;
      var q := ApplyTop(p).value;
      if op == Assign {
        CombinedScoped(Assign, [Sub(p.nodes[k - 1])], b);
        assert q.nodes[k - 2] == Node(Assign, [Sub(p.nodes[k - 1])]);
      } else if IsAssignment(op) {
        CombinedScoped(op, [Sub(p.nodes[k - 2]), Sub(p.nodes[k - 1])], b);
        assert q.nodes[k - 2] == Node(op, [Sub(p.nodes[k - 2]), Sub(p.nodes[k - 1])]);
      } else {
        CombinedScoped(op, [Sub(p.nodes[k - 2]), Sub(p.nodes[k - 1])], b);
        assert q.nodes[k - 2] == Node(op, [Sub(p.nodes[k - 2]), Sub(p.nodes[k - 1])]);
      }
    }
  }

  /** The choice an `_else` builds is scoped when its three nodes are. */
  lemma ChoiceScoped(p: Pending, b: Bounds)
    requires p.ops != [] && p.ops[|p.ops| - 1] == ElseMark && ApplyTop(p).Ok?
    requires forall j :: |ApplyTop(p).value.nodes| - 1 <= j < |p.nodes| ==> Scoped(p.nodes[j], b)
    ensures var q := ApplyTop(p).value; Scoped(q.nodes[|q.nodes| - 1], b)
  {
    var k := |p.nodes|;
    var condition := p.nodes[k - 3];
    var condition' := if condition.kind == IfMark then condition.(kind := Group) else condition;
    RegroupKeepsScope(condition, b);
    RegroupKeepsScope(p.nodes[k - 2], b);
    var choice := [Sub(condition'), Sub(p.nodes[k - 2].(kind := Group)), Sub(p.nodes[k - 1])];
    CombinedScoped(IfThenElse, choice, b);
    assert ApplyTop(p).value.nodes == p.nodes[..k - 3] + [Node(IfThenElse, choice)];
  }

  lemma {:induction false} ReduceAllKeepsScope(p: Pending, b: Bounds)
    requires PendingScoped(p, b)
    ensures ReduceAll(p).Ok? ==> PendingScoped(ReduceAll(p).value, b)
    decreases |p.ops|
  {
    if p.ops != [] {
      ApplyTopKeepsScope(p, b);
      if ApplyTop(p).Ok? {
        ReduceAllKeepsScope(ApplyTop(p).value, b);
      }
    }
  }

  lemma {:induction false} ReduceBeforeKeepsScope(p: Pending, op: Kind, b: Bounds)
    requires PendingScoped(p, b)
    ensures ReduceBefore(p, op).Ok? ==> PendingScoped(ReduceBefore(p, op).value, b)
    decreases |p.ops|
  {
    if p.ops != [] {
      ApplyTopKeepsScope(p, b);
      if ApplyTop(p).Ok? {
        ReduceBeforeKeepsScope(ApplyTop(p).value, op, b);
      }
    }
  }

  // ----- after a plain `:=` at the root -----

  /**
    The stacks after `x := ` has cleared the variable names: the `:=` lies at
    the bottom of the operator stack, and only the bottom node, which still
    refers to the names collected before, may be out of scope.
   */
  predicate Stale(p: Pending, b: Bounds) {
    |p.ops| >= 1 && p.ops[0] == Assign && |p.nodes| >= 1 &&
    forall j :: 1 <= j < |p.nodes| ==> Scoped(p.nodes[j], b)
  }

  /** The stacks hold at most one node and no operator, or no node at all. */
  predicate Shallow(p: Pending) {
    (p.ops == [] && |p.nodes| <= 1) || p.nodes == []
  }

  predicate PendingOk(p: Pending, b: Bounds, topLevel: bool) {
    PendingScoped(p, b) || (topLevel && Stale(p, b))
  }

  lemma PendingGrows(p: Pending, b: Bounds, b': Bounds, topLevel: bool)
    requires PendingOk(p, b, topLevel) && Within(b, b')
    ensures PendingOk(p, b', topLevel)
  {
    if PendingScoped(p, b) {
      NodesGrow(p.nodes, 0, b, b');
    } else {
      NodesGrow(p.nodes, 1, b, b');
    }
  }

  /** Applying an operator above the bottom `:=` leaves that `:=` at the bottom. */
  lemma ApplyTopKeepsBottom(p: Pending)
    requires |p.ops| >= 2 && p.ops[0] == Assign && ApplyTop(p).Ok?
    ensures ApplyTop(p).value.ops != [] && ApplyTop(p).value.ops[0] == Assign
  {
    assert p.ops[|p.ops| - 1] == ElseMark ==> p.ops[|p.ops| - 2] == ThenMark;
  }

  /** Applying an operator keeps every node above the bottom one scoped. */
  lemma ApplyTopKeepsUpperScoped(p: Pending, b: Bounds)
    requires p.ops != [] && ApplyTop(p).Ok?
    requires forall j :: 1 <= j < |p.nodes| ==> Scoped(p.nodes[j], b)
    ensures var q := ApplyTop(p).value; forall j :: 1 <= j < |q.nodes| ==> Scoped(q.nodes[j], b)
  {
    var q := ApplyTop(p).value;
    var m := |q.nodes| - 1;
    assert m >= 1 ==> Scoped(q.nodes[m], b) by {
      if m >= 1 {
        CombinedNodeScoped(p, b);
      }
    }
    assert q.nodes[..m] == p.nodes[..m];
    forall j | 1 <= j < |q.nodes|
      ensures Scoped(q.nodes[j], b)
    {
      if j < m {
        assert q.nodes[j] == q.nodes[..m][j];
      }
    }
  }

  lemma ApplyTopKeepsStale(p: Pending, b: Bounds)
    requires Stale(p, b) && |p.ops| >= 2
    ensures ApplyTop(p).Ok? ==> Stale(ApplyTop(p).value, b)
  {
    if ApplyTop(p).Ok? {
      ApplyTopKeepsBottom(p);
      ApplyTopKeepsUpperScoped(p, b);
    }
  }

  /** Only another assignment would apply the `:=` at the bottom, and none may follow it. */
  lemma {:induction false} ReduceBeforeKeepsStale(p: Pending, op: Kind, b: Bounds)
    requires Stale(p, b) && !IsAssignment(op)
    ensures ReduceBefore(p, op).Ok? ==> Stale(ReduceBefore(p, op).value, b)
    decreases |p.ops|
  {
    var top := p.ops[|p.ops| - 1];
    if Precedence(top).None? || Precedence(op).None? {
      assert ReduceBefore(p, op).Err?;
    } else if Precedence(top).value <= Precedence(op).value && top != ThenMark {
      if |p.ops| == 1 {
        assert false;
      }
      ApplyTopKeepsStale(p, b);
      if ApplyTop(p).Ok? {
        Reduction.ReduceBeforeApplies(p, op);
        ReduceBeforeKeepsStale(ApplyTop(p).value, op, b);
      } else {
        assert ReduceBefore(p, op).Err?;
      }
    } else {
      assert ReduceBefore(p, op) == Ok(p);
    }
  }

  /** When the final reduction leaves one node, the `:=` has discarded the stale bottom node. */
  lemma {:induction false} ReduceAllOfStale(p: Pending, b: Bounds)
    requires Stale(p, b)
    ensures ReduceAll(p).Ok? && |ReduceAll(p).value.nodes| == 1 ==> PendingScoped(ReduceAll(p).value, b)
    decreases |p.ops|
  {
    if |p.ops| >= 2 {
      if ApplyTop(p).Ok? {
        var q := ApplyTop(p).value;
        assert Stale(q, b) by {
          ApplyTopKeepsStale(p, b);
        }
        assert ReduceAll(p) == ReduceAll(q);
        ReduceAllOfStale(q, b);
      }
    } else if ApplyTop(p).Ok? {
      var k := |p.nodes|;
      var q := ApplyTop(p).value;
      assert p.ops == [Assign];
      assert q.ops == [];
      if k == 2 {
        assert q.nodes == [Node(Assign, [Sub(p.nodes[1])])];
        CombinedScoped(Assign, [Sub(p.nodes[1])], b);
      }
    }
  }

  /** Pushing `:=` onto shallow stacks. */
  lemma AssignAfterShallow(p: Pending, b: Bounds)
    requires Shallow(p)
    ensures ReduceBefore(p, Assign).Ok? ==>
      var q := ReduceBefore(p, Assign).value;
      PendingOk(Pending(q.nodes, q.ops + [Assign]), b, true)
  {
    if p.ops != [] && p.nodes == [] && ApplyTop(p).Ok? {
      assert false;
    }
  }

  /** The node left by the reduction at a separator or at the end of the list is scoped. */
  lemma FlushScoped(p: Pending, b: Bounds, topLevel: bool)
    requires PendingOk(p, b, topLevel)
    ensures ReduceAll(p).Ok? && |ReduceAll(p).value.nodes| == 1 ==> Scoped(ReduceAll(p).value.nodes[0], b)
  {
    if PendingScoped(p, b) {
      ReduceAllKeepsScope(p, b);
    } else {
      ReduceAllOfStale(p, b);
    }
  }

  // ----- the token loop -----

  lemma GrowsTransitive(t1: Tables, t2: Tables, t3: Tables, mayClear: bool)
    requires Grows(t1, t2, mayClear) && Grows(t2, t3, mayClear)
    ensures Grows(t1, t3, mayClear)
  {
    if !mayClear {
      assert t1.variables == t2.variables[..|t1.variables|] == t3.variables[..|t1.variables|];
    }
    assert t1.collections == t2.collections[..|t1.collections|] == t3.collections[..|t1.collections|];
  }

  /**
    The state of the loop over a list before token `i`: the operands and the
    stacks fit the tables; in the outermost list the stacks may be stale
    after a plain `:=`, and before that assignment (which may only be token
    1) they are shallow and the list has no operand yet.
   */
  ghost predicate ListInvariant(kind: Kind, i: nat, st: ListState, callables: seq<string>, topLevel: bool) {
    var b := BoundsOf(st.tables, callables);
    OperandsScoped(kind, st.operands, b) && PendingOk(st.pending, b, topLevel) &&
    (topLevel && i == 0 ==> st.pending == Pending([], []) && st.operands == []) &&
    (topLevel && i == 1 ==> Shallow(st.pending) && PendingScoped(st.pending, b) && st.operands == [])
  }

  /** What one iteration, or the rest of the loop, guarantees when it succeeds. */
  ghost predicate Advances(kind: Kind, i: nat, st: ListState, r: Result<ListState>, callables: seq<string>, topLevel: bool) {
    r.Ok? ==> Grows(st.tables, r.value.tables, topLevel) && ListInvariant(kind, i, r.value, callables, topLevel)
  }

  /**
    With assignments confined to the outermost list (which starts with an
    operand), building a list only appends fresh names to the tables, except
    that a plain `:=` in the outermost list starts the variable names afresh;
    the names stay distinct, and the node built refers only into the final
    tables and the callables.
   */
  lemma {:induction false} BuildScoped(cfg: Config, kind: Kind, tokens: seq<Lexer.Token>, index: Option<nat>, tables: Tables, topLevel: bool)
    requires cfg.rule.RootListOnly?
    requires topLevel ==> LexedShape.NoLeadingBranch(tokens) && index.None?
    requires index.Some? ==> IndexFits(kind, index.value, BoundsOf(tables, cfg.callables))
    ensures var r := Build(cfg, kind, tokens, index, tables, topLevel);
      r.Ok? ==> Grows(tables, r.value.1, topLevel) && Scoped(r.value.0, BoundsOf(r.value.1, cfg.callables))
    decreases tokens, 2, 0
  {
    var start := ListState(if index.Some? then [Idx(index.value)] else [], Pending([], []), tables);
    if index.Some? {
      assert OperandScoped(kind, Idx(index.value), BoundsOf(tables, cfg.callables));
    }
    assert ListInvariant(kind, 0, start, cfg.callables, topLevel);
    RunScoped(cfg, kind, tokens, 0, start, topLevel);
    var st := Run(cfg, tokens, 0, start, topLevel);
    if st.Ok? {
      CompleteScoped(kind, st.value.operands, st.value.pending, BoundsOf(st.value.tables, cfg.callables), topLevel);
    }
  }

  /** The node of a finished list is scoped. */
  lemma CompleteScoped(kind: Kind, operands: seq<Operand>, pending: Pending, b: Bounds, topLevel: bool)
    requires OperandsScoped(kind, operands, b) && PendingOk(pending, b, topLevel)
    ensures Complete(kind, operands, pending).Ok? ==> Scoped(Complete(kind, operands, pending).value, b)
  {
    FlushScoped(pending, b, topLevel);
    var c := Complete(kind, operands, pending);
    if c.Ok? {
      var p := ReduceAll(pending).value;
      assert c.value == Node(kind, operands + [Sub(p.nodes[0])]);
    }
  }

  lemma {:induction false} RunScoped(cfg: Config, kind: Kind, tokens: seq<Lexer.Token>, i: nat, st: ListState, topLevel: bool)
    requires cfg.rule.RootListOnly? && (topLevel ==> LexedShape.NoLeadingBranch(tokens))
    requires ListInvariant(kind, i, st, cfg.callables, topLevel)
    ensures var r := Run(cfg, tokens, i, st, topLevel);
      r.Ok? ==> Grows(st.tables, r.value.tables, topLevel) &&
                OperandsScoped(kind, r.value.operands, BoundsOf(r.value.tables, cfg.callables)) &&
                PendingOk(r.value.pending, BoundsOf(r.value.tables, cfg.callables), topLevel)
    decreases tokens, 1, |tokens| - i
  {
    if i < |tokens| {
      StepScoped(cfg, kind, tokens, i, st, topLevel);
      var next := Step(cfg, tokens, i, st, topLevel);
      if next.Ok? {
        RunScoped(cfg, kind, tokens, i + 1, next.value, topLevel);
        var r := Run(cfg, tokens, i + 1, next.value, topLevel);
        if r.Ok? {
          GrowsTransitive(st.tables, next.value.tables, r.value.tables, topLevel);
        }
      }
    }
  }

  lemma {:induction false} StepScoped(cfg: Config, kind: Kind, tokens: seq<Lexer.Token>, i: nat, st: ListState, topLevel: bool)
    requires i < |tokens|
    requires cfg.rule.RootListOnly? && (topLevel ==> LexedShape.NoLeadingBranch(tokens))
    requires ListInvariant(kind, i, st, cfg.callables, topLevel)
    ensures Advances(kind, i + 1, st, Step(cfg, tokens, i, st, topLevel), cfg.callables, topLevel)
    decreases tokens, 0, 1
  {
    var t := tokens[i];
    if t.category.Prefix? && t.tokenType.Group? {
      MarkScoped(cfg, kind, tokens, i, st, topLevel);
    } else if t.category.Infix? && t.tokenType.Group? {
      MarkScoped(cfg, kind, tokens, i, st, topLevel);
    } else if t.category.Operand? {
      OperandTokenScoped(cfg, kind, tokens, i, st, topLevel);
    } else if t.tokenType.Separator? {
      SeparatorScoped(cfg, kind, tokens, i, st, topLevel);
    } else if t.category.Infix? {
      OperatorScoped(cfg, kind, tokens, i, st, topLevel);
    }
  }

  /** Pushing a scoped node (and possibly a `_then_`) onto the stacks, after the tables have grown. */
  lemma PushScoped(kind: Kind, i: nat, st: ListState, n: Node, tables: Tables, marks: seq<Kind>, callables: seq<string>, topLevel: bool)
    requires ListInvariant(kind, i, st, callables, topLevel) && Grows(st.tables, tables, false)
    requires Scoped(n, BoundsOf(tables, callables))
    requires marks == [] || marks == [ThenMark]
    requires topLevel && i == 0 ==> marks == []
    ensures Advances(kind, i + 1, st, Ok(ListState(st.operands, Pending(st.pending.nodes + [n], st.pending.ops + marks), tables)), callables, topLevel)
  {
    var b, b' := BoundsOf(st.tables, callables), BoundsOf(tables, callables);
    OperandsGrow(kind, st.operands, b, b');
    PendingGrows(st.pending, b, b', topLevel);
    var p := Pending(st.pending.nodes + [n], st.pending.ops + marks);
    if PendingScoped(st.pending, b') {
      PushKeepsScope(st.pending.nodes, n, b');
    } else {
      assert p.ops[0] == st.pending.ops[0];
      assert Stale(p, b');
    }
  }

  /** An `if` condition group or a `then`/`?` branch group is pushed as one node. */
  lemma {:induction false} MarkScoped(cfg: Config, kind: Kind, tokens: seq<Lexer.Token>, i: nat, st: ListState, topLevel: bool)
    requires i < |tokens| && tokens[i].tokenType.Group?
    requires tokens[i].category.Prefix? || tokens[i].category.Infix?
    requires cfg.rule.RootListOnly? && (topLevel ==> LexedShape.NoLeadingBranch(tokens))
    requires ListInvariant(kind, i, st, cfg.callables, topLevel)
    ensures Advances(kind, i + 1, st, Step(cfg, tokens, i, st, topLevel), cfg.callables, topLevel)
    decreases tokens, 0, 0
  {
    var t := tokens[i];
    var mark := if t.category.Prefix? then IfMark else ThenMark;
    BuildScoped(cfg, mark, t.children, None, st.tables, false);
    var built := Build(cfg, mark, t.children, None, st.tables, false);
    if built.Ok? {
      var (n, tables) := built.value;
      PushScoped(kind, i, st, n, tables, if mark == IfMark then [] else [ThenMark], cfg.callables, topLevel);
    }
  }

  /** An operand token, with the postfix and prefix operators around it. */
  lemma {:induction false} OperandTokenScoped(cfg: Config, kind: Kind, tokens: seq<Lexer.Token>, i: nat, st: ListState, topLevel: bool)
    requires i < |tokens| && tokens[i].category.Operand?
    requires cfg.rule.RootListOnly? && ListInvariant(kind, i, st, cfg.callables, topLevel)
    ensures Advances(kind, i + 1, st, Step(cfg, tokens, i, st, topLevel), cfg.callables, topLevel)
    decreases tokens, 0, 0
  {
    var t := tokens[i];
    CreateNodeScoped(cfg, t, st.tables);
    var created := CreateNode(cfg, t, st.tables);
    if created.Ok? {
      var (n, tables) := created.value;
      WrapsScoped(tokens, i, n, BoundsOf(tables, cfg.callables));
      var post := WrapPostfix(tokens, i, n);
      if post.Ok? && WrapPrefix(tokens, i, post.value).Ok? {
        PushScoped(kind, i, st, WrapPrefix(tokens, i, post.value).value, tables, [], cfg.callables, topLevel);
      }
    }
  }

  /** The postfix and prefix operators around an operand keep its node scoped. */
  lemma WrapsScoped(tokens: seq<Lexer.Token>, i: nat, n: Node, b: Bounds)
    requires i < |tokens| && Scoped(n, b)
    ensures var post := WrapPostfix(tokens, i, n);
      post.Ok? ==> (Scoped(post.value, b) &&
                    var pre := WrapPrefix(tokens, i, post.value); pre.Ok? ==> Scoped(pre.value, b))
  {
    var post := WrapPostfix(tokens, i, n);
    if post.Ok? {
      if post.value != n {
        CombinedScoped(post.value.kind, [Sub(n)], b);
      }
      var pre := WrapPrefix(tokens, i, post.value);
      if pre.Ok? && pre.value != post.value {
        CombinedScoped(pre.value.kind, [Sub(post.value)], b);
      }
    }
  }

  /** A separator closes one operand of the list and empties the stacks. */
  lemma SeparatorScoped(cfg: Config, kind: Kind, tokens: seq<Lexer.Token>, i: nat, st: ListState, topLevel: bool)
    requires i < |tokens| && tokens[i].tokenType.Separator? && !tokens[i].category.Operand?
    requires ListInvariant(kind, i, st, cfg.callables, topLevel)
    ensures Advances(kind, i + 1, st, Step(cfg, tokens, i, st, topLevel), cfg.callables, topLevel)
  {
    var b := BoundsOf(st.tables, cfg.callables);
    FlushScoped(st.pending, b, topLevel);
  }

  /**
    An infix operator. An assignment can only be token 1 of the outermost
    list; `:=` there clears the variable names and leaves the stacks stale.
   */
  lemma OperatorScoped(cfg: Config, kind: Kind, tokens: seq<Lexer.Token>, i: nat, st: ListState, topLevel: bool)
    requires i < |tokens| && tokens[i].category.Infix? && !tokens[i].tokenType.Group? && !tokens[i].tokenType.Separator?
    requires cfg.rule.RootListOnly? && ListInvariant(kind, i, st, cfg.callables, topLevel)
    ensures Advances(kind, i + 1, st, Step(cfg, tokens, i, st, topLevel), cfg.callables, topLevel)
  {
    var t := tokens[i];
    if InfixKind(t.value).Some? {
      var op := InfixKind(t.value).value;
      var b := BoundsOf(st.tables, cfg.callables);
      if !IsAssignment(op) {
        if PendingScoped(st.pending, b) {
          ReduceBeforeKeepsScope(st.pending, op, b);
        } else {
          ReduceBeforeKeepsStale(st.pending, op, b);
          var q := ReduceBefore(st.pending, op);
          if q.Ok? {
            assert Stale(Pending(q.value.nodes, q.value.ops + [op]), b);
          }
        }
      } else if CheckAssignment(cfg, tokens, i, op, st.tables, topLevel).Ok? {
        var tables := CheckAssignment(cfg, tokens, i, op, st.tables, topLevel).value;
        if op == Assign {
          AssignAfterShallow(st.pending, BoundsOf(tables, cfg.callables));
        } else {
          ReduceBeforeKeepsScope(st.pending, op, b);
        }
      }
    }
  }

  lemma {:induction false} CreateNodeScoped(cfg: Config, t: Lexer.Token, tables: Tables)
    requires cfg.rule.RootListOnly?
    ensures var r := CreateNode(cfg, t, tables);
      r.Ok? ==> Grows(tables, r.value.1, false) && Scoped(r.value.0, BoundsOf(r.value.1, cfg.callables))
    decreases t, 3, 0
  {
    match t.tokenType
    case Number =>
    case Variable =>
    case Collection =>
    case Group => BuildScoped(cfg, Group, t.children, None, tables, false);
    case Set => BuildScoped(cfg, Set, t.children, None, tables, false);
    case Sequence => BuildScoped(cfg, Sequence, t.children, None, tables, false);
    case FunctionCall =>
      var k := Registry.CallableIndex(cfg.callables, t.value);
      if k.Ok? {
        BuildScoped(cfg, FunctionCall, t.children, Some(k.value), tables, false);
      }
    case Aggregation =>
      var k := Registry.CallableIndex(cfg.callables, t.value);
      if k.Ok? {
        BuildScoped(cfg, Aggregation, t.children, Some(k.value), tables, false);
      }
    case IndexedVariable =>
      var (k, collections) := Intern(tables.collections, t.value);
      var tables' := tables.(collections := collections);
      BuildScoped(cfg, Index, t.children, Some(k), tables', false);
      var r := Build(cfg, Index, t.children, Some(k), tables', false);
      if r.Ok? {
        GrowsTransitive(tables, tables', r.value.1, false);
      }
    case _ =>
  }

  /**
    The expression's tree and tables: the variable and collection names are
    distinct, and every variable, collection and callable index in the tree
    lies within the tables and the handle's callables.
   */
  lemma ParsedTreeIsScoped(callables: seq<string>, input: string)
    ensures var r := Parse(Config(callables, RootListOnly), input);
      r.Ok? ==> DistinctTables(r.value.1) && Scoped(r.value.0, BoundsOf(r.value.1, callables))
  {
    LexedShape.LexedRootLeads(input);
    var root := Lexer.Lex(input);
    if root.Ok? {
      BuildScoped(Config(callables, RootListOnly), Group, root.value.children, None, NO_TABLES, true);
    }
  }
}

=== FILE: syntax.dfy ===
/**
  The abstract syntax of limex.h: the node kinds (`enum class Type`), their
  printable names (`typeName`), the tables that map operator spellings to node
  kinds (`prefixTypes`, `infixTypes`, `postfixTypes`) and the precedence table
  (`precedences`), and the node itself.

  A lookup that misses (`std::unordered_map::at` throwing) yields `None`.
 */
module Syntax {
  import opened Basics

  /** The node kinds, in the order of the C++ enumeration. */
  datatype Kind =
    | Literal | Variable | Collection | Group | Set | Sequence
    | FunctionCall | Aggregation | Index
    | Negate | LogicalNot | LogicalAnd | LogicalOr
    | Add | Subtract | Multiply | Divide | Exponentiate | Square | Cube
    | LessThan | LessOrEqual | GreaterThan | GreaterOrEqual | EqualTo | NotEqualTo
    | ElementOf | NotElementOf
    | IfMark    // `if_`: the condition group of `if … then … else …`, only while parsing
    | ThenMark  // `_then_`: the `then` or `?` branch, only while parsing
    | ElseMark  // `_else`: the `else` or `:` operator, only while parsing
    | IfThenElse
    | Assign | AddAssign | SubtractAssign | MultiplyAssign | DivideAssign

  /** The kinds from `assign` onwards in the enumeration. */
  predicate IsAssignment(k: Kind) {
    k == Assign || k == AddAssign || k == SubtractAssign || k == MultiplyAssign || k == DivideAssign
  }

  /** An operand slot of a node: `std::variant<double, size_t, Node>`. */
  datatype Operand = Lit(value: real) | Idx(index: nat) | Sub(node: Node)

  datatype Node = Node(kind: Kind, operands: seq<Operand>)

  /** `typeName`. */
  function KindName(k: Kind): string {
    match k
    case Literal => "literal"
    case Variable => "variable"
    case Collection => "collection"
    case Group => "group"
    case Set => "set"
    case Sequence => "sequence"
    case FunctionCall => "function_call"
    case Aggregation => "aggregation"
    case Index => "index"
    case Negate => "negate"
    case LogicalNot => "logical_not"
    case LogicalAnd => "logical_and"
    case LogicalOr => "logical_or"
    case Add => "add"
    case Subtract => "subtract"
    case Multiply => "multiply"
    case Divide => "divide"
    case Exponentiate => "exponentiate"
    case Square => "square"
    case Cube => "cube"
    case LessThan => "less_than"
    case LessOrEqual => "less_or_equal"
    case GreaterThan => "greater_than"
    case GreaterOrEqual => "greater_or_equal"
    case EqualTo => "equal_to"
    case NotEqualTo => "not_equal_to"
    case ElementOf => "element_of"
    case NotElementOf => "not_element_of"
    case IfMark => "if_"
    case ThenMark => "_then_"
    case ElseMark => "_else"
    case IfThenElse => "if_then_else"
    case Assign => "assign"
    case AddAssign => "add_assign"
    case SubtractAssign => "subtract_assign"
    case MultiplyAssign => "multiply_assign"
    case DivideAssign => "divide_assign"
  }

  /** `prefixTypes`. */
  function PrefixKind(s: string): Option<Kind> {
    if s == "-" then Some(Negate)
    else if s == "!" || s == "\U{00AC}" then Some(LogicalNot)
    else if s == "if" then Some(IfMark)
    else None
  }

  /** `infixTypes`. */
  function InfixKind(s: string): Option<Kind> {
    if s == "&&" || s == "\U{2227}" || s == "and" then Some(LogicalAnd)
    else if s == "||" || s == "\U{2228}" || s == "or" then Some(LogicalOr)
    else if s == "+" then Some(Add)
    else if s == "-" then Some(Subtract)
    else if s == "*" then Some(Multiply)
    else if s == "/" then Some(Divide)
    else if s == "^" then Some(Exponentiate)
    else if s == "<" then Some(LessThan)
    else if s == "<=" || s == "\U{2264}" then Some(LessOrEqual)
    else if s == ">" then Some(GreaterThan)
    else if s == ">=" || s == "\U{2265}" then Some(GreaterOrEqual)
    else if s == "==" then Some(EqualTo)
    else if s == "!=" || s == "\U{2260}" then Some(NotEqualTo)
    else if s == "in" || s == "\U{2208}" then Some(ElementOf)
    else if s == "not in" || s == "\U{2209}" then Some(NotElementOf)
    else if s == "then" || s == "?" then Some(ThenMark)
    else if s == "else" || s == ":" then Some(ElseMark)
    else if s == ":=" || s == "\U{2254}" then Some(Assign)
    else if s == "+=" then Some(AddAssign)
    else if s == "-=" then Some(SubtractAssign)
    else if s == "*=" then Some(MultiplyAssign)
    else if s == "/=" then Some(DivideAssign)
    else None
  }

  /** `postfixTypes`. */
  function PostfixKind(s: string): Option<Kind> {
    if s == "\U{00B2}" then Some(Square)
    else if s == "\U{00B3}" then Some(Cube)
    else None
  }

  /**
    `precedences`: a smaller number binds tighter. Kinds that never sit on the
    operator stack (`literal`, `sequence`, `if_then_else`, …) have no entry.
   */
  function Precedence(k: Kind): Option<nat> {
    match k
    case Group | Set | FunctionCall | Aggregation | Index => Some(1)
    case Square | Cube | Exponentiate => Some(2)
    case Negate | LogicalNot => Some(3)
    case Multiply | Divide | LogicalAnd => Some(4)
    case Add | Subtract | LogicalOr => Some(5)
    case IfMark | ThenMark | ElseMark => Some(6)
    case LessThan | GreaterThan | LessOrEqual | GreaterOrEqual | EqualTo | NotEqualTo
      | ElementOf | NotElementOf => Some(7)
    case Assign | AddAssign | SubtractAssign | MultiplyAssign | DivideAssign => Some(8)
    case _ => None
  }

  /** Every kind an infix spelling maps to has a precedence, so the reduction loop never misses a lookup. */
  lemma InfixKindsHavePrecedence(s: string)
    requires InfixKind(s).Some?
    ensures Precedence(InfixKind(s).value).Some?
    ensures InfixKind(s).value != IfMark && InfixKind(s).value != IfThenElse
  {
  }
}
